=== FILE: README.md ===
# ai-ids-ips detection core in Dafny

This project models the detection core of the ai-ids-ips intrusion
detection system. It covers three parts and states their properties as
contracts and lemmas that Dafny proves.

- **Packet side** (`server/lib/packetCapture.ts`):
  - the 1000-packet window;
  - feature extraction over a window, including the TCP-flag tally;
  - the TCP flag analysis;
  - the three traffic detectors: DoS, port scan and brute force.
- **Detection engines** (`server/lib/detectionEngine.ts`):
  - the signature engine: a rule map kept in insertion order, and first-match detection;
  - the three anomaly checks;
  - the hybrid engine: signature first, then anomaly, over one packet, a batch, or the aggregate attack detectors;
  - the manager's 10,000-entry detection history and its statistics.
- **Learning models** (`server/lib/mlModels.ts`):
  - decision-tree induction with a best-split search;
  - tree prediction, and tree save and load;
  - the random forest: bootstrap bagging, majority vote, vote fractions, save and load;
  - the neural network's trained-flag lifecycle;
  - the `ModelManager` result assembly, ensemble, training, saving and loading.

Everything the program takes from outside is a parameter:

- regular-expression compilation and matching (`SignatureEngine.Regexes`);
- the information-gain function (`DecisionTree.Gain`);
- the indices `Math.random` draws for each bootstrap sample;
- the network's forward pass (`NeuralNetwork.Forward`);
- each packet's timestamp, as milliseconds.

JavaScript semantics are modelled where they change results:

- a `Map` enumerates keys in insertion order;
- a plain object enumerates array-index keys in ascending order, so the forest's majority vote resolves a tie toward the larger class;
- `||` falls back on falsy values;
- `undefined <= t` is false;
- `Math.round` rounds halves upward;
- `in` looks up the prototype chain.

Modules, one per file:

| file | module | models |
|---|---|---|
| wrappers.dfy | Wrappers | `Option`, `Result` and the errors the code throws |
| counting.dfy | Counting | the `(acc[k] \|\| 0) + 1` tallies, `Map` order, object-key order, `new Set(...).size` |
| text.dfy | Text | `split(",")`, `trim`, integer rendering, `Math.round` |
| fifo.dfy | Fifo | the push-then-shift bounded buffers |
| packets.dfy | Packets | `PacketProcessor`, `ProtocolAnalyzer.analyzeTCP` |
| traffic.dfy | Traffic | `TrafficAnalyzer` |
| results.dfy | Results | `DetectionResult` |
| signature.dfy | SignatureEngine | `SignatureDetectionEngine` |
| anomaly.dfy | AnomalyEngine | `AnomalyDetectionEngine` |
| hybrid.dfy | HybridEngine | `HybridDetectionEngine` |
| manager.dfy | DetectionManager | `DetectionEngineManager` |
| tree.dfy | DecisionTree | `DecisionTree`, `TreeNode` |
| forest.dfy | RandomForest | `RandomForestClassifier` |
| network.dfy | NeuralNetwork | `NeuralNetworkClassifier` |
| models.dfy | Models | `ModelManager` |

Behaviours of the code that a reader might not expect:

- **Malformed string patterns.** Such a pattern is compiled only when `detect` reaches the rule, and that call fails. `addRule` accepts any rule.
- **Network training on empty data.** The network's `train` completes and marks the model trained, even with no data.
- **Payload excerpt.** The source cuts the payload in a signature result to its first 500 UTF-16 code units, so the cut can fall inside a surrogate pair. The model's strings are sequences of Unicode scalar values, and it keeps the first 500 of those.
- **Forest majority ties.** A tie in the forest's majority vote goes to the larger class. The outcome is deterministic, not arbitrary.

## Model

| member | source | states |
|---|---|---|
| Fifo.Push | server/lib/packetCapture.ts:53-59 | a push within capacity appends; at capacity the oldest entry goes; the new entry is always last and the buffer never exceeds its capacity |
| Fifo.PushAllKeepsLast | server/lib/detectionEngine.ts:567-572 | any sequence of pushes leaves exactly the last `cap` items of everything pushed, in order |
| Packets.AddPacket | server/lib/packetCapture.ts:53-59 | the window keeps at most 1000 packets, the new packet last, the older ones in order minus the oldest once full |
| Packets.WindowKeepsLatest | server/lib/packetCapture.ts:53-59 | a stream of `addPacket` calls on an empty window leaves the latest 1000 packets |
| Packets.FlagTokens | server/lib/packetCapture.ts:157-159 | one token per comma-separated field, in order: that field trimmed, so no token contains a comma or starts or ends with whitespace |
| Packets.CountTokens | server/lib/packetCapture.ts:158-163 | the loop adds to each flag name's counter the occurrences of that name among the tokens and creates no key |
| Packets.CountFlags | server/lib/packetCapture.ts:145-168 | the tally has exactly the six flag names as keys and each counts the occurrences of its name among all tokens of the window (corrected: no inherited key) |
| Packets.CountFlagsAsWritten | server/lib/packetCapture.ts:145-168 | the tally with the prototype-chain `in` test as written |
| Packets.AsWrittenOnFlagNames | server/lib/packetCapture.ts:145-168 | on each of the six flag names the as-written tally holds the number of tokens equal to it, as the corrected tally does; every other key is an inherited `Object.prototype` name holding `NaN` |
| Packets.InheritedTokenAddsKey | server/lib/packetCapture.ts:160-161 | any inherited property name other than `__proto__` among the tokens becomes a key that is not a flag name |
| Packets.InheritedFlagNameAddsKey | server/lib/packetCapture.ts:160-161 | the flags string "SYN,toString" gives the as-written tally a seventh key |
| Packets.AnalyzeTcp | server/lib/packetCapture.ts:299-314 | empty flags give the empty record; otherwise all three fields are set; SYN flood holds iff a SYN token and no ACK token are present, normal handshake iff both are, reset iff an RST token is |
| Packets.SumPayload | server/lib/packetCapture.ts:90-93 | the loop's total is the sum of the payload sizes |
| Packets.SumGaps | server/lib/packetCapture.ts:115-119 | the summed consecutive gaps telescope to last minus first timestamp |
| Packets.ExtractFeatures | server/lib/packetCapture.ts:83-140 | the default record for no packets; otherwise first protocol, packet count, byte sum, distinct source and destination port counts within 1..n, rounded mean size, rounded duration and gap, and the flag tally |
| Text.SplitJoin | server/lib/packetCapture.ts:157 | `split(",")` inverts joining with commas |
| Text.Trim | server/lib/packetCapture.ts:159 | `trim` yields an infix that neither starts nor ends with whitespace and has only whitespace around it |
| Text.NatTextInjective | server/lib/mlModels.ts:744 | distinct numbers render to distinct decimal strings |
| Text.Round2 | server/lib/packetCapture.ts:136-137 | the result is a whole number of hundredths at most half a hundredth above the value and less than half a hundredth below it, which pins it to the value rounded half up |
| Traffic.PacketRate | server/lib/packetCapture.ts:385-391 | the rate times the span in seconds is the packet count; 0 when the span is not positive |
| Traffic.RateThreshold | server/lib/packetCapture.ts:398 | more than 100 packets per second iff 1000·n > 100·span, in integers |
| Traffic.DetectDos | server/lib/packetCapture.ts:372-405 | empty input gives the zero result; the source count is the number of distinct source IPs; a DoS is flagged iff the span is positive and 1000·n > 100·span; the reported rate is the packet rate (0 for a non-positive span) rounded to hundredths, never negative |
| Traffic.DetectPortScan | server/lib/packetCapture.ts:410-445 | a scan is flagged iff every packet shares one source and one destination and more than 10 destination ports occur; the target is that destination |
| Traffic.ScanGroups | server/lib/packetCapture.ts:472-481 | the scan returns the largest group count and the port of the first group in `Map` order that reaches it |
| Traffic.DetectBruteForce | server/lib/packetCapture.ts:450-490 | the attempt count is the size of the largest (source, destination, port) group, the port is that of its first such group, and the flag holds iff more than 10 |
| SignatureEngine.AddRule | server/lib/detectionEngine.ts:197-199 | `Map.set`: the rule is stored under its id, others unchanged, a new id goes last and an existing id keeps its place |
| SignatureEngine.RemoveRule | server/lib/detectionEngine.ts:204-206 | `Map.delete`: exactly that id leaves, the remaining order is unchanged, an absent id changes nothing |
| SignatureEngine.ToggleRule | server/lib/detectionEngine.ts:211-216 | only the named rule's `enabled` flag changes; an absent id changes nothing |
| SignatureEngine.RemoveUndoesAdd | server/lib/detectionEngine.ts:197-206 | removing a freshly added rule restores the rule set |
| SignatureEngine.ToggleBack | server/lib/detectionEngine.ts:211-216 | toggling back to the old flag restores the rule set |
| SignatureEngine.AddAll | server/lib/detectionEngine.ts:189-191 | adding a list of rules one by one keeps the engine well formed, and its keys are the old keys plus the listed ids |
| SignatureEngine.AddAllFreshOrder | server/lib/detectionEngine.ts:189-191 | adding rules with distinct new ids appends their ids to the key order, in list order |
| SignatureEngine.AddAllFreshRules | server/lib/detectionEngine.ts:189-191 | adding rules with distinct new ids stores each under its id and leaves the rules already present unchanged |
| SignatureEngine.AddAllFreshListed | server/lib/detectionEngine.ts:189-191 | after adding rules with distinct new ids, `getRules` lists the old rules followed by the new ones in list order |
| SignatureEngine.AddAllToEmpty | server/lib/detectionEngine.ts:189-191 | adding rules with distinct ids to an empty engine gives their ids as key order, and `getRules` returns exactly those rules in that order |
| SignatureEngine.EnabledRules | server/lib/detectionEngine.ts:262-264 | every returned rule is an enabled input rule and every enabled input rule is returned |
| SignatureEngine.EnabledCount | server/lib/detectionEngine.ts:262-264 | the filter keeps each enabled rule as often as it occurs and drops every disabled one |
| SignatureEngine.EnabledAppend | server/lib/detectionEngine.ts:262-264 | the filter distributes over concatenation and keeps a single rule iff it is enabled, so it preserves the input order |
| SignatureEngine.FirstMatch | server/lib/detectionEngine.ts:224-249 | the first enabled rule, in order, whose pattern matches; none iff no rule fires; a malformed string pattern reached before any match fails the call |
| SignatureEngine.SignatureResult | server/lib/detectionEngine.ts:233-245 | the result copies the rule's type, severity, confidence and name, tags signature, and carries the payload's first 500 characters |
| SignatureEngine.DetectFirstMatch | server/lib/detectionEngine.ts:221-250 | `detect` reports the first firing rule in insertion order, null iff none fires, and fails on the first malformed pattern it reaches |
| SignatureEngine.DefaultRules | server/lib/detectionEngine.ts:48-192 | the constructed engine is well formed, its key order is the fourteen default ids as listed, and `getRules` returns the fourteen default rules in that order, each with its listed fields |
| AnomalyEngine.DetectAnomaly | server/lib/detectionEngine.ts:296-310 | null iff none of oversized payload, suspicious port, ICMP on port 80 holds; any finding is a medium anomaly |
| AnomalyEngine.DetectAnomalyOrder | server/lib/detectionEngine.ts:315-383 | the checks apply in order: payload (65), then port (70), then protocol (75), each with its metadata |
| AnomalyEngine.AnomalyScore | server/lib/detectionEngine.ts:284-291 | the score is the distance from the mean in standard deviations, 0 for a zero deviation |
| AnomalyEngine.ScoreSymmetric | server/lib/detectionEngine.ts:284-291 | example: values equally far above and below the mean score alike |
| HybridEngine.SignatureFirst | server/lib/detectionEngine.ts:415-431 | a signature match wins and is re-tagged hybrid; only when no rule fires does the anomaly result, re-tagged, decide |
| HybridEngine.DetectNothing | server/lib/detectionEngine.ts:415-431 | null iff no rule fires and no anomaly check holds |
| HybridEngine.DetectMultiple | server/lib/detectionEngine.ts:436-447 | the batch fails iff some packet's detection fails, at the first such packet; otherwise every result is hybrid and there are at most as many as packets |
| HybridEngine.DetectMultipleAppend | server/lib/detectionEngine.ts:436-447 | a batch's results are the concatenation of the results of its two halves |
| HybridEngine.Aggregates | server/lib/detectionEngine.ts:469-509 | at most three anomaly entries, in the order "dos", "port_scan", "brute_force", each present iff its detector fires; DoS is critical at 90, port scan medium at 80, brute force high at 85, each with its description and its detector's result as metadata |
| HybridEngine.EntriesAreFindings | server/lib/detectionEngine.ts:469-509 | each of the three pushed records has the type, severity, confidence, description and metadata its heuristic gives |
| HybridEngine.MergeDetections | server/lib/detectionEngine.ts:512-517 | the merge fails iff the batch fails; otherwise it is the aggregates followed by the first per-packet result of each type not yet present, in packet order |
| HybridEngine.DetectSpecificAttacks | server/lib/detectionEngine.ts:466-520 | no two results share a threat type; the result is the aggregates followed by the first per-packet result of each type they lack, in packet order |
| HybridEngine.FirstsStep | server/lib/detectionEngine.ts:512-517 | one more per-packet result is kept iff its type is neither among the aggregates nor among the earlier results |
| DetectionManager.Record | server/lib/detectionEngine.ts:567-572 | the history becomes the last 10,000 of old history plus new results |
| DetectionManager.Detect | server/lib/detectionEngine.ts:538-544 | the hybrid result is returned and, when present, appended to the bounded history |
| DetectionManager.DetectMultiple | server/lib/detectionEngine.ts:549-553 | the batch results are returned and appended to the bounded history |
| DetectionManager.DetectSpecificAttacks | server/lib/detectionEngine.ts:558-562 | the attack results are returned and appended to the bounded history |
| DetectionManager.ClearHistory | server/lib/detectionEngine.ts:607-609 | the history is emptied and the rules kept |
| DetectionManager.BreakdownCounts | server/lib/detectionEngine.ts:592-599 | every recorded value has an entry, each entry is its number of occurrences, and the entries sum to the history size |
| DetectionManager.GetStatistics | server/lib/detectionEngine.ts:584-602 | the total is the history size; each of the three breakdowns has a key for every value in the history, each entry is the number of history entries with that value, and the entries sum to the total |
| DetectionManager.RunHistory | server/lib/detectionEngine.ts:526-612 | after any sequence of calls, including calls that throw and leave the state as it was, the history is the last 10,000 results since the last clear, after the initial history when nothing clears it |
| Counting.TallySum | server/lib/detectionEngine.ts:592-599 | a tally's entries, in `Map` order, sum to the number of items |
| Counting.Majority | server/lib/mlModels.ts:87-99 | the reduce over ascending keys returns a most frequent value, the largest on a tie |
| Counting.ImageSingleton | server/lib/packetCapture.ts:423-426 | a projection has one distinct value iff all items agree |
| DecisionTree.DescendInValues | server/lib/mlModels.ts:414-423 | prediction returns a value stored in the tree |
| DecisionTree.AsWrittenAgrees | server/lib/mlModels.ts:414-423 | the as-written predict agrees with plain descent whenever descent gives a nonzero class |
| DecisionTree.ZeroLeafOverridden | server/lib/mlModels.ts:420-422 | a split whose reached leaf is class 0 predicts the parent's class 1 as written |
| DecisionTree.Side | server/lib/mlModels.ts:258-263 | exactly the rows at or below (left) or above (right) the threshold, as strictly ascending indices |
| DecisionTree.SidesFit | server/lib/mlModels.ts:258-263 | the two sides together hold at most all rows, and exactly all rows when every row has the feature |
| DecisionTree.Thresholds | server/lib/mlModels.ts:252-255 | the candidate thresholds are the column's distinct values in increasing order |
| DecisionTree.ThresholdsOptimal | server/lib/mlModels.ts:257-276 | the threshold loop keeps a best gain at least that of every nonempty split it sees, and records one of them |
| DecisionTree.FeaturesOptimal | server/lib/mlModels.ts:251-277 | the feature loop's result has maximal gain over all candidate splits and is one of them, or none was better |
| DecisionTree.BuildTree | server/lib/mlModels.ts:212-294 | the tree is well formed, each node holds the majority label, the stop conditions give a leaf, leaves hold training labels, depth stays within `maxDepth` and leaves never outnumber samples |
| DecisionTree.BuildTreeSplits | server/lib/mlModels.ts:236-293 | a node splits iff no stop condition holds and some candidate has positive gain; the split has maximal gain and its children are grown on its two sides |
| DecisionTree.Train | server/lib/mlModels.ts:205-207 | the trained tree is well formed, no deeper than `maxDepth`, predicts only training labels, and keeps its settings |
| DecisionTree.LoadSaveNode | server/lib/mlModels.ts:440-462 | loading a saved node gives back the same tree |
| DecisionTree.SaveLoadNode | server/lib/mlModels.ts:440-462 | saving a loaded node gives back the same data |
| DecisionTree.LoadTree | server/lib/mlModels.ts:380-384 | loading fails iff the saved tree has no root |
| DecisionTree.LoadSaveTree | server/lib/mlModels.ts:369-384 | a saved tree loads back unchanged |
| DecisionTree.SaveLoadTree | server/lib/mlModels.ts:369-384 | saving a loaded tree gives back the same data |
| RandomForest.NewForest | server/lib/mlModels.ts:40-48 | a new forest has no trees and is untrained |
| RandomForest.Bootstrap | server/lib/mlModels.ts:130-145 | a bootstrap sample has as many entries as the training set, every one drawn from it |
| RandomForest.BootstrapPairs | server/lib/mlModels.ts:130-145 | every sampled row keeps its own label: each pair is a pair of the training set |
| RandomForest.TreeFor | server/lib/mlModels.ts:62-71 | each tree predicts only training labels, with labels past the last row never read, and carries the forest's settings |
| RandomForest.Train | server/lib/mlModels.ts:53-75 | empty data fails; otherwise exactly `numTrees` trees, each grown on its bootstrap draw, and the forest is trained; any label list at least as long as the rows is accepted |
| RandomForest.TrainedVotesAreLabels | server/lib/mlModels.ts:53-85 | every vote of a trained forest is a training label |
| RandomForest.Votes | server/lib/mlModels.ts:85 | one vote per tree, in order, each that tree's as-written prediction |
| RandomForest.VotesAsWritten | server/lib/mlModels.ts:414-423 | each vote equals the reached leaf's class whenever that class is not 0, and a 0 vote means the leaf says 0 |
| RandomForest.Predict | server/lib/mlModels.ts:80-100 | untrained fails; no trees fails; otherwise a most-voted class among the trees' as-written predictions, the largest on a tie |
| RandomForest.PredictProba | server/lib/mlModels.ts:105-125 | untrained fails; otherwise both fractions are nonnegative and each times `numTrees` is the number of trees voting that class |
| RandomForest.ProbaSumsToOne | server/lib/mlModels.ts:105-125 | with 0/1 votes and one tree per slot the fractions lie in [0, 1] and sum to 1 |
| RandomForest.PredictFollowsProba | server/lib/mlModels.ts:80-125 | on 0/1 votes the predicted class is the one with the larger fraction, 1 on a tie |
| RandomForest.TrainedBinaryForest | server/lib/mlModels.ts:53-125 | a forest trained on 0/1 labels yields fractions that sum to 1 and predicts the larger one |
| RandomForest.Load | server/lib/mlModels.ts:175-186 | loading fails iff some saved tree lacks a root; otherwise `numTrees`, `maxDepth`, `minSamplesSplit` and `isTrained` come from the data, tree k is the load of saved tree k, and saving gives the data back |
| RandomForest.LoadSave | server/lib/mlModels.ts:162-186 | a saved forest loads back unchanged |
| NeuralNetwork.NewNetwork | server/lib/mlModels.ts:478-489 | a new network is untrained with the given sizes and rate and 100 epochs |
| NeuralNetwork.Train | server/lib/mlModels.ts:513-540 | training marks the network trained and changes nothing else |
| NeuralNetwork.Predict | server/lib/mlModels.ts:545-552 | untrained fails; otherwise class 0 iff its probability is strictly larger |
| NeuralNetwork.TrainKeepsProba | server/lib/mlModels.ts:513-565 | probabilities are the same before and after training, and the trained network predicts the class they favour |
| NeuralNetwork.Load | server/lib/mlModels.ts:626-636 | the trained flag, weights, rate, epochs and the three sizes come from the data, and saving gives the data back |
| Models.NewManager | server/lib/mlModels.ts:647-650 | a forest of 100 trees, depth 20, split size 2, and an untrained 20-64-2 network |
| Models.NameInjective | server/lib/mlModels.ts:718-745 | distinct feature indices get distinct names |
| Models.Keyed | server/lib/mlModels.ts:742-745 | under an injective naming, every value is stored under its own name and the keys are exactly those names |
| Models.FeaturesObject | server/lib/mlModels.ts:718-748 | one key per feature, each holding that feature's value |
| Models.PredictRandomForest | server/lib/mlModels.ts:666-677 | fails iff the forest throws; otherwise, over the trees' as-written votes, an attack iff the vote is 1, "malicious" exactly then, confidence 100 times the larger fraction, probability the fraction of 1 votes |
| Models.PredictNeuralNetwork | server/lib/mlModels.ts:682-693 | fails iff untrained; otherwise an attack iff class 0 is not strictly likelier, with the same result fields |
| Models.PredictEnsemble | server/lib/mlModels.ts:698-713 | fails iff either model fails; otherwise the averaged probability and confidence, an attack iff the average exceeds one half |
| Models.BinaryVerdicts | server/lib/mlModels.ts:666-693 | with probabilities summing to 1, each model flags an attack iff its probability is at least one half, with confidence between 50 and 100 |
| Models.EnsembleAgrees | server/lib/mlModels.ts:698-713 | when both models are strictly above or both at most one half, the ensemble agrees |
| Models.EvenSplitDisagrees | server/lib/mlModels.ts:682-713 | example: at probabilities of exactly one half each model flags an attack but the ensemble does not |
| Models.TrainAll | server/lib/mlModels.ts:655-661 | fails iff the data are empty, before the network is trained; otherwise both models are trained, the forest is the one `RandomForest.Train` grows, and the network's weights unchanged |
| Models.TrainAllPredicts | server/lib/mlModels.ts:655-674 | after training on nonempty 0/1 labels with at least one tree, the forest's verdict succeeds with a probability in [0, 1] and flags an attack exactly when it is at least one half |
| Models.LoadModels | server/lib/mlModels.ts:763-767 | fails iff the forest's load fails; otherwise the network is loaded from its data |
| Models.LoadSaveModels | server/lib/mlModels.ts:753-767 | saved models load back unchanged |

## Left out

- I/O:
  - `JSON.stringify` and `JSON.parse` around every save and load: the model works on the objects themselves;
  - `console.log`;
  - `process.memoryUsage` in `getBufferStats`;
  - the database record mappings `packetToDbRecord` and `featuresToDbRecord`.
- Floating point: numbers are exact rationals. Rounding error, `NaN` from other sources and infinities are not modelled.
- Packet timestamps are integers in milliseconds, so `Date` is left out.
- Regular-expression semantics come from a parameter. The default patterns are kept as text.
- The network's forward pass, `matmul`, `relu`, `softmax` and the random weight initialisation are a parameter, and its loss loop has no effect on the model.
- The network's output is taken as the two probabilities its manager configures (`outputSize` 2). A loaded network with another output size is not modelled.
- `getFeatureImportance` of the forest, tree and node is left out. It does not affect detection.
- `calculateGain` and `calculateEntropy` are the gain parameter, since they are logarithms over floats.
- `ProtocolAnalyzer.analyzeHTTP`, `analyzeDNS` and `detectSuspiciousPatterns` are outside the detection path. The same goes for `MockPacketGenerator`, `setBaseline`, `setThreshold`, and the getters that return engines or copies.
- Traffic.DetectBruteForce: groups by the (source, destination, port) triple. The source's string key `${src}:${dst}:${port}` and its `split(":")[2]` read of the port agree with that only for addresses without a colon, such as IPv4.
- DetectionManager.GetStatistics: the breakdowns are tallies over the recorded values. The `(stats[k] || 0) + 1` update on a plain object would, for a threat type named after an inherited property, start from that property instead of 0. That case is not modelled.
- RandomForest.PredictProba: with `numTrees` 0 the model returns `Failure(NaNVote)`, where the source divides each class's vote count by 0: `Infinity` for a class that got votes, `NaN` for one that got none. On a forest with no trees the source's `predictProba` returns `[NaN, NaN]`. `predictRandomForest` never gets that far, because `predict` throws first on the empty tally, and the model's `Models.PredictRandomForest` fails there too. The two differ only for a forest loaded with `numTrees` 0 but with stored trees (`RandomForest.Load` accepts such data). There the source returns a verdict where the model's `Models.PredictRandomForest` fails:
  - all votes 0: `confidence` `NaN` and `probability` 0;
  - all votes 1: `confidence` `NaN` and `probability` `Infinity`;
  - votes for both classes: both `Infinity`;
  - no vote for 0 or 1: `confidence` `NaN` and `probability` 0.
- Packets.ExtractFeatures: tallies flags with the corrected `Packets.CountFlags`. For a token naming an inherited `Object.prototype` property (flags "SYN,toString", say) the source's `flagCounts` also carries that key, with value `null`, as `Packets.InheritedFlagNameAddsKey` shows.
- RandomForest.Votes: follows the program, which votes through the as-written `TreeNode.predict`. The corrected descent is kept beside it as `RandomForest.IntendedVotes`, and the forest's results are stated over the as-written votes.
- RandomForest.Load: a failed load in the source has already overwritten `numTrees`, `maxDepth`, `minSamplesSplit` and `isTrained`. The model reports only the failure.
- DecisionTree.Train: requires a nonempty sample. The source's `features[0].length` throws on none, and the forest only ever passes bootstrap samples of at least one row.
- SignatureEngine.SignatureResult: the excerpt is the first 500 Unicode scalar values of the payload, where the source keeps the first 500 UTF-16 code units. For a payload with characters outside the Basic Multilingual Plane the model's excerpt is longer, and the source's can end in half a surrogate pair.
- RandomForest.Train: requires at least as many labels as rows. The source never checks the lengths: with fewer labels, `labels[idx]` is `undefined` for some draws and goes into the trees as a label. The model has no undefined label. Extra labels are never read, and the model does not read them either.
- Models.TrainAll: requires at least as many labels as rows, for the same reason as `RandomForest.Train`.
- Labels are natural numbers. A negative or fractional label would enumerate differently among object keys.

## Findings

| source | as written | input that shows it | evidently intended | confidence | as-written member | corrected member |
|---|---|---|---|---|---|---|
| server/lib/packetCapture.ts:160-161 | `trimmed in flagCount` also finds inherited properties of the object literal, so such a token is "incremented" into a new key | flags "SYN,toString": the tally gains a seventh key, `toString`, serialised as `null` | count only the six flag names | not executed | Packets.CountFlagsAsWritten, Packets.InheritedFlagNameAddsKey | Packets.CountFlags |
| server/lib/mlModels.ts:420-422 | `child.predict(features) \|\| this.value` replaces a child's prediction of class 0 by the parent's majority class | node with value 1 splitting feature 0 at 0 into leaves 0 and 1, features [0]: predicts 1 where the reached leaf says 0 | return the reached leaf's class | not executed | DecisionTree.PredictAsWritten, DecisionTree.ZeroLeafOverridden, RandomForest.Votes | DecisionTree.Descend, DecisionTree.DescendInValues, RandomForest.IntendedVotes, RandomForest.VotesAsWritten |

=== FILE: anomaly.dfy ===
/** `AnomalyDetectionEngine`: three fixed per-packet checks, tried in order,
    the first that holds producing the result. */
module AnomalyEngine {
  import opened Wrappers
  import opened Results
  import opened Packets

  const PayloadSizeLimit: nat := 10000
  const SuspiciousPorts: seq<int> := [666, 1337, 4444, 5555, 6666, 7777, 8888, 9999, 31337, 65432]
  const HttpPort: int := 80

  /** The deviation threshold the engine starts with; no check reads it. */
  const DefaultThreshold: real := 2.0

  predicate OversizedPayload(p: Packet) { p.payloadSize > PayloadSizeLimit }
  predicate SuspiciousPort(p: Packet) { p.destinationPort in SuspiciousPorts }
  predicate IcmpOnHttp(p: Packet) { p.protocol == "ICMP" && p.destinationPort == HttpPort }

  function Finding(confidence: int, description: string, metadata: Metadata): Detection {
    Detection(true, "anomaly", Medium, confidence, description, Anomaly, None, metadata)
  }

  /** `detectAnomaly`: payload size first, then the destination port, then the
      protocol/port pair; no result when none of the three holds. */
  function DetectAnomaly(p: Packet): (r: Option<Detection>)
    ensures r.None? <==> !OversizedPayload(p) && !SuspiciousPort(p) && !IcmpOnHttp(p)
    ensures r.Some? ==>
      && r.value.threatDetected && r.value.threatType == "anomaly"
      && r.value.severity == Medium && r.value.detectedBy == Anomaly && r.value.payload.None?
  {
    if p.payloadSize > PayloadSizeLimit then
      Some(Finding(65, "Unusual payload size detected", PayloadSizeInfo(p.payloadSize, "< 1500")))
    else if p.destinationPort in SuspiciousPorts then
      Some(Finding(70, "Connection to suspicious port detected", PortInfo(p.destinationPort, "Known malicious port")))
    else if p.protocol == "ICMP" && p.destinationPort == HttpPort then
      Some(Finding(75, "Unusual protocol-port combination detected", ProtocolPortInfo(p.protocol, p.destinationPort)))
    else None
  }

  /** The three checks are tried in order and the first that holds decides the
      reported confidence and metadata. */
  lemma DetectAnomalyOrder(p: Packet)
    ensures var r := DetectAnomaly(p);
      && (OversizedPayload(p) ==>
            r.Some? && r.value.confidence == 65 && r.value.metadata == PayloadSizeInfo(p.payloadSize, "< 1500"))
      && (!OversizedPayload(p) && SuspiciousPort(p) ==>
            r.Some? && r.value.confidence == 70 && r.value.metadata == PortInfo(p.destinationPort, "Known malicious port"))
      && (!OversizedPayload(p) && !SuspiciousPort(p) && IcmpOnHttp(p) ==>
            r.Some? && r.value.confidence == 75 && r.value.metadata == ProtocolPortInfo(p.protocol, p.destinationPort))
  {
  }

  function Abs(x: real): real { if x < 0.0 then -x else x }

  /** `calculateAnomalyScore`: the distance from the mean in standard
      deviations, 0 for a zero deviation. */
  function AnomalyScore(value: real, mean: real, stdDev: real): (r: real)
    ensures r >= 0.0
    ensures stdDev == 0.0 ==> r == 0.0
    ensures stdDev != 0.0 ==> r * Abs(stdDev) == Abs(value - mean)
  {
    if stdDev == 0.0 then 0.0 else Abs((value - mean) / stdDev)
  }

  /** The score does not depend on which side of the mean a value lies. */
  lemma ScoreSymmetric(mean: real, d: real, stdDev: real)
    ensures AnomalyScore(mean + d, mean, stdDev) == AnomalyScore(mean - d, mean, stdDev)
  {
    if stdDev != 0.0 {
      assert (mean - d - mean) / stdDev == -((mean + d - mean) / stdDev);
    }
  }
}

=== FILE: counting.dfy ===
/** Counting helpers: the `acc[k] = (acc[k] || 0) + 1` tallies, the insertion order
    of a JavaScript `Map`, the ascending order of array-index keys of a plain object,
    and the cardinality of the `new Set(...)` of a projected sequence. */
module Counting {

  lemma AppendAssoc<T>(a: seq<T>, b: seq<T>, c: seq<T>)
    ensures a + b + c == a + (b + c)
  {
  }

  lemma PrependEmpty<T>(front: seq<T>, s: seq<T>)
    requires |front| == 0
    ensures front + s == s
  {
  }

  lemma AppendEmpty<T>(s: seq<T>, back: seq<T>)
    requires |back| == 0
    ensures s + back == s
  {
  }

  /** Dropping the last element of `a + b`, with `b` non-empty, drops it from `b`. */
  lemma AppendInit<T>(a: seq<T>, b: seq<T>)
    requires |b| > 0
    ensures (a + b)[..|a + b| - 1] == a + b[..|b| - 1]
    ensures (a + b)[|a + b| - 1] == b[|b| - 1]
  {
  }

  /** Appending the head of `all` and then its tail appends `all`. */
  lemma AppendCons<T>(front: seq<T>, all: seq<T>)
    requires |all| > 0
    ensures front + [all[0]] + all[1..] == front + all
  {
    assert all == [all[0]] + all[1..];
  }

  /** No element occurs twice. */
  predicate Distinct<T(==)>(s: seq<T>) {
    forall i, j | 0 <= i < j < |s| :: s[i] != s[j]
  }

  /** The elements of `s` without repetitions, in order of first occurrence
      (the key order of a JavaScript `Map` filled from `s`). */
  function Dedup<T(==)>(s: seq<T>): (d: seq<T>)
    ensures Distinct(d)
    ensures forall x | x in d :: x in s
    ensures forall x | x in s :: x in d
    ensures |d| <= |s|
  {
    if |s| == 0 then []
    else
      var prefix := Dedup(s[..|s| - 1]);
      var x := s[|s| - 1];
      if x in prefix then prefix else prefix + [x]
  }

  /** The tally `acc[k] = (acc[k] || 0) + 1` over `s`, as a map. */
  function Tally<T(==)>(s: seq<T>): (m: map<T, nat>)
    ensures forall x | x in m :: x in s
    ensures forall x | x in s :: x in m
    ensures forall x | x in m :: m[x] == multiset(s)[x] && m[x] >= 1
  {
    TallyFacts(s);
    Tallied(s)
  }

  function Tallied<T(==)>(s: seq<T>): map<T, nat> {
    if |s| == 0 then map[]
    else
      var m := Tallied(s[..|s| - 1]);
      var x := s[|s| - 1];
      m[x := Get(m, x) + 1]
  }

  lemma {:induction false} TallyFacts<T>(s: seq<T>)
    ensures forall x | x in Tallied(s) :: x in s
    ensures forall x | x in s :: x in Tallied(s)
    ensures forall x | x in Tallied(s) :: Tallied(s)[x] == multiset(s)[x] && Tallied(s)[x] >= 1
  {
    if |s| > 0 {
      var prefix := s[..|s| - 1];
      var x := s[|s| - 1];
      TallyFacts(prefix);
      assert s == prefix + [x];
      assert multiset(s) == multiset(prefix) + multiset{x};
    }
  }

  function Get<T>(m: map<T, nat>, x: T): nat {
    if x in m then m[x] else 0
  }

  /** The sum of the entries of `m` at `keys`. */
  function SumAt<T>(keys: seq<T>, m: map<T, nat>): nat {
    if |keys| == 0 then 0 else SumAt(keys[..|keys| - 1], m) + Get(m, keys[|keys| - 1])
  }

  lemma SumAtSnoc<T>(keys: seq<T>, m: map<T, nat>, x: T)
    ensures SumAt(keys + [x], m) == SumAt(keys, m) + Get(m, x)
  {
    assert (keys + [x])[..|keys|] == keys;
  }

  lemma {:induction false} SumAtUnaffected<T>(keys: seq<T>, m: map<T, nat>, x: T, v: nat)
    requires x !in keys
    ensures SumAt(keys, m[x := v]) == SumAt(keys, m)
  {
    if |keys| > 0 {
      SumAtUnaffected(keys[..|keys| - 1], m, x, v);
    }
  }

  lemma {:induction false} SumAtBump<T>(keys: seq<T>, m: map<T, nat>, x: T)
    requires Distinct(keys) && x in keys
    ensures SumAt(keys, m[x := Get(m, x) + 1]) == SumAt(keys, m) + 1
  {
    var prefix := keys[..|keys| - 1];
    var y := keys[|keys| - 1];
    if y == x {
      assert x !in prefix by {
        forall i | 0 <= i < |prefix| ensures prefix[i] != x {
          assert keys[i] != keys[|keys| - 1];
        }
      }
      SumAtUnaffected(prefix, m, x, Get(m, x) + 1);
    } else {
      assert x in prefix by {
        var k :| 0 <= k < |keys| && keys[k] == x;
        assert k < |keys| - 1;
        assert prefix[k] == x;
      }
      SumAtBump(prefix, m, x);
    }
  }

  lemma TallyLast<T>(s: seq<T>)
    requires |s| > 0
    ensures var m := Tally(s[..|s| - 1]); var x := s[|s| - 1];
      Tally(s) == m[x := Get(m, x) + 1]
  {
    assert Tally(s) == Tallied(s);
  }

  lemma DedupLast<T>(s: seq<T>)
    requires |s| > 0
    ensures var d := Dedup(s[..|s| - 1]); var x := s[|s| - 1];
      Dedup(s) == if x in d then d else d + [x]
  {
  }

  lemma {:induction false} TalliedKeys<T>(s: seq<T>, x: T)
    requires x in Tallied(s)
    ensures x in s
  {
    if |s| > 0 && x != s[|s| - 1] {
      TalliedKeys(s[..|s| - 1], x);
    }
  }

  /** The entries of a tally, read in `Map` insertion order, add up to the number
      of items tallied. */
  lemma TallySum<T>(s: seq<T>)
    ensures SumAt(Dedup(s), Tally(s)) == |s|
  {
    TalliedSum(s);
  }

  lemma {:induction false} TalliedSum<T>(s: seq<T>)
    ensures SumAt(Dedup(s), Tallied(s)) == |s|
  {
    if |s| > 0 {
      var prefix := s[..|s| - 1];
      var x := s[|s| - 1];
      TalliedSum(prefix);
      var d := Dedup(prefix);
      var m := Tallied(prefix);
      DedupLast(s);
      if x in d {
        SumAtBump(d, m, x);
      } else {
        if x in m {
          TalliedKeys(prefix, x);
        }
        SumAtSnoc(d, m[x := 1], x);
        SumAtUnaffected(d, m, x, 1);
      }
    }
  }

  /** The set of values a projection takes over a sequence (`new Set(s.map(f))`). */
  function Image<T, U>(s: seq<T>, f: T -> U): set<U> {
    set i | 0 <= i < |s| :: f(s[i])
  }

  lemma {:induction false} ImageCard<T, U>(s: seq<T>, f: T -> U)
    ensures |Image(s, f)| <= |s|
    ensures |s| > 0 ==> |Image(s, f)| >= 1
  {
    if |s| > 0 {
      var prefix := s[..|s| - 1];
      ImageCard(prefix, f);
      assert Image(s, f) == Image(prefix, f) + {f(s[|s| - 1])} by {
        forall y | y in Image(s, f) ensures y in Image(prefix, f) + {f(s[|s| - 1])} {
          var i :| 0 <= i < |s| && f(s[i]) == y;
          if i < |s| - 1 {
            assert f(prefix[i]) == y;
          }
        }
        forall y | y in Image(prefix, f) ensures y in Image(s, f) {
          var i :| 0 <= i < |prefix| && f(prefix[i]) == y;
          assert f(s[i]) == y;
        }
      }
      assert f(s[|s| - 1]) in Image(s, f);
    }
  }

  /** Projection distributes over concatenation. */
  lemma ImageAppend<T, U>(a: seq<T>, b: seq<T>, f: T -> U)
    ensures Image(a + b, f) == Image(a, f) + Image(b, f)
  {
    forall y | y in Image(a + b, f) ensures y in Image(a, f) + Image(b, f) {
      var i :| 0 <= i < |a + b| && f((a + b)[i]) == y;
      if i < |a| {
        assert f(a[i]) == y;
      } else {
        assert f(b[i - |a|]) == y;
      }
    }
    forall y | y in Image(a, f) + Image(b, f) ensures y in Image(a + b, f) {
      if y in Image(a, f) {
        var i :| 0 <= i < |a| && f(a[i]) == y;
        assert (a + b)[i] == a[i];
      } else {
        var i :| 0 <= i < |b| && f(b[i]) == y;
        assert (a + b)[|a| + i] == b[i];
      }
    }
  }

  /** A non-empty sequence projects to a single value exactly when every
      element projects to the value of the first. */
  lemma ImageSingleton<T, U>(s: seq<T>, f: T -> U)
    requires |s| > 0
    ensures |Image(s, f)| == 1 <==> forall i | 0 <= i < |s| :: f(s[i]) == f(s[0])
  {
    var img := Image(s, f);
    assert f(s[0]) in img;
    if forall i | 0 <= i < |s| :: f(s[i]) == f(s[0]) {
      assert img == {f(s[0])};
    }
    if |img| == 1 {
      forall i | 0 <= i < |s| ensures f(s[i]) == f(s[0]) {
        assert f(s[i]) in img;
        if f(s[i]) != f(s[0]) {
          TwoMembers(f(s[i]), f(s[0]), img);
        }
      }
    }
  }

  lemma TwoMembers<U>(a: U, b: U, img: set<U>)
    requires a in img && b in img && a != b
    ensures |img| >= 2
  {
    var pair := {a, b};
    assert |pair| == 2;
    var rest := img - pair;
    assert img == pair + rest;
    assert pair * rest == {};
  }

  /** Two different elements leave at least two distinct keys. */
  lemma DedupHasTwo<T>(s: seq<T>, a: T, b: T)
    requires a in s && b in s && a != b
    ensures |Dedup(s)| >= 2
  {
    var d := Dedup(s);
    var i :| 0 <= i < |d| && d[i] == a;
    var j :| 0 <= j < |d| && d[j] == b;
    assert i != j;
  }

  /** Strictly increasing. */
  predicate Ascending(s: seq<nat>) {
    forall i, j | 0 <= i < j < |s| :: s[i] < s[j]
  }

  function InsertAscending(s: seq<nat>, x: nat): (r: seq<nat>)
    requires Ascending(s)
    ensures Ascending(r)
    ensures forall y :: y in r <==> y in s || y == x
  {
    if |s| == 0 then [x]
    else if x < s[0] then
      assert forall i | 0 <= i < |s| :: x < s[i] by {
        forall i | 0 <= i < |s| ensures x < s[i] {
          if i > 0 {
            assert s[0] < s[i];
          }
        }
      }
      [x] + s
    else if x == s[0] then s
    else
      var rest := InsertAscending(s[1..], x);
      assert s == [s[0]] + s[1..];
      forall y | y in rest ensures s[0] < y {
        if y != x {
          var k :| 0 <= k < |s[1..]| && s[1..][k] == y;
          assert s[k + 1] == y;
        }
      }
      var r := [s[0]] + rest;
      forall i, j | 0 <= i < j < |r| ensures r[i] < r[j] {
        assert r[j] == rest[j - 1];
        if i == 0 {
          assert rest[j - 1] in rest;
        } else {
          assert r[i] == rest[i - 1];
        }
      }
      r
  }

  /** The distinct elements of `s` in ascending order: the order `Object.keys`
      enumerates the array-index keys of a tally object. */
  function AscendingKeys(s: seq<nat>): (r: seq<nat>)
    ensures Ascending(r)
    ensures forall y :: y in r <==> y in s
  {
    if |s| == 0 then [] else InsertAscending(AscendingKeys(s[..|s| - 1]), s[|s| - 1])
  }

  /** `keys.reduce((a, b) => count[a] > count[b] ? a : b)`, starting from `acc`. */
  function ReduceMax(keys: seq<nat>, count: map<nat, nat>, acc: nat): nat {
    if |keys| == 0 then acc
    else
      var b := keys[0];
      ReduceMax(keys[1..], count, if Get(count, acc) > Get(count, b) then acc else b)
  }

  /** The most frequent element of a non-empty sequence of class labels, where the
      reduce over ascending keys lets a later key win a tie: the largest label
      among those of maximal count. */
  function Majority(labels: seq<nat>): (r: nat)
    requires |labels| > 0
    ensures r in labels
    ensures forall l | l in labels :: multiset(labels)[l] <= multiset(labels)[r]
    ensures forall l | l in labels && multiset(labels)[l] == multiset(labels)[r] :: l <= r
  {
    var keys := AscendingKeys(labels);
    MajorityOfKeys(labels, keys);
    ReduceMax(keys[1..], Tally(labels), keys[0])
  }

  lemma TallyGet<T>(s: seq<T>, x: T)
    ensures Get(Tally(s), x) == multiset(s)[x]
  {
  }

  lemma MajorityOfKeys(labels: seq<nat>, keys: seq<nat>)
    requires |labels| > 0 && keys == AscendingKeys(labels)
    ensures |keys| > 0
    ensures var r := ReduceMax(keys[1..], Tally(labels), keys[0]);
      && r in labels
      && (forall l | l in labels :: multiset(labels)[l] <= multiset(labels)[r])
      && (forall l | l in labels && multiset(labels)[l] == multiset(labels)[r] :: l <= r)
  {
    assert labels[0] in keys;
    var count := Tally(labels);
    var r := ReduceMax(keys[1..], count, keys[0]);
    KeysCover(keys, count, r);
    assert r in keys;
    TallyGet(labels, r);
    forall l | l in labels
      ensures multiset(labels)[l] <= multiset(labels)[r]
      ensures multiset(labels)[l] == multiset(labels)[r] ==> l <= r
    {
      assert l in keys;
      TallyGet(labels, l);
    }
  }

  lemma KeysCover(keys: seq<nat>, count: map<nat, nat>, r: nat)
    requires |keys| > 0 && Ascending(keys) && r == ReduceMax(keys[1..], count, keys[0])
    ensures r in keys
    ensures forall l | l in keys :: Get(count, l) <= Get(count, r)
    ensures forall l | l in keys && Get(count, l) == Get(count, r) :: l <= r
  {
    assert keys == [keys[0]] + keys[1..];
    ReduceMaxSpec(keys[1..], count, keys[0]);
    forall l | l in keys ensures l == keys[0] || l in keys[1..] {
      var k :| 0 <= k < |keys| && keys[k] == l;
      if k > 0 {
        assert keys[1..][k - 1] == l;
      }
    }
  }

  lemma {:induction false} ReduceMaxSpec(keys: seq<nat>, count: map<nat, nat>, acc: nat)
    requires Ascending([acc] + keys)
    ensures var r := ReduceMax(keys, count, acc);
      && (r == acc || r in keys)
      && acc <= r
      && (forall l | l == acc || l in keys :: Get(count, l) <= Get(count, r))
      && (forall l | (l == acc || l in keys) && Get(count, l) == Get(count, r) :: l <= r)
  {
    if |keys| > 0 {
      var b := keys[0];
      var next := if Get(count, acc) > Get(count, b) then acc else b;
      assert ([acc] + keys)[0] == acc && ([acc] + keys)[1] == b;
      assert acc < b;
      assert Ascending([next] + keys[1..]) by {
        forall i, j | 0 <= i < j < |[next] + keys[1..]|
          ensures ([next] + keys[1..])[i] < ([next] + keys[1..])[j]
        {
          assert ([acc] + keys)[j + 1] == keys[j];
          if i > 0 {
            assert ([acc] + keys)[i + 1] == keys[i];
          }
        }
      }
      ReduceMaxSpec(keys[1..], count, next);
      var r := ReduceMax(keys[1..], count, next);
      assert r == ReduceMax(keys, count, acc);
      forall l | l in keys ensures l == b || l in keys[1..] {
        var k :| 0 <= k < |keys| && keys[k] == l;
        if k > 0 {
          assert keys[1..][k - 1] == l;
        }
      }
      forall l | (l == acc || l in keys) && Get(count, l) == Get(count, r)
        ensures l <= r
      {
        if l == acc && next == b {
          assert Get(count, b) == Get(count, r);
        }
      }
    }
  }

  /** A property holds of every element exactly when it holds of every
      element but the last, and of the last. */
  lemma AllLast<T>(ok: T -> bool, s: seq<T>, prefix: seq<T>)
    requires |s| > 0 && prefix == s[..|s| - 1]
    ensures (forall i | 0 <= i < |s| :: ok(s[i])) <==>
      (forall i | 0 <= i < |prefix| :: ok(prefix[i])) && ok(s[|s| - 1])
  {
    assert forall i | 0 <= i < |s| - 1 :: prefix[i] == s[i];
  }
}

=== FILE: fifo.dfy ===
/** The bounded first-in-first-out buffer behind both the 1000-packet window
    and the 10000-entry detection history: `push`, then one `shift` when the
    length exceeds the capacity. */
module Fifo {

  /** The last `min(k, |s|)` elements of `s`. */
  function LastN<T>(s: seq<T>, k: nat): seq<T> {
    if |s| <= k then s else s[|s| - k..]
  }

  function Push<T>(q: seq<T>, x: T, cap: nat): (r: seq<T>)
    ensures cap > 0 ==> |r| > 0 && r[|r| - 1] == x
    ensures |q| < cap ==> r == q + [x]
    ensures |q| >= cap ==> r == (q + [x])[1..]
    ensures |q| <= cap ==> |r| <= cap
  {
    var b := q + [x];
    if |b| > cap then b[1..] else b
  }

  function PushAll<T>(q: seq<T>, xs: seq<T>, cap: nat): seq<T>
    decreases |xs|
  {
    if |xs| == 0 then q else PushAll(Push(q, xs[0], cap), xs[1..], cap)
  }

  /** Appending items one at a time to a buffer within its capacity keeps the
      last `cap` items of everything appended: the oldest are evicted first. */
  lemma {:induction false} PushAllKeepsLast<T>(q: seq<T>, xs: seq<T>, cap: nat)
    requires |q| <= cap
    ensures PushAll(q, xs, cap) == LastN(q + xs, cap)
    decreases |xs|
  {
    if |xs| > 0 {
      var q' := Push(q, xs[0], cap);
      assert q' == LastN(q + [xs[0]], cap);
      PushAllKeepsLast(q', xs[1..], cap);
      assert (q + [xs[0]]) + xs[1..] == q + xs;
      LastNOfLastN(q + [xs[0]], xs[1..], cap);
    }
  }

  lemma LastNOfLastN<T>(s: seq<T>, t: seq<T>, cap: nat)
    ensures LastN(LastN(s, cap) + t, cap) == LastN(s + t, cap)
  {
    if |s| > cap {
      var u := s[|s| - cap..] + t;
      assert u == (s + t)[|s| - cap..];
      if |u| > cap {
        assert u[|u| - cap..] == (s + t)[|s + t| - cap..];
      }
    }
  }

  /** Keeping the last `cap` of `base + s`, appending `t` and keeping the last
      `cap` again is keeping the last `cap` of `base + (s + t)`. */
  lemma LastNAppend<T>(base: seq<T>, s: seq<T>, t: seq<T>, cap: nat)
    ensures LastN(LastN(base + s, cap) + t, cap) == LastN(base + (s + t), cap)
  {
    LastNOfLastN(base + s, t, cap);
    assert base + s + t == base + (s + t);
  }

  /** A buffer that starts empty holds the last `min(cap, k)` of the `k` items
      appended, and never more than `cap`. */
  lemma FromEmpty<T>(xs: seq<T>, cap: nat)
    ensures PushAll([], xs, cap) == LastN(xs, cap)
    ensures |PushAll([], xs, cap)| <= cap
  {
    PushAllKeepsLast([], xs, cap);
    assert [] + xs == xs;
  }
}

=== FILE: forest.dfy ===
/** `RandomForestClassifier`: bagging of decision trees over bootstrap samples,
    majority vote, vote fractions, and the object form of save/load.
    `Math.random` is replaced by the draws it would produce. */
module RandomForest {
  import opened Wrappers
  import Counting
  import DT = DecisionTree

  /** The classifier's state. Its `featureNames` field is never read and is
      left out. */
  datatype Forest = Forest(numTrees: nat, maxDepth: int, minSamplesSplit: int, isTrained: bool, trees: seq<DT.Tree>)

  /** The constructor: no trees, not trained. */
  function NewForest(numTrees: nat, maxDepth: int, minSamplesSplit: int): (f: Forest)
    ensures !f.isTrained && |f.trees| == 0
  {
    Forest(numTrees, maxDepth, minSamplesSplit, false, [])
  }

  // ---------------------------------------------------------------------------
  // Training

  /** The indices `Math.floor(Math.random() * n)` yields for one bootstrap
      sample: `n` of them, each below `n`. */
  predicate ValidDraw(draw: seq<nat>, n: nat) {
    |draw| == n && forall i | 0 <= i < |draw| :: draw[i] < n
  }

  /** `createBootstrapSample`: the entries at the drawn indices, as many as
      there are entries, each one drawn from the input. Rows and labels are
      sampled with the same draw. */
  function Bootstrap<T>(s: seq<T>, draw: seq<nat>): (r: seq<T>)
    requires ValidDraw(draw, |s|)
    ensures |r| == |s|
    ensures forall y | y in r :: y in s
  {
    DT.Pick(s, draw)
  }

  /** The training set as (row, label) pairs. */
  function Samples(rows: seq<seq<real>>, labels: seq<nat>): (r: seq<(seq<real>, nat)>)
    requires |labels| == |rows|
    ensures |r| == |rows|
  {
    seq(|rows|, j requires 0 <= j < |rows| => (rows[j], labels[j]))
  }

  /** A bootstrap sample keeps every row with its own label: each sampled
      (row, label) pair is a pair of the training set. */
  lemma BootstrapPairs(rows: seq<seq<real>>, labels: seq<nat>, draw: seq<nat>)
    requires |labels| == |rows| && ValidDraw(draw, |rows|)
    ensures forall i | 0 <= i < |rows| ::
      (Bootstrap(rows, draw)[i], Bootstrap(labels, draw)[i]) in Samples(rows, labels)
  {
    forall i | 0 <= i < |rows|
      ensures (Bootstrap(rows, draw)[i], Bootstrap(labels, draw)[i]) in Samples(rows, labels)
    {
      assert Samples(rows, labels)[draw[i]] == (Bootstrap(rows, draw)[i], Bootstrap(labels, draw)[i]);
    }
  }

  /** The tree grown on the `k`-th bootstrap sample. The draw indexes the
      rows, so labels past the last row are never read. */
  function TreeFor(f: Forest, rows: seq<seq<real>>, labels: seq<nat>, draw: seq<nat>, gain: DT.Gain): (t: DT.Tree)
    requires |rows| > 0 && |labels| >= |rows| && ValidDraw(draw, |rows|)
    ensures forall v | v in DT.Values(t.root) :: v in labels
    ensures t.maxDepth == f.maxDepth && t.minSamplesSplit == f.minSamplesSplit
  {
    var used := labels[..|rows|];
    var t := DT.Train(f.maxDepth, f.minSamplesSplit, Bootstrap(rows, draw), Bootstrap(used, draw), gain);
    assert forall v | v in used :: v in labels;
    t
  }

  /** `train`: "Training data is empty" on no samples; otherwise exactly
      `numTrees` trees, the `k`-th grown on the `k`-th bootstrap draw, and the
      forest marked trained. */
  function Train(f: Forest, rows: seq<seq<real>>, labels: seq<nat>, draws: seq<seq<nat>>, gain: DT.Gain): (r: Result<Forest>)
    requires |labels| >= |rows|
    requires |draws| == f.numTrees && forall k | 0 <= k < |draws| :: ValidDraw(draws[k], |rows|)
    ensures r.Failure? <==> |rows| == 0
    ensures r.Failure? ==> r.error == EmptyTrainingData
    ensures r.Success? ==>
      && r.value.isTrained && |r.value.trees| == f.numTrees
      && r.value.numTrees == f.numTrees && r.value.maxDepth == f.maxDepth && r.value.minSamplesSplit == f.minSamplesSplit
    ensures r.Success? ==> forall k | 0 <= k < |r.value.trees| ::
      r.value.trees[k] == TreeFor(f, rows, labels, draws[k], gain)
  {
    if |rows| == 0 then Failure(EmptyTrainingData)
    else
      var trees := seq(f.numTrees, k requires 0 <= k < f.numTrees => TreeFor(f, rows, labels, draws[k], gain));
      Success(f.(trees := trees, isTrained := true))
  }

  /** Every tree of a trained forest predicts one of the training labels. */
  lemma TrainedVotesAreLabels(f: Forest, rows: seq<seq<real>>, labels: seq<nat>, draws: seq<seq<nat>>, gain: DT.Gain, x: seq<real>)
    requires |labels| >= |rows|
    requires |draws| == f.numTrees && forall k | 0 <= k < |draws| :: ValidDraw(draws[k], |rows|)
    requires Train(f, rows, labels, draws, gain).Success?
    ensures forall v | v in Votes(Train(f, rows, labels, draws, gain).value.trees, x) :: v in labels
  {
    var trees := Train(f, rows, labels, draws, gain).value.trees;
    var votes := Votes(trees, x);
    forall v | v in votes ensures v in labels {
      var k :| 0 <= k < |votes| && votes[k] == v;
      var t := TreeFor(f, rows, labels, draws[k], gain);
      assert trees[k] == t;
      VoteIsLabel(t, labels, x);
    }
  }

  /** A tree whose leaves carry training labels votes for one of them. */
  lemma VoteIsLabel(t: DT.Tree, labels: seq<nat>, x: seq<real>)
    requires forall v | v in DT.Values(t.root) :: v in labels
    ensures DT.PredictAsWritten(t.root, x) in labels
  {
    DT.AsWrittenAgrees(t.root, x);
  }

  // ---------------------------------------------------------------------------
  // Voting

  /** `this.trees.map((tree) => tree.predict(features))`: each tree answers
      through `TreeNode.predict` as written, `|| this.value` included. */
  function Votes(trees: seq<DT.Tree>, x: seq<real>): (r: seq<nat>)
    ensures |r| == |trees|
    ensures forall k | 0 <= k < |r| :: r[k] == DT.PredictAsWritten(trees[k].root, x)
  {
    seq(|trees|, k requires 0 <= k < |trees| => DT.PredictAsWritten(trees[k].root, x))
  }

  /** The votes the trees would cast if each predicted as intended (see
      `DT.Descend`). */
  function IntendedVotes(trees: seq<DT.Tree>, x: seq<real>): (r: seq<nat>)
    ensures |r| == |trees|
    ensures forall k | 0 <= k < |r| :: r[k] == DT.Descend(trees[k].root, x)
  {
    seq(|trees|, k requires 0 <= k < |trees| => DT.Descend(trees[k].root, x))
  }

  /** The forest's votes differ from the intended ones only where a tree
      intends class 0 and one of its ancestors' classes replaces it; a vote
      of 0 is always an intended 0. */
  lemma VotesAsWritten(trees: seq<DT.Tree>, x: seq<real>)
    ensures forall k | 0 <= k < |trees| && IntendedVotes(trees, x)[k] != 0 ::
      Votes(trees, x)[k] == IntendedVotes(trees, x)[k]
    ensures forall k | 0 <= k < |trees| && Votes(trees, x)[k] == 0 ::
      IntendedVotes(trees, x)[k] == 0
  {
    forall k | 0 <= k < |trees| {
      DT.AsWrittenAgrees(trees[k].root, x);
    }
  }

  /** `predict`: "Model is not trained" before training; the reduce over the
      tally's keys fails on a forest without trees; otherwise the most voted
      class, the larger one on a tie. */
  function Predict(f: Forest, x: seq<real>): (r: Result<nat>)
    ensures r.Failure? <==> !f.isTrained || |f.trees| == 0
    ensures !f.isTrained ==> r == Failure(NotTrained)
    ensures r.Success? ==> var votes := Votes(f.trees, x);
      && r.value in votes
      && (forall c | c in votes :: multiset(votes)[c] <= multiset(votes)[r.value])
      && (forall c | c in votes && multiset(votes)[c] == multiset(votes)[r.value] :: c <= r.value)
  {
    if !f.isTrained then Failure(NotTrained)
    else
      var votes := Votes(f.trees, x);
      if |votes| == 0 then Failure(EmptyVote) else Success(Counting.Majority(votes))
  }

  /** `predictProba`: the fractions of trees voting 0 and 1, over the
      configured `numTrees`. */
  function PredictProba(f: Forest, x: seq<real>): (r: Result<(real, real)>)
    ensures r.Failure? <==> !f.isTrained || f.numTrees == 0
    ensures !f.isTrained ==> r == Failure(NotTrained)
    ensures r.Success? ==> var votes := Votes(f.trees, x);
      && 0.0 <= r.value.0 && 0.0 <= r.value.1
      && r.value.0 * f.numTrees as real == multiset(votes)[0] as real
      && r.value.1 * f.numTrees as real == multiset(votes)[1] as real
  {
    if !f.isTrained then Failure(NotTrained)
    else if f.numTrees == 0 then Failure(NaNVote)
    else
      var votes := Votes(f.trees, x);
      Success((multiset(votes)[0] as real / f.numTrees as real, multiset(votes)[1] as real / f.numTrees as real))
  }

  /** A product with a positive factor has the sign of the other factor. */
  lemma ProductSign(a: real, m: real)
    requires m > 0.0
    ensures a >= 0.0 <==> a * m >= 0.0
  {
    if a < 0.0 {
      assert (-a) * m > 0.0;
    }
  }

  /** Two counts that make up the whole give fractions in [0, 1] summing to 1,
      ordered as the counts are. */
  lemma Fractions(c0: nat, c1: nat, n: nat)
    requires n > 0 && c0 + c1 == n
    ensures c0 as real / n as real + c1 as real / n as real == 1.0
    ensures c0 as real / n as real <= 1.0 && c1 as real / n as real <= 1.0
    ensures c1 >= c0 <==> c1 as real / n as real >= c0 as real / n as real
  {
    var m := n as real;
    var a := c0 as real / m;
    var b := c1 as real / m;
    assert a * m == c0 as real;
    assert b * m == c1 as real;
    assert (a + b - 1.0) * m == 0.0;
    ProductSign(a + b - 1.0, m);
    ProductSign(1.0 - a - b, m);
    assert (1.0 - a) * m == c1 as real;
    ProductSign(1.0 - a, m);
    assert (1.0 - b) * m == c0 as real;
    ProductSign(1.0 - b, m);
    assert (b - a) * m == (c1 - c0) as real;
    ProductSign(b - a, m);
  }

  /** Votes that are all 0 or 1 split into the two counts. */
  lemma {:induction false} BinaryCounts(votes: seq<nat>)
    requires forall k | 0 <= k < |votes| :: votes[k] <= 1
    ensures multiset(votes)[0] + multiset(votes)[1] == |votes|
  {
    if |votes| > 0 {
      var prefix := votes[..|votes| - 1];
      assert votes == prefix + [votes[|votes| - 1]];
      BinaryCounts(prefix);
    }
  }

  /** With one tree per configured slot and every vote 0 or 1, the two
      fractions lie in [0, 1] and sum to 1. */
  lemma ProbaSumsToOne(f: Forest, x: seq<real>)
    requires f.isTrained && f.numTrees > 0 && |f.trees| == f.numTrees
    requires forall k | 0 <= k < |f.trees| :: DT.PredictAsWritten(f.trees[k].root, x) <= 1
    ensures var r := PredictProba(f, x);
      && r.Success? && r.value.0 + r.value.1 == 1.0
      && r.value.0 <= 1.0 && r.value.1 <= 1.0
  {
    var votes := Votes(f.trees, x);
    BinaryCounts(votes);
    Fractions(multiset(votes)[0], multiset(votes)[1], f.numTrees);
  }

  /** On 0/1 votes the predicted class is the one with the larger fraction,
      class 1 on a tie. */
  lemma PredictFollowsProba(f: Forest, x: seq<real>)
    requires f.isTrained && f.numTrees > 0 && |f.trees| == f.numTrees
    requires forall k | 0 <= k < |f.trees| :: DT.PredictAsWritten(f.trees[k].root, x) <= 1
    ensures var p := PredictProba(f, x).value;
      Predict(f, x) == Success(if p.1 >= p.0 then 1 else 0)
  {
    var votes := Votes(f.trees, x);
    var m := Counting.Majority(votes);
    assert Predict(f, x) == Success(m);
    var c0 := multiset(votes)[0];
    var c1 := multiset(votes)[1];
    BinaryCounts(votes);
    Fractions(c0, c1, f.numTrees);
    assert m <= 1 by { var k :| 0 <= k < |votes| && votes[k] == m; }
    MajorityOfBinary(votes, m);
  }

  /** The majority of 0/1 votes is 1 exactly when 1 has at least as many. */
  lemma MajorityOfBinary(votes: seq<nat>, m: nat)
    requires |votes| > 0 && m == Counting.Majority(votes) && m <= 1
    ensures m == (if multiset(votes)[1] >= multiset(votes)[0] then 1 else 0)
  {
    var c0 := multiset(votes)[0];
    var c1 := multiset(votes)[1];
    if m == 0 {
      if c1 > 0 {
        assert 1 in multiset(votes);
        assert 1 in votes;
        assert c1 <= c0 && (c1 == c0 ==> 1 <= m);
      }
    } else {
      assert m == 1;
      if c0 > 0 {
        assert 0 in multiset(votes);
        assert 0 in votes;
        assert c0 <= c1;
      }
    }
  }

  /** A forest trained on 0/1 labels with at least one tree gives vote
      fractions in [0, 1] that sum to 1, and predicts the class with the
      larger fraction. */
  lemma TrainedBinaryForest(f: Forest, rows: seq<seq<real>>, labels: seq<nat>, draws: seq<seq<nat>>, gain: DT.Gain, x: seq<real>)
    requires |labels| >= |rows| && |rows| > 0 && f.numTrees > 0
    requires |draws| == f.numTrees && forall k | 0 <= k < |draws| :: ValidDraw(draws[k], |rows|)
    requires forall k | 0 <= k < |labels| :: labels[k] <= 1
    ensures var g := Train(f, rows, labels, draws, gain).value;
      var p := PredictProba(g, x).value;
      && PredictProba(g, x).Success? && p.0 + p.1 == 1.0 && p.0 <= 1.0 && p.1 <= 1.0
      && Predict(g, x) == Success(if p.1 >= p.0 then 1 else 0)
  {
    var g := Train(f, rows, labels, draws, gain).value;
    TrainedVotesAreLabels(f, rows, labels, draws, gain, x);
    forall k | 0 <= k < |g.trees| ensures DT.PredictAsWritten(g.trees[k].root, x) <= 1 {
      assert Votes(g.trees, x)[k] in Votes(g.trees, x);
    }
    ProbaSumsToOne(g, x);
    PredictFollowsProba(g, x);
  }

  // ---------------------------------------------------------------------------
  // Save and load

  datatype SavedForest = SavedForest(numTrees: nat, maxDepth: int, minSamplesSplit: int, isTrained: bool, trees: seq<DT.SavedTree>)

  function Save(f: Forest): (d: SavedForest)
    ensures |d.trees| == |f.trees|
  {
    SavedForest(f.numTrees, f.maxDepth, f.minSamplesSplit, f.isTrained,
      seq(|f.trees|, k requires 0 <= k < |f.trees| => DT.SaveTree(f.trees[k])))
  }

  /** `load`: every field from the object, each tree through
      `DecisionTree.load`, which fails on a tree saved without a root. */
  function Load(d: SavedForest): (r: Result<Forest>)
    ensures r.Failure? <==> exists k :: 0 <= k < |d.trees| && d.trees[k].root.None?
    ensures r.Failure? ==> r.error == MissingRoot
    ensures r.Success? ==>
      && r.value.numTrees == d.numTrees && r.value.maxDepth == d.maxDepth
      && r.value.minSamplesSplit == d.minSamplesSplit && r.value.isTrained == d.isTrained
      && |r.value.trees| == |d.trees|
      && forall k | 0 <= k < |d.trees| :: DT.LoadTree(d.trees[k]) == Success(r.value.trees[k])
    ensures r.Success? ==> Save(r.value) == d
  {
    if exists k :: 0 <= k < |d.trees| && d.trees[k].root.None? then Failure(MissingRoot)
    else
      var trees := seq(|d.trees|, k requires 0 <= k < |d.trees| => DT.LoadTree(d.trees[k]).value);
      var f := Forest(d.numTrees, d.maxDepth, d.minSamplesSplit, d.isTrained, trees);
      forall k | 0 <= k < |d.trees| ensures DT.SaveTree(trees[k]) == d.trees[k] {
        DT.SaveLoadTree(d.trees[k]);
      }
      assert Save(f).trees == d.trees;
      Success(f)
  }

  /** Loading a saved forest restores it exactly. */
  lemma LoadSave(f: Forest)
    ensures Load(Save(f)) == Success(f)
  {
    var d := Save(f);
    forall k | 0 <= k < |f.trees| ensures DT.LoadTree(d.trees[k]) == Success(f.trees[k]) {
      DT.LoadSaveTree(f.trees[k]);
    }
    assert Load(d).value.trees == f.trees;
  }
}

=== FILE: hybrid.dfy ===
/** `HybridDetectionEngine`: signature matching first, anomaly checks second,
    over single packets and over batches, plus the window-level attack
    heuristics. */
module HybridEngine {
  import opened Wrappers
  import Counting
  import Text
  import opened Results
  import opened Packets
  import Traffic
  import Sig = SignatureEngine
  import An = AnomalyEngine

  function Retag(d: Option<Detection>): (r: Option<Detection>)
    ensures r.Some? <==> d.Some?
    ensures r.Some? ==> r.value == d.value.(detectedBy := Hybrid)
  {
    if d.Some? then Some(d.value.(detectedBy := Hybrid)) else None
  }

  /** `detect`: the signature result when there is one, otherwise the anomaly
      result, either way re-labelled as a hybrid detection. A malformed rule
      pattern aborts the call. */
  function Detect(rs: Sig.RuleSet, p: Packet, rx: Sig.Regexes): (r: Result<Option<Detection>>)
    requires Sig.Valid(rs)
    ensures r.Failure? <==> Sig.Detect(rs, p, rx).Failure?
    ensures r.Success? && r.value.Some? ==> r.value.value.detectedBy == Hybrid && r.value.value.threatDetected
  {
    var s :- Sig.Detect(rs, p, rx);
    if s.Some? then Success(Retag(s)) else Success(Retag(An.DetectAnomaly(p)))
  }

  /** A signature match takes precedence: the anomaly checks only speak when
      no rule fires. */
  lemma SignatureFirst(rs: Sig.RuleSet, p: Packet, rx: Sig.Regexes)
    requires Sig.Valid(rs)
    ensures var s := Sig.Detect(rs, p, rx);
      && (s.Success? && s.value.Some? ==> Detect(rs, p, rx) == Success(Some(s.value.value.(detectedBy := Hybrid))))
      && (s == Success(None) ==> Detect(rs, p, rx) == Success(Retag(An.DetectAnomaly(p))))
  {
  }

  /** No result exactly when no rule fires and none of the anomaly checks
      holds. */
  lemma DetectNothing(rs: Sig.RuleSet, p: Packet, rx: Sig.Regexes)
    requires Sig.Valid(rs)
    ensures Detect(rs, p, rx) == Success(None) <==>
      && (forall j | 0 <= j < |rs.order| :: Sig.Fires(rs.rules[rs.order[j]], Sig.PayloadText(p), rx) == Success(false))
      && !An.OversizedPayload(p) && !An.SuspiciousPort(p) && !An.IcmpOnHttp(p)
  {
    Sig.DetectFirstMatch(rs, p, rx);
  }

  /** Every packet of the batch is scanned without error. */
  predicate AllSucceed(rs: Sig.RuleSet, ps: seq<Packet>, rx: Sig.Regexes)
    requires Sig.Valid(rs)
  {
    forall i | 0 <= i < |ps| :: Detect(rs, ps[i], rx).Success?
  }

  /** Packet `i` is the first whose scan fails. */
  predicate FirstFailure(rs: Sig.RuleSet, ps: seq<Packet>, rx: Sig.Regexes, i: nat)
    requires Sig.Valid(rs)
  {
    i < |ps| && Detect(rs, ps[i], rx).Failure? && AllSucceed(rs, ps[..i], rx)
  }

  lemma AllSucceedLast(rs: Sig.RuleSet, ps: seq<Packet>, rx: Sig.Regexes)
    requires Sig.Valid(rs) && |ps| > 0
    ensures AllSucceed(rs, ps, rx) <==>
      AllSucceed(rs, ps[..|ps| - 1], rx) && Detect(rs, ps[|ps| - 1], rx).Success?
  {
    Counting.AllLast(p => Detect(rs, p, rx).Success?, ps, ps[..|ps| - 1]);
  }

  /** A failure of the batch without its last packet is a failure of the whole batch. */
  lemma FailureExtends(rs: Sig.RuleSet, ps: seq<Packet>, pre: seq<Packet>, rx: Sig.Regexes, e: Error)
    requires Sig.Valid(rs) && |ps| > 0 && pre == ps[..|ps| - 1]
    requires exists i: nat :: FirstFailure(rs, pre, rx, i) && e == Detect(rs, pre[i], rx).error
    ensures exists i: nat :: FirstFailure(rs, ps, rx, i) && e == Detect(rs, ps[i], rx).error
  {
    var i: nat :| FirstFailure(rs, pre, rx, i) && e == Detect(rs, pre[i], rx).error;
    FirstFailurePrefix(rs, ps, rx, i);
  }

  lemma FirstFailurePrefix(rs: Sig.RuleSet, ps: seq<Packet>, rx: Sig.Regexes, i: nat)
    requires Sig.Valid(rs) && |ps| > 0 && FirstFailure(rs, ps[..|ps| - 1], rx, i)
    ensures FirstFailure(rs, ps, rx, i)
  {
    var n := |ps| - 1;
    assert ps[..n][..i] == ps[..i];
    assert ps[..n][i] == ps[i];
  }

  /** `detectMultiple`: the results of `detect` on each packet in order, the
      packets without one contributing nothing. A failure on any packet
      aborts the batch with the first such failure. */
  function DetectMultiple(rs: Sig.RuleSet, ps: seq<Packet>, rx: Sig.Regexes): (r: Result<seq<Detection>>)
    requires Sig.Valid(rs)
    ensures r.Success? <==> AllSucceed(rs, ps, rx)
    ensures r.Failure? ==> exists i: nat :: FirstFailure(rs, ps, rx, i) && r == Failure(Detect(rs, ps[i], rx).error)
    ensures r.Success? ==> |r.value| <= |ps|
    ensures r.Success? ==> forall i | 0 <= i < |r.value| :: r.value[i].detectedBy == Hybrid
    decreases |ps|
  {
    if |ps| == 0 then Success([])
    else
      var n := |ps| - 1;
      var prefix := DetectMultiple(rs, ps[..n], rx);
      AllSucceedLast(rs, ps, rx);
      if prefix.Failure? then
        FailureExtends(rs, ps, ps[..n], rx, prefix.error);
        prefix
      else
        var last := Detect(rs, ps[n], rx);
        if last.Failure? then
          assert ps[..n] == ps[..n][..n];
          assert FirstFailure(rs, ps, rx, n);
          Failure(last.error)
        else Success(prefix.value + AsSeq(last.value))
  }

  /** A batch of one packet yields that packet's result. */
  lemma DetectMultipleSingle(rs: Sig.RuleSet, p: Packet, rx: Sig.Regexes)
    requires Sig.Valid(rs)
    ensures DetectMultiple(rs, [p], rx).Success? <==> Detect(rs, p, rx).Success?
    ensures Detect(rs, p, rx).Success? ==> DetectMultiple(rs, [p], rx).value == AsSeq(Detect(rs, p, rx).value)
  {
    assert [p][..0] == [];
  }

  /** Splitting a batch splits its results. */
  lemma {:induction false} DetectMultipleAppend(rs: Sig.RuleSet, a: seq<Packet>, b: seq<Packet>, rx: Sig.Regexes)
    requires Sig.Valid(rs)
    ensures DetectMultiple(rs, a + b, rx).Success? <==>
      DetectMultiple(rs, a, rx).Success? && DetectMultiple(rs, b, rx).Success?
    ensures DetectMultiple(rs, a + b, rx).Success? ==>
      DetectMultiple(rs, a + b, rx).value == DetectMultiple(rs, a, rx).value + DetectMultiple(rs, b, rx).value
    decreases |b|
  {
    if |b| == 0 {
      Counting.AppendEmpty(a, b);
    } else {
      var init := b[..|b| - 1];
      Counting.AppendInit(a, b);
      DetectMultipleAppend(rs, a, init, rx);
      var front, back, last := DetectMultiple(rs, a, rx), DetectMultiple(rs, init, rx), Detect(rs, b[|b| - 1], rx);
      if front.Success? && back.Success? && last.Success? {
        Counting.AppendAssoc(front.value, back.value, AsSeq(last.value));
      }
    }
  }

  // ---------------------------------------------------------------------------
  // detectSpecificAttacks

  /** The JavaScript rendering of a rate already rounded to hundredths. */
  function RateText(x: real): string {
    var c := (x * 100.0).Floor;
    Text.HundredthsText(if c < 0 then 0 else c)
  }

  /** The zero-or-one entry a window-level heuristic contributes. */
  function Flagged(flag: bool, d: Detection): (r: seq<Detection>)
    ensures |r| <= 1 && (flag <==> r == [d]) && (!flag <==> r == [])
    ensures Types(r) == if flag then {d.threatType} else {}
  {
    if flag then
      assert ThreatTypeOf([d][0]) in Types([d]);
      [d]
    else []
  }

  /** The record a window-level heuristic pushes for threat type `t`: an
      anomaly with the type's severity, confidence and description, and that
      heuristic's result as metadata. */
  predicate WindowFinding(d: Detection, ps: seq<Packet>) {
    && d.threatDetected && d.detectedBy == Anomaly && d.payload.None?
    && (d.threatType == "dos" ==>
          var dos := Traffic.DetectDos(ps);
          && d.severity == Critical && d.confidence == 90 && d.metadata == DosInfo(dos)
          && d.description == "DoS attack detected: " + RateText(dos.packetsPerSecond) + " packets/sec")
    && (d.threatType == "port_scan" ==>
          var scan := Traffic.DetectPortScan(ps);
          && d.severity == Medium && d.confidence == 80 && d.metadata == PortScanInfo(scan)
          && d.description == "Port scan detected: " + Text.NatText(scan.uniquePorts) + " ports scanned")
    && (d.threatType == "brute_force" ==>
          var bf := Traffic.DetectBruteForce(ps);
          && d.severity == High && d.confidence == 85 && d.metadata == BruteForceInfo(bf)
          && d.description == "Brute force attack detected: " + Text.NatText(bf.failedAttempts) + " attempts")
  }

  /** The entry `detectSpecificAttacks` pushes for a DoS result. */
  function DosDetection(dos: Traffic.DosResult): Detection {
    Detection(true, "dos", Critical, 90,
              "DoS attack detected: " + RateText(dos.packetsPerSecond) + " packets/sec",
              Anomaly, None, DosInfo(dos))
  }

  /** The entry `detectSpecificAttacks` pushes for a port-scan result. */
  function PortScanDetection(scan: Traffic.PortScanResult): Detection {
    Detection(true, "port_scan", Medium, 80,
              "Port scan detected: " + Text.NatText(scan.uniquePorts) + " ports scanned",
              Anomaly, None, PortScanInfo(scan))
  }

  /** The entry `detectSpecificAttacks` pushes for a brute-force result. */
  function BruteForceDetection(bf: Traffic.BruteForceResult): Detection {
    Detection(true, "brute_force", High, 85,
              "Brute force attack detected: " + Text.NatText(bf.failedAttempts) + " attempts",
              Anomaly, None, BruteForceInfo(bf))
  }

  /** Each of the three entries is the finding its heuristic describes. */
  lemma EntriesAreFindings(ps: seq<Packet>)
    ensures WindowFinding(DosDetection(Traffic.DetectDos(ps)), ps)
    ensures WindowFinding(PortScanDetection(Traffic.DetectPortScan(ps)), ps)
    ensures WindowFinding(BruteForceDetection(Traffic.DetectBruteForce(ps)), ps)
  {
  }

  /** The position of a window-level threat type in the order the heuristics
      run. */
  function Rank(t: string): nat {
    if t == "dos" then 0 else if t == "port_scan" then 1 else 2
  }

  function Types(ds: seq<Detection>): set<string> {
    Counting.Image(ds, ThreatTypeOf)
  }

  predicate DistinctTypes(ds: seq<Detection>) {
    forall i, j | 0 <= i < j < |ds| :: ds[i].threatType != ds[j].threatType
  }

  /** The window-level findings, in the order DoS, port scan, brute force,
      each present exactly when its heuristic flags the batch. */
  function Aggregates(ps: seq<Packet>): (r: seq<Detection>)
    ensures |r| <= 3 && DistinctTypes(r)
    ensures forall i | 0 <= i < |r| :: WindowFinding(r[i], ps)
    ensures forall i, j | 0 <= i < j < |r| :: Rank(r[i].threatType) < Rank(r[j].threatType)
    ensures Types(r) ==
      (if Traffic.DetectDos(ps).isDosAttack then {"dos"} else {})
      + (if Traffic.DetectPortScan(ps).isPortScan then {"port_scan"} else {})
      + (if Traffic.DetectBruteForce(ps).isBruteForce then {"brute_force"} else {})
  {
    AggregatesFacts(ps);
    Entries(Traffic.DetectDos(ps), Traffic.DetectPortScan(ps), Traffic.DetectBruteForce(ps))
  }

  lemma AggregatesFacts(ps: seq<Packet>)
    ensures var r := Entries(Traffic.DetectDos(ps), Traffic.DetectPortScan(ps), Traffic.DetectBruteForce(ps));
      && |r| <= 3 && DistinctTypes(r)
      && (forall i | 0 <= i < |r| :: WindowFinding(r[i], ps))
      && (forall i, j | 0 <= i < j < |r| :: Rank(r[i].threatType) < Rank(r[j].threatType))
      && Types(r) ==
        (if Traffic.DetectDos(ps).isDosAttack then {"dos"} else {})
        + (if Traffic.DetectPortScan(ps).isPortScan then {"port_scan"} else {})
        + (if Traffic.DetectBruteForce(ps).isBruteForce then {"brute_force"} else {})
  {
    EntriesShape(Traffic.DetectDos(ps), Traffic.DetectPortScan(ps), Traffic.DetectBruteForce(ps));
    AggregatesFindings(ps);
  }

  /** The three heuristics' zero-or-one entries, concatenated. */
  function Entries(dos: Traffic.DosResult, scan: Traffic.PortScanResult, bf: Traffic.BruteForceResult): seq<Detection> {
    Flagged(dos.isDosAttack, DosDetection(dos)) + Flagged(scan.isPortScan, PortScanDetection(scan))
      + Flagged(bf.isBruteForce, BruteForceDetection(bf))
  }

  /** The entries' count, types and order. */
  lemma EntriesShape(dos: Traffic.DosResult, scan: Traffic.PortScanResult, bf: Traffic.BruteForceResult)
    ensures var r := Entries(dos, scan, bf);
      && |r| <= 3 && DistinctTypes(r)
      && (forall i, j | 0 <= i < j < |r| :: Rank(r[i].threatType) < Rank(r[j].threatType))
      && Types(r) ==
        (if dos.isDosAttack then {"dos"} else {})
        + (if scan.isPortScan then {"port_scan"} else {})
        + (if bf.isBruteForce then {"brute_force"} else {})
  {
    ConcatThree(dos.isDosAttack, scan.isPortScan, bf.isBruteForce,
                DosDetection(dos), PortScanDetection(scan), BruteForceDetection(bf));
  }

  /** Every entry is the finding its heuristic describes. */
  lemma AggregatesFindings(ps: seq<Packet>)
    ensures var r := Entries(Traffic.DetectDos(ps), Traffic.DetectPortScan(ps), Traffic.DetectBruteForce(ps));
      forall i | 0 <= i < |r| :: WindowFinding(r[i], ps)
  {
    var dos, scan, bf := Traffic.DetectDos(ps), Traffic.DetectPortScan(ps), Traffic.DetectBruteForce(ps);
    var da, db, dc := DosDetection(dos), PortScanDetection(scan), BruteForceDetection(bf);
    EntriesAreFindings(ps);
    ConcatThree(dos.isDosAttack, scan.isPortScan, bf.isBruteForce, da, db, dc);
    var r := Entries(dos, scan, bf);
    forall i | 0 <= i < |r| ensures WindowFinding(r[i], ps) {
      assert r[i] == da || r[i] == db || r[i] == dc;
    }
  }

  /** Three zero-or-one entries of types "dos", "port_scan" and
      "brute_force", in that order, have distinct types ranked ascending. */
  lemma ConcatThree(fa: bool, fb: bool, fc: bool, da: Detection, db: Detection, dc: Detection)
    requires da.threatType == "dos" && db.threatType == "port_scan" && dc.threatType == "brute_force"
    ensures var r := Flagged(fa, da) + Flagged(fb, db) + Flagged(fc, dc);
      && |r| <= 3
      && (forall i | 0 <= i < |r| :: r[i] == da || r[i] == db || r[i] == dc)
      && (forall i, j | 0 <= i < j < |r| :: Rank(r[i].threatType) < Rank(r[j].threatType))
      && DistinctTypes(r)
      && Types(r) == (if fa then {"dos"} else {}) + (if fb then {"port_scan"} else {})
                     + (if fc then {"brute_force"} else {})
  {
    var a, b, c := Flagged(fa, da), Flagged(fb, db), Flagged(fc, dc);
    Counting.ImageAppend(a, b, ThreatTypeOf);
    Counting.ImageAppend(a + b, c, ThreatTypeOf);
    var r := a + b + c;
    forall i | 0 <= i < |r|
      ensures r[i] == (if i < |a| then da else if i < |a| + |b| then db else dc)
    {
    }
    forall i | 0 <= i < |r| ensures Rank(r[i].threatType) == (if i < |a| then 0 else if i < |a| + |b| then 1 else 2) {
    }
  }

  /** Concatenating two sequences with distinct, disjoint types. */
  lemma DistinctTypesAppend(a: seq<Detection>, b: seq<Detection>)
    requires DistinctTypes(a) && DistinctTypes(b) && Types(a) !! Types(b)
    ensures DistinctTypes(a + b)
  {
    forall i, j | 0 <= i < j < |a + b| ensures (a + b)[i].threatType != (a + b)[j].threatType {
      if i < |a| && j >= |a| {
        assert ThreatTypeOf(a[i]) in Types(a);
        assert ThreatTypeOf(b[j - |a|]) in Types(b);
      }
    }
  }

  /** `ds[i]` is the first result in `ds` of its threat type, and that type
      is not among `seen`. */
  predicate FirstOfType(seen: set<string>, ds: seq<Detection>, i: nat)
    requires i < |ds|
  {
    ds[i].threatType !in seen && forall j | 0 <= j < i :: ds[j].threatType != ds[i].threatType
  }

  /** The subsequence of `ds` keeping, in order, each result that is the
      first of a threat type not among `seen`. */
  function FirstsOfNewTypes(seen: set<string>, ds: seq<Detection>): (r: seq<Detection>)
    ensures |r| <= |ds|
  {
    if |ds| == 0 then []
    else
      var n := |ds| - 1;
      FirstsOfNewTypes(seen, ds[..n]) + (if FirstOfType(seen, ds, n) then [ds[n]] else [])
  }

  /** Appending one more result to `ds` extends the kept subsequence by it
      exactly when its type is neither among `seen` nor among the types of
      `ds`. */
  lemma FirstsStep(seen: set<string>, ds: seq<Detection>, od: Option<Detection>)
    ensures FirstsOfNewTypes(seen, ds + AsSeq(od)) ==
      FirstsOfNewTypes(seen, ds) + (if od.Some? && od.value.threatType !in seen + Types(ds) then [od.value] else [])
  {
    if od.None? {
      assert ds + AsSeq(od) == ds;
      return;
    }
    var d := od.value;
    var e := ds + [d];
    assert e[..|ds|] == ds;
    if d.threatType in Types(ds) {
      var j :| 0 <= j < |ds| && ThreatTypeOf(ds[j]) == d.threatType;
      assert e[j] == ds[j];
    } else {
      forall j | 0 <= j < |ds| ensures e[j].threatType != d.threatType {
        assert ThreatTypeOf(ds[j]) in Types(ds);
      }
    }
  }

  /** The per-packet pass: each packet's result is appended unless a result
      of the same threat type is already present. */
  function MergeDetections(agg: seq<Detection>, rs: Sig.RuleSet, ps: seq<Packet>, rx: Sig.Regexes): (r: Result<seq<Detection>>)
    requires Sig.Valid(rs)
    ensures r.Success? <==> DetectMultiple(rs, ps, rx).Success?
    ensures r.Failure? ==> r == DetectMultiple(rs, ps, rx)
    ensures r.Success? ==> |agg| <= |r.value| && r.value[..|agg|] == agg
    ensures r.Success? && DistinctTypes(agg) ==> DistinctTypes(r.value)
    ensures r.Success? ==> Types(r.value) == Types(agg) + Types(DetectMultiple(rs, ps, rx).value)
    ensures r.Success? ==> forall i | |agg| <= i < |r.value| :: r.value[i] in DetectMultiple(rs, ps, rx).value
    ensures r.Success? ==> r.value == agg + FirstsOfNewTypes(Types(agg), DetectMultiple(rs, ps, rx).value)
    decreases |ps|
  {
    if |ps| == 0 then Success(agg)
    else
      var n := |ps| - 1;
      var acc := MergeDetections(agg, rs, ps[..n], rx);
      if acc.Failure? then acc
      else
        var d := Detect(rs, ps[n], rx);
        if d.Failure? then Failure(d.error)
        else
          var prior := DetectMultiple(rs, ps[..n], rx).value;
          var next := if d.value.Some? && d.value.value.threatType !in Types(acc.value)
                      then acc.value + [d.value.value] else acc.value;
          MergeStep(agg, acc.value, prior, d.value, next);
          MergeFirsts(agg, acc.value, prior, d.value, next);
          Success(next)
  }

  /** The step keeps the merge equal to the aggregates followed by the
      first result of each new type. */
  lemma MergeFirsts(agg: seq<Detection>, acc: seq<Detection>, prior: seq<Detection>, d: Option<Detection>, next: seq<Detection>)
    requires Types(acc) == Types(agg) + Types(prior)
    requires acc == agg + FirstsOfNewTypes(Types(agg), prior)
    requires next == if d.Some? && d.value.threatType !in Types(acc) then acc + [d.value] else acc
    ensures next == agg + FirstsOfNewTypes(Types(agg), prior + AsSeq(d))
  {
    FirstsStep(Types(agg), prior, d);
    if d.Some? {
      Counting.AppendAssoc(agg, FirstsOfNewTypes(Types(agg), prior), [d.value]);
    }
  }

  lemma MergeStep(agg: seq<Detection>, acc: seq<Detection>, prior: seq<Detection>, d: Option<Detection>, next: seq<Detection>)
    requires |agg| <= |acc| && acc[..|agg|] == agg
    requires DistinctTypes(agg) ==> DistinctTypes(acc)
    requires Types(acc) == Types(agg) + Types(prior)
    requires forall i | |agg| <= i < |acc| :: acc[i] in prior
    requires next == if d.Some? && d.value.threatType !in Types(acc) then acc + [d.value] else acc
    ensures |agg| <= |next| && next[..|agg|] == agg
    ensures DistinctTypes(agg) ==> DistinctTypes(next)
    ensures Types(next) == Types(agg) + Types(prior + AsSeq(d))
    ensures forall i | |agg| <= i < |next| :: next[i] in prior + AsSeq(d)
  {
    Counting.ImageAppend(prior, AsSeq(d), ThreatTypeOf);
    if d.Some? {
      assert ThreatTypeOf(AsSeq(d)[0]) in Types(AsSeq(d));
    }
    assert Types(AsSeq(d)) == if d.Some? then {d.value.threatType} else {};
    if d.Some? && d.value.threatType !in Types(acc) {
      Counting.ImageAppend(acc, [d.value], ThreatTypeOf);
      assert next[..|agg|] == agg;
      if DistinctTypes(agg) {
        forall i | 0 <= i < |acc| ensures acc[i].threatType != d.value.threatType {
          assert ThreatTypeOf(acc[i]) in Types(acc);
        }
      }
    }
  }

  /** `detectSpecificAttacks`: the window-level findings followed by at most
      one per-packet result per further threat type. */
  function DetectSpecificAttacks(rs: Sig.RuleSet, ps: seq<Packet>, rx: Sig.Regexes): (r: Result<seq<Detection>>)
    requires Sig.Valid(rs)
    ensures r.Success? <==> DetectMultiple(rs, ps, rx).Success?
    ensures r.Success? ==> DistinctTypes(r.value)
    ensures r.Success? ==> Aggregates(ps) <= r.value
    ensures r.Success? ==> Types(r.value) == Types(Aggregates(ps)) + Types(DetectMultiple(rs, ps, rx).value)
    ensures r.Success? ==> forall i | |Aggregates(ps)| <= i < |r.value| :: r.value[i] in DetectMultiple(rs, ps, rx).value
    ensures r.Success? ==>
      r.value == Aggregates(ps) + FirstsOfNewTypes(Types(Aggregates(ps)), DetectMultiple(rs, ps, rx).value)
  {
    var agg := Aggregates(ps);
    MergeDetections(agg, rs, ps, rx)
  }
}

=== FILE: manager.dfy ===
/** `DetectionEngineManager`: the hybrid engine's rule set plus a bounded
    history of every result it has returned, and statistics over that
    history. */
module DetectionManager {
  import opened Wrappers
  import Counting
  import Fifo
  import opened Results
  import opened Packets
  import Sig = SignatureEngine
  import HybridEngine

  const MaxHistorySize: nat := 10000

  datatype Manager = Manager(rules: Sig.RuleSet, history: seq<Detection>)

  predicate Valid(m: Manager) {
    Sig.Valid(m.rules) && |m.history| <= MaxHistorySize
  }

  /** The constructor's state, the default rules and an empty history, is
      valid. */
  lemma ConstructedValid(m: Manager)
    requires m == Manager(Sig.DefaultRules(), [])
    ensures Valid(m)
  {
  }

  /** `addToHistory` applied to each result in turn. */
  function Record(m: Manager, results: seq<Detection>): (r: Manager)
    requires Valid(m)
    ensures Valid(r) && r.rules == m.rules
    ensures r.history == Fifo.LastN(m.history + results, MaxHistorySize)
  {
    Fifo.PushAllKeepsLast(m.history, results, MaxHistorySize);
    Manager(m.rules, Fifo.PushAll(m.history, results, MaxHistorySize))
  }

  /** `detect`: the hybrid result, recorded when there is one. An aborted
      call records nothing. */
  function Detect(m: Manager, p: Packet, rx: Sig.Regexes): (r: Result<(Manager, Option<Detection>)>)
    requires Valid(m)
    ensures r.Success? <==> HybridEngine.Detect(m.rules, p, rx).Success?
    ensures r.Success? ==> r.value.1 == HybridEngine.Detect(m.rules, p, rx).value
    ensures r.Success? ==> Valid(r.value.0) && r.value.0.rules == m.rules
    ensures r.Success? ==> r.value.0.history == Fifo.LastN(m.history + AsSeq(r.value.1), MaxHistorySize)
  {
    var d :- HybridEngine.Detect(m.rules, p, rx);
    Success((Record(m, AsSeq(d)), d))
  }

  /** `detectMultiple`: the batch results, all recorded in order. */
  function DetectMultiple(m: Manager, ps: seq<Packet>, rx: Sig.Regexes): (r: Result<(Manager, seq<Detection>)>)
    requires Valid(m)
    ensures r.Success? <==> HybridEngine.DetectMultiple(m.rules, ps, rx).Success?
    ensures r.Success? ==> r.value.1 == HybridEngine.DetectMultiple(m.rules, ps, rx).value
    ensures r.Success? ==> Valid(r.value.0) && r.value.0.rules == m.rules
    ensures r.Success? ==> r.value.0.history == Fifo.LastN(m.history + r.value.1, MaxHistorySize)
  {
    var ds :- HybridEngine.DetectMultiple(m.rules, ps, rx);
    Success((Record(m, ds), ds))
  }

  /** `detectSpecificAttacks`: the window-level and per-packet results, all
      recorded in order. */
  function DetectSpecificAttacks(m: Manager, ps: seq<Packet>, rx: Sig.Regexes): (r: Result<(Manager, seq<Detection>)>)
    requires Valid(m)
    ensures r.Success? <==> HybridEngine.DetectSpecificAttacks(m.rules, ps, rx).Success?
    ensures r.Success? ==> r.value.1 == HybridEngine.DetectSpecificAttacks(m.rules, ps, rx).value
    ensures r.Success? ==> Valid(r.value.0) && r.value.0.rules == m.rules
    ensures r.Success? ==> r.value.0.history == Fifo.LastN(m.history + r.value.1, MaxHistorySize)
  {
    var ds :- HybridEngine.DetectSpecificAttacks(m.rules, ps, rx);
    Success((Record(m, ds), ds))
  }

  /** `clearHistory`. */
  function ClearHistory(m: Manager): (r: Manager)
    requires Valid(m)
    ensures Valid(r) && r.history == [] && r.rules == m.rules
  {
    m.(history := [])
  }

  // ---------------------------------------------------------------------------
  // Statistics

  datatype Statistics = Statistics(
    totalDetections: nat,
    byThreatType: map<string, nat>,
    bySeverity: map<Severity, nat>,
    byMethod: map<DetectionMethod, nat>)

  function Project<U>(h: seq<Detection>, f: Detection -> U): (s: seq<U>)
    ensures |s| == |h| && forall i | 0 <= i < |h| :: s[i] == f(h[i])
  {
    seq(|h|, i requires 0 <= i < |h| => f(h[i]))
  }

  /** `stats.byX[v] = (stats.byX[v] || 0) + 1` over the history. */
  function Breakdown<U>(h: seq<Detection>, f: Detection -> U): map<U, nat> {
    Counting.Tally(Project(h, f))
  }

  /** `counts` has a key for each value the projection takes and no other,
      the entry for a value is the number of history entries taking it, and
      read in first-occurrence order the entries add up to the history size. */
  predicate CountsOf<U(!new)>(h: seq<Detection>, f: Detection -> U, counts: map<U, nat>) {
    && (forall i | 0 <= i < |h| :: f(h[i]) in counts)
    && (forall v | v in counts :: v in Project(h, f) && counts[v] == multiset(Project(h, f))[v])
    && Counting.SumAt(Counting.Dedup(Project(h, f)), counts) == |h|
  }

  /** A breakdown counts the history's values. */
  lemma BreakdownCounts<U(!new)>(h: seq<Detection>, f: Detection -> U)
    ensures CountsOf(h, f, Breakdown(h, f))
  {
    var values := Project(h, f);
    Counting.TallySum(values);
    forall i | 0 <= i < |h| ensures f(h[i]) in Breakdown(h, f) {
      assert values[i] == f(h[i]);
    }
  }

  /** `getStatistics`: the history's length and its breakdowns by threat
      type, severity and method; each breakdown counts every entry once,
      under its own value. */
  function GetStatistics(m: Manager): (s: Statistics)
    ensures s.totalDetections == |m.history|
    ensures CountsOf(m.history, ThreatTypeOf, s.byThreatType)
    ensures CountsOf(m.history, SeverityOf, s.bySeverity)
    ensures CountsOf(m.history, MethodOf, s.byMethod)
  {
    BreakdownCounts(m.history, ThreatTypeOf);
    BreakdownCounts(m.history, SeverityOf);
    BreakdownCounts(m.history, MethodOf);
    Statistics(|m.history|, Breakdown(m.history, ThreatTypeOf),
               Breakdown(m.history, SeverityOf), Breakdown(m.history, MethodOf))
  }

  // ---------------------------------------------------------------------------
  // Sequences of calls

  /** The calls that change the manager's state. Rule changes go through the
      hybrid engine's signature engine. */
  datatype Call =
    | DetectOne(packet: Packet)
    | DetectBatch(packets: seq<Packet>)
    | DetectAttacks(packets: seq<Packet>)
    | Clear
    | AddRuleCall(rule: Sig.Rule)
    | RemoveRuleCall(id: string)
    | ToggleRuleCall(id: string, enabled: bool)

  /** One call: the next state and the results the call returned. */
  function Apply(m: Manager, c: Call, rx: Sig.Regexes): (r: Result<(Manager, seq<Detection>)>)
    requires Valid(m)
    ensures r.Success? ==> Valid(r.value.0)
    ensures r.Success? && c.Clear? ==> r.value.0.history == [] && r.value.1 == []
    ensures r.Success? && !c.Clear? ==> r.value.0.history == Fifo.LastN(m.history + r.value.1, MaxHistorySize)
    ensures r.Failure? ==> c.DetectOne? || c.DetectBatch? || c.DetectAttacks?
  {
    match c
    case DetectOne(p) =>
      var (next, d) :- Detect(m, p, rx);
      Success((next, AsSeq(d)))
    case DetectBatch(ps) => DetectMultiple(m, ps, rx)
    case DetectAttacks(ps) => DetectSpecificAttacks(m, ps, rx)
    case Clear => Success((ClearHistory(m), []))
    case AddRuleCall(rule) =>
      assert m.history + [] == m.history;
      Success((m.(rules := Sig.AddRule(m.rules, rule)), []))
    case RemoveRuleCall(id) =>
      assert m.history + [] == m.history;
      Success((m.(rules := Sig.RemoveRule(m.rules, id)), []))
    case ToggleRuleCall(id, enabled) =>
      assert m.history + [] == m.history;
      Success((m.(rules := Sig.ToggleRule(m.rules, id, enabled)), []))
  }

  predicate HasClear(cs: seq<Call>) {
    exists i :: 0 <= i < |cs| && cs[i].Clear?
  }

  lemma HasClearLast(cs: seq<Call>)
    requires |cs| > 0
    ensures HasClear(cs) <==> HasClear(cs[..|cs| - 1]) || cs[|cs| - 1].Clear?
  {
    var n := |cs| - 1;
    if HasClear(cs) && !cs[n].Clear? {
      var i :| 0 <= i < |cs| && cs[i].Clear?;
      assert cs[..n][i] == cs[i];
    }
    if HasClear(cs[..n]) {
      var i :| 0 <= i < n && cs[..n][i].Clear?;
      assert cs[i] == cs[..n][i];
    }
  }

  /** A run of calls: the final state and every result returned since the
      last `clearHistory` (or since the start, without one). A call that
      throws records nothing and returns nothing, and the calls after it
      go on from the state it left unchanged. */
  function Run(m: Manager, cs: seq<Call>, rx: Sig.Regexes): (r: (Manager, seq<Detection>))
    requires Valid(m)
    ensures Valid(r.0)
    decreases |cs|
  {
    if |cs| == 0 then (m, [])
    else
      var n := |cs| - 1;
      var (mid, since) := Run(m, cs[..n], rx);
      match Apply(mid, cs[n], rx)
      case Failure(_) => (mid, since)
      case Success((next, out)) => (next, if cs[n].Clear? then [] else since + out)
  }

  /** After any run of calls, including calls that throw, the history holds
      the last 10000 results returned since the last `clearHistory`,
      preceded by the initial history when the run never clears it: oldest
      entries are evicted first. */
  lemma {:induction false} RunHistory(m: Manager, cs: seq<Call>, rx: Sig.Regexes)
    requires Valid(m)
    ensures Run(m, cs, rx).0.history ==
      Fifo.LastN((if HasClear(cs) then [] else m.history) + Run(m, cs, rx).1, MaxHistorySize)
    decreases |cs|
  {
    if |cs| == 0 {
      assert m.history + [] == m.history;
    } else {
      var n := |cs| - 1;
      RunHistory(m, cs[..n], rx);
      HasClearLast(cs);
      var prev := Run(m, cs[..n], rx);
      var step := Apply(prev.0, cs[n], rx);
      if step.Success? && !cs[n].Clear? {
        var base := if HasClear(cs) then [] else m.history;
        Fifo.LastNAppend(base, prev.1, step.value.1, MaxHistorySize);
      }
    }
  }

  /** In particular, from a fresh or cleared manager the history is the last
      10000 results returned since the last `clearHistory`. */
  lemma FreshRunHistory(m: Manager, cs: seq<Call>, rx: Sig.Regexes)
    requires Valid(m) && m.history == []
    ensures Run(m, cs, rx).0.history == Fifo.LastN(Run(m, cs, rx).1, MaxHistorySize)
  {
    RunHistory(m, cs, rx);
    assert [] + Run(m, cs, rx).1 == Run(m, cs, rx).1;
  }
}

=== FILE: models.dfy ===
/** `ModelManager`: one random forest and one neural network, the
    `PredictionResult` each yields, their ensemble, and training, saving and
    loading the pair. */
module Models {
  import opened Wrappers
  import Text
  import RF = RandomForest
  import NN = NeuralNetwork
  import DT = DecisionTree

  datatype PredictionResult = PredictionResult(
    isAttack: bool,
    attackType: string,
    confidence: real,
    probability: real,
    features: map<string, real>)

  datatype Manager = Manager(forest: RF.Forest, network: NN.Network)

  /** The constructor: 100 trees of depth at most 20 splitting from 2
      samples, and a 20-64-2 network with learning rate 0.01 whose random
      initial parameters are `init`. */
  function NewManager(init: NN.Params): (m: Manager)
    ensures m.forest.numTrees == 100 && m.forest.maxDepth == 20 && m.forest.minSamplesSplit == 2
    ensures !m.forest.isTrained && !m.network.isTrained
    ensures m.network.inputSize == 20 && m.network.hiddenSize == 64 && m.network.outputSize == 2
  {
    Manager(RF.NewForest(100, 20, 2), NN.NewNetwork(20, 64, 2, 0.01, init))
  }

  // ---------------------------------------------------------------------------
  // Feature names

  /** The names `featuresToObject` gives the first twenty features. */
  const KnownNames: seq<string> := [
    "protocolType", "duration", "sourceBytes", "destinationBytes",
    "sourcePackets", "destinationPackets", "sourcePortCount", "destinationPortCount",
    "payloadLength", "averagePayloadSize", "interPacketTime", "flagCounts",
    "feature12", "feature13", "feature14", "feature15",
    "feature16", "feature17", "feature18", "feature19"]

  /** `featureNames[idx] || \`feature${idx}\``. */
  function FeatureName(i: nat): string {
    if i < |KnownNames| then KnownNames[i] else "feature" + Text.NatText(i)
  }

  function LastChar(s: string): char
    requires |s| > 0
  {
    s[|s| - 1]
  }

  /** From index 12 on, every name is `feature` followed by the index, so
      it ends in a digit. */
  lemma NumberedName(i: nat)
    requires i >= 12
    ensures FeatureName(i) == "feature" + Text.NatText(i)
    ensures '0' <= LastChar(FeatureName(i)) <= '9'
  {
    if i < 20 {
      assert Text.NatText(i) == Text.NatText(1) + [Text.DigitChar(i % 10)];
    }
    var t := Text.NatText(i);
    assert LastChar(FeatureName(i)) == t[|t| - 1];
  }

  /** Length and first letter of each of the first twelve names. */
  const Shapes: seq<(nat, char)> := [
    (12, 'p'), (8, 'd'), (11, 's'), (16, 'd'), (13, 's'), (18, 'd'),
    (15, 's'), (20, 'd'), (13, 'p'), (18, 'a'), (15, 'i'), (10, 'f')]

  /** Each of the first twelve names has its listed shape and ends in a
      letter. */
  lemma NamedShape(i: nat)
    requires i < 12
    ensures |FeatureName(i)| > 0
    ensures (|FeatureName(i)|, FeatureName(i)[0]) == Shapes[i]
    ensures !('0' <= LastChar(FeatureName(i)) <= '9')
  {
  }

  /** Distinct indices get distinct names, so no feature overwrites
      another in the object. */
  lemma NameInjective(i: nat, j: nat)
    requires FeatureName(i) == FeatureName(j)
    ensures i == j
  {
    if i >= 12 && j >= 12 {
      NumberedName(i);
      NumberedName(j);
      var a := Text.NatText(i);
      var b := Text.NatText(j);
      assert a == ("feature" + a)[7..] == ("feature" + b)[7..] == b;
      Text.NatTextInjective(i, j);
    } else if i < 12 && j < 12 {
      NamedShape(i);
      NamedShape(j);
    } else if i < 12 {
      NamedShape(i);
      NumberedName(j);
    } else {
      NumberedName(i);
      NamedShape(j);
    }
  }

  /** A naming of indices in which no two indices share a name. */
  ghost predicate Injective(name: nat -> string) {
    forall i: nat, j: nat :: name(i) == name(j) ==> i == j
  }

  lemma FeatureNamesInjective()
    ensures Injective(FeatureName)
  {
    forall i: nat, j: nat | FeatureName(i) == FeatureName(j) ensures i == j {
      NameInjective(i, j);
    }
  }

  /** The object `features.forEach((val, idx) => obj[name(idx)] = val)`
      builds: under an injective naming, each value under its own name. */
  function Keyed(name: nat -> string, x: seq<real>): (m: map<string, real>)
    requires Injective(name)
    ensures m.Keys == set i | 0 <= i < |x| :: name(i)
    ensures forall i | 0 <= i < |x| :: m[name(i)] == x[i]
  {
    if |x| == 0 then map[]
    else
      var prefix := x[..|x| - 1];
      var m := Keyed(name, prefix);
      assert forall i | 0 <= i < |prefix| :: m[name(i)] == x[i] by {
        forall i | 0 <= i < |prefix| ensures m[name(i)] == x[i] {
          assert prefix[i] == x[i];
        }
      }
      m[name(|x| - 1) := x[|x| - 1]]
  }

  /** An injective naming of `n` indices yields `n` names. */
  lemma {:induction false} KeyCount(name: nat -> string, n: nat)
    requires Injective(name)
    ensures |set i | 0 <= i < n :: name(i)| == n
  {
    if n > 0 {
      var s := set i | 0 <= i < n - 1 :: name(i);
      KeyCount(name, n - 1);
      assert (set i | 0 <= i < n :: name(i)) == s + {name(n - 1)};
      assert name(n - 1) !in s;
    }
  }

  /** `featuresToObject`: each feature under its name, one key per
      feature. */
  function FeaturesObject(x: seq<real>): (m: map<string, real>)
    ensures m.Keys == set i | 0 <= i < |x| :: FeatureName(i)
    ensures forall i | 0 <= i < |x| :: m[FeatureName(i)] == x[i]
    ensures |m| == |x|
  {
    FeatureNamesInjective();
    KeyCount(FeatureName, |x|);
    Keyed(FeatureName, x)
  }

  // ---------------------------------------------------------------------------
  // Results

  /** The verdict fields shared by both models' results. */
  function Verdict(prediction: nat, confidence: real, probability: real, x: seq<real>): (r: PredictionResult)
    ensures r.isAttack <==> prediction == 1
    ensures r.attackType == (if r.isAttack then "malicious" else "benign")
  {
    PredictionResult(prediction == 1, if prediction == 1 then "malicious" else "benign",
      confidence, probability, FeaturesObject(x))
  }

  function Max(a: real, b: real): real {
    if a >= b then a else b
  }

  /** `predictRandomForest`: the forest's vote and fractions; it throws
      whatever `predict` or `predictProba` throws. */
  function PredictRandomForest(m: Manager, x: seq<real>): (r: Result<PredictionResult>)
    ensures r.Failure? <==> RF.Predict(m.forest, x).Failure? || RF.PredictProba(m.forest, x).Failure?
    ensures r.Failure? && !m.forest.isTrained ==> r.error == NotTrained
    ensures r.Success? ==> var p := RF.PredictProba(m.forest, x).value;
      && (r.value.isAttack <==> RF.Predict(m.forest, x) == Success(1))
      && r.value.attackType == (if r.value.isAttack then "malicious" else "benign")
      && r.value.confidence == 100.0 * Max(p.0, p.1)
      && r.value.probability == p.1
      && r.value.features == FeaturesObject(x)
  {
    var prediction :- RF.Predict(m.forest, x);
    var p :- RF.PredictProba(m.forest, x);
    Success(Verdict(prediction, 100.0 * Max(p.0, p.1), p.1, x))
  }

  /** `predictNeuralNetwork`: the network's class and its output. */
  function PredictNeuralNetwork(m: Manager, forward: NN.Forward, x: seq<real>): (r: Result<PredictionResult>)
    ensures r.Failure? <==> !m.network.isTrained
    ensures r.Failure? ==> r.error == NotTrained
    ensures r.Success? ==> var p := NN.PredictProba(m.network, forward, x);
      && (r.value.isAttack <==> !(p.0 > p.1))
      && r.value.attackType == (if r.value.isAttack then "malicious" else "benign")
      && r.value.confidence == 100.0 * Max(p.0, p.1)
      && r.value.probability == p.1
      && r.value.features == FeaturesObject(x)
  {
    var prediction :- NN.Predict(m.network, forward, x);
    var p := NN.PredictProba(m.network, forward, x);
    Success(Verdict(prediction, 100.0 * Max(p.0, p.1), p.1, x))
  }

  /** `predictEnsemble`: the two results averaged; an attack exactly when
      the mean attack probability exceeds one half. */
  function PredictEnsemble(m: Manager, forward: NN.Forward, x: seq<real>): (r: Result<PredictionResult>)
    ensures r.Failure? <==> PredictRandomForest(m, x).Failure? || PredictNeuralNetwork(m, forward, x).Failure?
    ensures r.Success? ==>
      var a := PredictRandomForest(m, x).value;
      var b := PredictNeuralNetwork(m, forward, x).value;
      && r.value.probability == (a.probability + b.probability) / 2.0
      && r.value.confidence == (a.confidence + b.confidence) / 2.0
      && (r.value.isAttack <==> r.value.probability > 0.5)
      && r.value.attackType == (if r.value.isAttack then "malicious" else "benign")
  {
    var a :- PredictRandomForest(m, x);
    var b :- PredictNeuralNetwork(m, forward, x);
    var probability := (a.probability + b.probability) / 2.0;
    Success(PredictionResult(probability > 0.5, if probability > 0.5 then "malicious" else "benign",
      (a.confidence + b.confidence) / 2.0, probability, a.features))
  }

  /** When both models report a probability pair summing to 1, each flags
      an attack exactly when its attack probability is at least one half,
      and its confidence lies between 50 and 100. */
  lemma BinaryVerdicts(m: Manager, forward: NN.Forward, x: seq<real>)
    requires m.forest.isTrained && m.forest.numTrees > 0 && |m.forest.trees| == m.forest.numTrees
    requires forall k | 0 <= k < |m.forest.trees| :: DT.PredictAsWritten(m.forest.trees[k].root, x) <= 1
    requires var p := NN.PredictProba(m.network, forward, x);
      m.network.isTrained && 0.0 <= p.0 && 0.0 <= p.1 && p.0 + p.1 == 1.0
    ensures var a := PredictRandomForest(m, x);
      a.Success? && (a.value.isAttack <==> a.value.probability >= 0.5)
      && 50.0 <= a.value.confidence <= 100.0
    ensures var b := PredictNeuralNetwork(m, forward, x);
      b.Success? && (b.value.isAttack <==> b.value.probability >= 0.5)
      && 50.0 <= b.value.confidence <= 100.0
  {
    RF.PredictFollowsProba(m.forest, x);
    RF.ProbaSumsToOne(m.forest, x);
  }

  /** Where both models agree strictly the ensemble agrees with them. */
  lemma EnsembleAgrees(m: Manager, forward: NN.Forward, x: seq<real>)
    requires PredictEnsemble(m, forward, x).Success?
    ensures var a := PredictRandomForest(m, x).value;
      var b := PredictNeuralNetwork(m, forward, x).value;
      var e := PredictEnsemble(m, forward, x).value;
      && (a.probability > 0.5 && b.probability > 0.5 ==> e.isAttack)
      && (a.probability <= 0.5 && b.probability <= 0.5 ==> !e.isAttack)
  {
  }

  /** Both models flag a sample whose attack probabilities are exactly one
      half, yet the ensemble of the two does not. */
  lemma EvenSplitDisagrees(m: Manager, forward: NN.Forward, x: seq<real>)
    requires PredictEnsemble(m, forward, x).Success?
    requires RF.PredictProba(m.forest, x).value == (0.5, 0.5)
    requires NN.PredictProba(m.network, forward, x) == (0.5, 0.5)
    ensures PredictNeuralNetwork(m, forward, x).value.isAttack
    ensures !PredictEnsemble(m, forward, x).value.isAttack
  {
  }

  // ---------------------------------------------------------------------------
  // Training, saving and loading

  /** `trainAll`: the forest first, whose "Training data is empty" stops
      the call before the network is trained. */
  function TrainAll(m: Manager, rows: seq<seq<real>>, labels: seq<nat>, draws: seq<seq<nat>>, gain: DT.Gain): (r: Result<Manager>)
    requires |labels| >= |rows|
    requires |draws| == m.forest.numTrees && forall k | 0 <= k < |draws| :: RF.ValidDraw(draws[k], |rows|)
    ensures r.Failure? <==> |rows| == 0
    ensures r.Failure? ==> r.error == EmptyTrainingData
    ensures r.Success? ==> r.value.forest.isTrained && r.value.network.isTrained
    ensures r.Success? ==> r.value.forest == RF.Train(m.forest, rows, labels, draws, gain).value
    ensures r.Success? ==> r.value.network.params == m.network.params
  {
    var forest :- RF.Train(m.forest, rows, labels, draws, gain);
    Success(Manager(forest, NN.Train(m.network, rows, labels)))
  }

  /** After training on nonempty 0/1-labelled data with at least one tree,
      the forest's verdict succeeds, its attack probability lies in [0, 1],
      and it flags an attack exactly when that probability is at least one
      half. */
  lemma TrainAllPredicts(m: Manager, rows: seq<seq<real>>, labels: seq<nat>, draws: seq<seq<nat>>, gain: DT.Gain, x: seq<real>)
    requires |labels| >= |rows| && |rows| > 0 && m.forest.numTrees > 0
    requires |draws| == m.forest.numTrees && forall k | 0 <= k < |draws| :: RF.ValidDraw(draws[k], |rows|)
    requires forall k | 0 <= k < |labels| :: labels[k] <= 1
    ensures var a := PredictRandomForest(TrainAll(m, rows, labels, draws, gain).value, x);
      && a.Success? && 0.0 <= a.value.probability <= 1.0
      && (a.value.isAttack <==> a.value.probability >= 0.5)
  {
    RF.TrainedBinaryForest(m.forest, rows, labels, draws, gain, x);
  }

  datatype SavedModels = SavedModels(randomForest: RF.SavedForest, neuralNetwork: NN.SavedNetwork)

  function SaveModels(m: Manager): (d: SavedModels)
    ensures d.neuralNetwork.isTrained == m.network.isTrained
    ensures d.randomForest.isTrained == m.forest.isTrained
  {
    SavedModels(RF.Save(m.forest), NN.Save(m.network))
  }

  /** `loadModels`: the forest first; a tree saved without a root fails
      before the network is loaded. */
  function LoadModels(d: SavedModels): (r: Result<Manager>)
    ensures r.Failure? <==> RF.Load(d.randomForest).Failure?
    ensures r.Success? ==> r.value.network == NN.Load(d.neuralNetwork)
  {
    var forest :- RF.Load(d.randomForest);
    Success(Manager(forest, NN.Load(d.neuralNetwork)))
  }

  /** Loading saved models restores both. */
  lemma LoadSaveModels(m: Manager)
    ensures LoadModels(SaveModels(m)) == Success(m)
  {
    RF.LoadSave(m.forest);
    NN.LoadSave(m.network);
  }
}

=== FILE: network.dfy ===
/** `NeuralNetworkClassifier`, modelled through its lifecycle only: the
    forward pass is a parameter, training computes a loss it never uses and
    so only marks the network trained, prediction is guarded by that mark
    while the probabilities are not. */
module NeuralNetwork {
  import opened Wrappers

  /** The weight matrices and bias vectors of the two layers. */
  datatype Params = Params(weights: seq<seq<real>>, biases: seq<seq<real>>)

  /** `relu(matmul(...))` followed by `softmax(matmul(...))`: the two output
      probabilities for a feature vector. */
  type Forward = (Params, seq<real>) -> (real, real)

  datatype Network = Network(
    params: Params,
    learningRate: real,
    epochs: int,
    isTrained: bool,
    inputSize: int,
    hiddenSize: int,
    outputSize: int)

  /** The constructor: the given sizes and rate, 100 epochs, not trained, and
      the randomly initialised parameters `init`. */
  function NewNetwork(inputSize: int, hiddenSize: int, outputSize: int, learningRate: real, init: Params): (n: Network)
    ensures !n.isTrained && n.epochs == 100 && n.params == init
    ensures n.inputSize == inputSize && n.hiddenSize == hiddenSize && n.outputSize == outputSize
    ensures n.learningRate == learningRate
  {
    Network(init, learningRate, 100, false, inputSize, hiddenSize, outputSize)
  }

  /** `train`: the epochs only accumulate a loss for logging, so the network
      comes out trained and otherwise exactly as it went in, whatever the
      data, including none. */
  function Train(n: Network, rows: seq<seq<real>>, labels: seq<nat>): (r: Network)
    ensures r.isTrained
    ensures r.(isTrained := n.isTrained) == n
  {
    n.(isTrained := true)
  }

  /** `predictProba`: the forward pass, with no check that the network was
      trained. */
  function PredictProba(n: Network, forward: Forward, x: seq<real>): (p: (real, real)) {
    forward(n.params, x)
  }

  /** `predict`: "Model is not trained" before training; otherwise class 0
      exactly when its probability is strictly the larger. */
  function Predict(n: Network, forward: Forward, x: seq<real>): (r: Result<nat>)
    ensures r.Failure? <==> !n.isTrained
    ensures r.Failure? ==> r.error == NotTrained
    ensures r.Success? ==> r.value <= 1
    ensures r.Success? ==> (r.value == 0 <==> forward(n.params, x).0 > forward(n.params, x).1)
  {
    if !n.isTrained then Failure(NotTrained)
    else
      var p := PredictProba(n, forward, x);
      Success(if p.0 > p.1 then 0 else 1)
  }

  /** Training leaves the probabilities unchanged, and makes `predict`
      answer with the class those probabilities favour. */
  lemma TrainKeepsProba(n: Network, forward: Forward, rows: seq<seq<real>>, labels: seq<nat>, x: seq<real>)
    ensures PredictProba(Train(n, rows, labels), forward, x) == PredictProba(n, forward, x)
    ensures var p := PredictProba(n, forward, x);
      Predict(Train(n, rows, labels), forward, x) == Success(if p.0 > p.1 then 0 else 1)
  {
  }

  /** The object `save` serialises: every field. */
  datatype SavedNetwork = SavedNetwork(
    weights: seq<seq<real>>,
    biases: seq<seq<real>>,
    learningRate: real,
    epochs: int,
    isTrained: bool,
    inputSize: int,
    hiddenSize: int,
    outputSize: int)

  function Save(n: Network): (d: SavedNetwork)
    ensures d.isTrained == n.isTrained && d.weights == n.params.weights && d.biases == n.params.biases
  {
    SavedNetwork(n.params.weights, n.params.biases, n.learningRate, n.epochs, n.isTrained,
      n.inputSize, n.hiddenSize, n.outputSize)
  }

  /** `load`: every field is overwritten from the object. */
  function Load(d: SavedNetwork): (n: Network)
    ensures n.isTrained == d.isTrained && n.params == Params(d.weights, d.biases)
    ensures n.learningRate == d.learningRate && n.epochs == d.epochs
    ensures n.inputSize == d.inputSize && n.hiddenSize == d.hiddenSize && n.outputSize == d.outputSize
    ensures Save(n) == d
  {
    Network(Params(d.weights, d.biases), d.learningRate, d.epochs, d.isTrained,
      d.inputSize, d.hiddenSize, d.outputSize)
  }

  /** Loading a saved network restores it. */
  lemma LoadSave(n: Network)
    ensures Load(Save(n)) == n
  {
  }
}

=== FILE: packets.dfy ===
/** The packet record, the 1000-packet window, feature extraction over a
    window, TCP flag classification (`PacketProcessor` and
    `ProtocolAnalyzer.analyzeTCP`). Timestamps are integer milliseconds
    (`Date.getTime()`). */
module Packets {
  import opened Wrappers
  import Counting
  import Text
  import Fifo

  datatype Packet = Packet(
    timestamp: int,
    sourceIp: string,
    destinationIp: string,
    sourcePort: int,
    destinationPort: int,
    protocol: string,
    payloadSize: nat,
    flags: Option<string>,
    ttl: Option<int>,
    payload: Option<string>,
    rawData: Option<string>)

  function SourceIpOf(p: Packet): string { p.sourceIp }
  function DestinationIpOf(p: Packet): string { p.destinationIp }
  function SourcePortOf(p: Packet): int { p.sourcePort }
  function DestinationPortOf(p: Packet): int { p.destinationPort }

  // ---------------------------------------------------------------------------
  // The packet window

  const BufferCapacity: nat := 1000

  /** `addPacket`: append, then drop the oldest entry once the window holds
      more than 1000 packets. */
  function AddPacket(buffer: seq<Packet>, p: Packet): (r: seq<Packet>)
    ensures |buffer| <= BufferCapacity ==> |r| <= BufferCapacity
    ensures |r| > 0 && r[|r| - 1] == p
    ensures |buffer| < BufferCapacity ==> r[..|r| - 1] == buffer
    ensures |buffer| >= BufferCapacity ==> r[..|r| - 1] == buffer[1..]
  {
    var r := Fifo.Push(buffer, p, BufferCapacity);
    assert |buffer| >= BufferCapacity ==> r[..|r| - 1] == buffer[1..] by {
      if |buffer| >= BufferCapacity {
        assert r == (buffer + [p])[1..];
      }
    }
    r
  }

  /** The window after a stream of `addPacket` calls on an empty buffer holds
      the last `min(1000, k)` of the `k` packets added. */
  lemma WindowKeepsLatest(packets: seq<Packet>)
    ensures Fifo.PushAll([], packets, BufferCapacity) == Fifo.LastN(packets, BufferCapacity)
    ensures |Fifo.PushAll([], packets, BufferCapacity)| <= BufferCapacity
  {
    Fifo.FromEmpty(packets, BufferCapacity);
  }

  // ---------------------------------------------------------------------------
  // TCP flags

  const FlagNames: set<string> := {"SYN", "ACK", "FIN", "RST", "PSH", "URG"}

  /** The trimmed comma-separated tokens of a flags string: one per field,
      each that field with the surrounding whitespace removed. */
  function FlagTokens(flags: string): (tokens: seq<string>)
    ensures |tokens| == |Text.SplitComma(flags)|
    ensures forall i | 0 <= i < |tokens| :: tokens[i] == Text.Trim(Text.SplitComma(flags)[i])
    ensures forall i | 0 <= i < |tokens| :: ',' !in tokens[i]
    ensures forall i | 0 <= i < |tokens| && |tokens[i]| > 0 ::
      !Text.IsJsSpace(tokens[i][0]) && !Text.IsJsSpace(tokens[i][|tokens[i]| - 1])
  {
    var parts := Text.SplitComma(flags);
    forall i | 0 <= i < |parts| ensures ',' !in Text.Trim(parts[i]) {
      Text.TrimKeeps(parts[i], ',');
    }
    seq(|parts|, i requires 0 <= i < |parts| => Text.Trim(parts[i]))
  }

  /** The tokens a packet contributes: none when `flags` is absent or empty. */
  function PacketTokens(p: Packet): seq<string> {
    match p.flags
    case Some(s) => if s == "" then [] else FlagTokens(s)
    case None => []
  }

  /** All flag tokens of a window, packet by packet. */
  function AllTokens(packets: seq<Packet>): seq<string> {
    if |packets| == 0 then []
    else AllTokens(packets[..|packets| - 1]) + PacketTokens(packets[|packets| - 1])
  }

  /** `countFlags`: for each of the six flag names, the number of tokens equal
      to it across the window; no other key appears. */
  method CountFlags(packets: seq<Packet>) returns (counts: map<string, nat>)
    ensures counts.Keys == FlagNames
    ensures forall f | f in counts :: counts[f] == multiset(AllTokens(packets))[f]
  {
    counts := ZeroCounts();
    assert packets[..0] == [];
    var i := 0;
    while i < |packets|
      invariant 0 <= i <= |packets|
      invariant counts.Keys == FlagNames
      invariant forall f | f in counts :: counts[f] == multiset(AllTokens(packets[..i]))[f]
    {
      assert packets[..i + 1][..i] == packets[..i];
      assert AllTokens(packets[..i + 1]) == AllTokens(packets[..i]) + PacketTokens(packets[i]);
      counts := CountTokens(counts, PacketTokens(packets[i]), AllTokens(packets[..i]));
      i := i + 1;
    }
    assert packets[..i] == packets;
  }

  /** The six flag names, each counted zero times. */
  function ZeroCounts(): (counts: map<string, nat>)
    ensures counts.Keys == FlagNames
    ensures forall f | f in counts :: counts[f] == 0
  {
    map["SYN" := 0, "ACK" := 0, "FIN" := 0, "RST" := 0, "PSH" := 0, "URG" := 0]
  }

  /** Adds the occurrences of the flag names among `tokens` to `counts`,
      which holds the counts over `seen`. */
  method CountTokens(counts: map<string, nat>, tokens: seq<string>, ghost seen: seq<string>)
    returns (r: map<string, nat>)
    requires forall f | f in counts :: counts[f] == multiset(seen)[f]
    ensures r.Keys == counts.Keys
    ensures forall f | f in r :: r[f] == multiset(seen + tokens)[f]
  {
    r := counts;
    var j := 0;
    while j < |tokens|
      invariant 0 <= j <= |tokens|
      invariant r.Keys == counts.Keys
      invariant forall f | f in r :: r[f] == multiset(seen + tokens[..j])[f]
    {
      var t := tokens[j];
      assert seen + tokens[..j + 1] == (seen + tokens[..j]) + [t];
      if t in r {
        r := r[t := r[t] + 1];
      }
      j := j + 1;
    }
    assert tokens[..j] == tokens;
  }

  /** The record `analyzeTCP` returns; an absent field is `None`. */
  datatype TcpAnalysis = TcpAnalysis(
    isSynFlood: Option<bool>,
    isNormalHandshake: Option<bool>,
    isReset: Option<bool>)

  /** `ProtocolAnalyzer.analyzeTCP`: an empty flags string gives the empty
      record; otherwise SYN without ACK is a flood, SYN with ACK a handshake,
      and RST a reset. */
  function AnalyzeTcp(flags: string): (r: TcpAnalysis)
    ensures flags == "" <==> r == TcpAnalysis(None, None, None)
    ensures flags != "" ==> r.isSynFlood.Some? && r.isNormalHandshake.Some? && r.isReset.Some?
    ensures !(r.isSynFlood == Some(true) && r.isNormalHandshake == Some(true))
    ensures r.isSynFlood == Some(true) || r.isNormalHandshake == Some(true)
      <==> flags != "" && "SYN" in FlagTokens(flags)
    ensures r.isSynFlood == Some(true) <==>
      flags != "" && "SYN" in FlagTokens(flags) && "ACK" !in FlagTokens(flags)
    ensures r.isNormalHandshake == Some(true) <==>
      flags != "" && "SYN" in FlagTokens(flags) && "ACK" in FlagTokens(flags)
    ensures r.isReset == Some(true) <==> flags != "" && "RST" in FlagTokens(flags)
  {
    if flags == "" then TcpAnalysis(None, None, None)
    else
      var tokens := FlagTokens(flags);
      TcpAnalysis(
        Some("SYN" in tokens && "ACK" !in tokens),
        Some("SYN" in tokens && "ACK" in tokens),
        Some("RST" in tokens))
  }

  // ---------------------------------------------------------------------------
  // Feature extraction

  /** The extracted feature record. `flagCounts` is the six-entry record
      before it is rendered as JSON; the default record's `"{}"` is the empty
      map. Rates and averages carry the two-decimal rounding. */
  datatype Features = Features(
    protocolType: string,
    duration: int,
    sourceBytes: nat,
    destinationBytes: nat,
    sourcePackets: nat,
    destinationPackets: nat,
    sourcePortCount: nat,
    destinationPortCount: nat,
    payloadLength: nat,
    averagePayloadSize: real,
    interPacketTime: real,
    flagCounts: map<string, nat>)

  /** `getDefaultFeatures`. */
  function DefaultFeatures(): Features {
    Features("unknown", 0, 0, 0, 0, 0, 0, 0, 0, 0.0, 0.0, map[])
  }

  function TotalPayload(packets: seq<Packet>): nat {
    if |packets| == 0 then 0
    else TotalPayload(packets[..|packets| - 1]) + packets[|packets| - 1].payloadSize
  }

  /** The time between the first and the last packet of a window, in ms. */
  function Span(packets: seq<Packet>): int
    requires |packets| > 0
  {
    packets[|packets| - 1].timestamp - packets[0].timestamp
  }

  /** `extractFeatures`: the default record for an empty window; otherwise
      the first packet's protocol, the packet count, the payload total, the
      numbers of distinct ports, the duration in whole seconds and the mean
      gap between consecutive packets, which telescopes to the span divided
      by the number of gaps. */
  method ExtractFeatures(packets: seq<Packet>) returns (f: Features)
    ensures |packets| == 0 ==> f == DefaultFeatures()
    ensures |packets| > 0 ==>
      && f.protocolType == packets[0].protocol
      && f.sourcePackets == |packets|
      && f.sourceBytes == TotalPayload(packets)
      && f.payloadLength == f.sourceBytes
      && f.destinationBytes == 0 && f.destinationPackets == 0
      && f.sourcePortCount == |Counting.Image(packets, SourcePortOf)|
      && f.destinationPortCount == |Counting.Image(packets, DestinationPortOf)|
      && 1 <= f.sourcePortCount <= |packets|
      && 1 <= f.destinationPortCount <= |packets|
      && f.averagePayloadSize == Text.Round2(TotalPayload(packets) as real / |packets| as real)
      && f.duration == (if |packets| > 1 then Text.JsRound(Span(packets) as real / 1000.0) else 0)
      && f.interPacketTime
         == (if |packets| > 1 then Text.Round2(Span(packets) as real / (|packets| - 1) as real) else 0.0)
      && f.flagCounts.Keys == FlagNames
      && (forall g | g in f.flagCounts :: f.flagCounts[g] == multiset(AllTokens(packets))[g])
  {
    if |packets| == 0 {
      return DefaultFeatures();
    }
    var n := |packets|;
    var sourceBytes := SumPayload(packets);

    var duration := 0;
    if n > 1 {
      duration := Text.JsRound((packets[n - 1].timestamp - packets[0].timestamp) as real / 1000.0);
    }

    Counting.ImageCard(packets, SourcePortOf);
    Counting.ImageCard(packets, DestinationPortOf);
    var uniqueSourcePorts := |Counting.Image(packets, SourcePortOf)|;
    var uniqueDestPorts := |Counting.Image(packets, DestinationPortOf)|;

    var interPacketTime := 0.0;
    if n > 1 {
      var totalGap := SumGaps(packets);
      interPacketTime := Text.Round2(totalGap as real / (n - 1) as real);
    }

    var flagCounts := CountFlags(packets);
    f := Features(
      packets[0].protocol, duration, sourceBytes, 0, n, 0,
      uniqueSourcePorts, uniqueDestPorts, sourceBytes,
      Text.Round2(sourceBytes as real / n as real), interPacketTime, flagCounts);
  }

  /** The loop summing `payloadSize` over the window. */
  method SumPayload(packets: seq<Packet>) returns (total: nat)
    ensures total == TotalPayload(packets)
  {
    total := 0;
    var i := 0;
    while i < |packets|
      invariant 0 <= i <= |packets|
      invariant total == TotalPayload(packets[..i])
    {
      assert packets[..i + 1][..i] == packets[..i];
      total := total + packets[i].payloadSize;
      i := i + 1;
    }
    assert packets[..i] == packets;
  }

  /** The loop summing the gaps between consecutive timestamps, which
      telescopes to the span of the window. */
  method SumGaps(packets: seq<Packet>) returns (total: int)
    requires |packets| > 1
    ensures total == Span(packets)
  {
    total := 0;
    var k := 1;
    while k < |packets|
      invariant 1 <= k <= |packets|
      invariant total == packets[k - 1].timestamp - packets[0].timestamp
    {
      total := total + (packets[k].timestamp - packets[k - 1].timestamp);
      k := k + 1;
    }
  }

  // ---------------------------------------------------------------------------
  // countFlags as written: the membership test `trimmed in flagCount` also
  // sees the properties every object inherits from `Object.prototype`.

  /** The names `in` finds on a fresh object literal through its prototype. */
  const InheritedNames: set<string> := {
    "constructor", "__defineGetter__", "__defineSetter__", "hasOwnProperty",
    "__lookupGetter__", "__lookupSetter__", "isPrototypeOf", "propertyIsEnumerable",
    "toString", "valueOf", "__proto__", "toLocaleString"}

  /** A counter value: `++` on an inherited method reads it as `NaN`. */
  datatype Counter = Count(n: nat) | NaN

  /** One `if (trimmed in flagCount) flagCount[trimmed]++` step. Assigning to
      `__proto__` a non-object is ignored; any other inherited name becomes an
      own property holding `NaN`. */
  function BumpAsWritten(m: map<string, Counter>, t: string): map<string, Counter> {
    if t in m then
      match m[t]
      case Count(k) => m[t := Count(k + 1)]
      case NaN => m
    else if t in InheritedNames && t != "__proto__" then m[t := NaN]
    else m
  }

  function CountTokensAsWritten(m: map<string, Counter>, tokens: seq<string>): map<string, Counter>
    decreases |tokens|
  {
    if |tokens| == 0 then m else CountTokensAsWritten(BumpAsWritten(m, tokens[0]), tokens[1..])
  }

  /** `countFlags` as the source writes it. */
  function CountFlagsAsWritten(packets: seq<Packet>): (m: map<string, Counter>)
    ensures FlagNames <= m.Keys
  {
    KeysOnlyGrow(InitialCounters(), AllTokens(packets));
    CountTokensAsWritten(InitialCounters(), AllTokens(packets))
  }

  lemma {:induction false} KeysOnlyGrow(m: map<string, Counter>, tokens: seq<string>)
    ensures m.Keys <= CountTokensAsWritten(m, tokens).Keys
    decreases |tokens|
  {
    if |tokens| > 0 {
      KeysOnlyGrow(BumpAsWritten(m, tokens[0]), tokens[1..]);
    }
  }

  lemma TrimKeepsWord(w: string)
    requires |w| > 0 && !Text.IsJsSpace(w[0]) && !Text.IsJsSpace(w[|w| - 1])
    ensures Text.Trim(w) == w
  {
  }

  /** The tokens of two comma-free words joined by a comma. */
  lemma TokensOfPair(a: string, b: string)
    requires ',' !in a && ',' !in b
    ensures FlagTokens(a + "," + b) == [Text.Trim(a), Text.Trim(b)]
  {
    Text.SplitPair(a, b);
    TokensAt(a + "," + b, 0);
    TokensAt(a + "," + b, 1);
  }

  lemma TokensAt(flags: string, i: nat)
    requires i < |Text.SplitComma(flags)|
    ensures i < |FlagTokens(flags)| && FlagTokens(flags)[i] == Text.Trim(Text.SplitComma(flags)[i])
  {
  }

  lemma ExampleTokens()
    ensures FlagTokens("SYN,toString") == ["SYN", "toString"]
  {
    TrimKeepsWord("SYN");
    TrimKeepsWord("toString");
    assert "SYN,toString" == "SYN" + "," + "toString";
    TokensOfPair("SYN", "toString");
  }

  function InitialCounters(): map<string, Counter> {
    map["SYN" := Count(0), "ACK" := Count(0), "FIN" := Count(0),
        "RST" := Count(0), "PSH" := Count(0), "URG" := Count(0)]
  }

  /** Every inherited name is longer than every flag name. */
  lemma InheritedNotFlag(t: string)
    requires t in InheritedNames
    ensures t !in FlagNames
  {
    assert |t| >= 7;
  }

  /** An inherited name other than `__proto__` among the tokens becomes a key
      of the as-written count. */
  lemma {:induction false} InheritedTokenAdded(m: map<string, Counter>, tokens: seq<string>, k: nat)
    requires k < |tokens| && tokens[k] in InheritedNames && tokens[k] != "__proto__"
    ensures tokens[k] in CountTokensAsWritten(m, tokens)
    decreases k
  {
    var next := BumpAsWritten(m, tokens[0]);
    if k == 0 {
      KeysOnlyGrow(next, tokens[1..]);
    } else {
      assert tokens[1..][k - 1] == tokens[k];
      InheritedTokenAdded(next, tokens[1..], k - 1);
    }
  }

  /** Whenever a window's flag tokens include an inherited name other than
      `__proto__`, the as-written count has a key that is not a flag name. */
  lemma InheritedTokenAddsKey(packets: seq<Packet>, k: nat)
    requires k < |AllTokens(packets)|
    requires AllTokens(packets)[k] in InheritedNames && AllTokens(packets)[k] != "__proto__"
    ensures AllTokens(packets)[k] in CountFlagsAsWritten(packets).Keys
    ensures CountFlagsAsWritten(packets).Keys != FlagNames
  {
    InheritedTokenAdded(InitialCounters(), AllTokens(packets), k);
    InheritedNotFlag(AllTokens(packets)[k]);
  }

  /** On a flag name the as-written step counts as the corrected one does:
      a counter that starts at a number gains the token's occurrences. */
  lemma {:induction false} AsWrittenFlagCount(m: map<string, Counter>, tokens: seq<string>, f: string)
    requires f in FlagNames && f in m && m[f].Count?
    ensures f in CountTokensAsWritten(m, tokens)
    ensures CountTokensAsWritten(m, tokens)[f] == Count(m[f].n + multiset(tokens)[f])
    decreases |tokens|
  {
    if |tokens| > 0 {
      var t := tokens[0];
      if t in InheritedNames {
        InheritedNotFlag(t);
      }
      var next := BumpAsWritten(m, t);
      assert next[f] == Count(m[f].n + (if t == f then 1 else 0));
      assert tokens == [t] + tokens[1..];
      AsWrittenFlagCount(next, tokens[1..], f);
    }
  }

  /** Every key of the as-written count other than a flag name is an
      inherited name holding `NaN`. */
  predicate ExtraKeysNaN(m: map<string, Counter>) {
    forall k | k in m && k !in FlagNames :: k in InheritedNames && m[k] == NaN
  }

  lemma {:induction false} AsWrittenExtraKeys(m: map<string, Counter>, tokens: seq<string>)
    requires ExtraKeysNaN(m)
    ensures ExtraKeysNaN(CountTokensAsWritten(m, tokens))
    decreases |tokens|
  {
    if |tokens| > 0 {
      AsWrittenExtraKeys(BumpAsWritten(m, tokens[0]), tokens[1..]);
    }
  }

  /** The as-written `countFlags` agrees with the corrected count on the six
      flag names, and any further key is an inherited name counted as
      `NaN`. */
  lemma AsWrittenOnFlagNames(packets: seq<Packet>)
    ensures forall f | f in FlagNames ::
      f in CountFlagsAsWritten(packets) && CountFlagsAsWritten(packets)[f] == Count(multiset(AllTokens(packets))[f])
    ensures ExtraKeysNaN(CountFlagsAsWritten(packets))
  {
    forall f | f in FlagNames
      ensures f in CountFlagsAsWritten(packets)
      ensures CountFlagsAsWritten(packets)[f] == Count(multiset(AllTokens(packets))[f])
    {
      AsWrittenFlagCount(InitialCounters(), AllTokens(packets), f);
    }
    AsWrittenExtraKeys(InitialCounters(), AllTokens(packets));
  }

  /** A packet whose flags are "SYN,toString" makes the as-written count
      report a seventh key, `toString` (serialised as `null`), where the
      corrected `CountFlags` keeps exactly the six flag names. */
  lemma InheritedFlagNameAddsKey()
    ensures var p := Packet(0, "10.0.0.1", "10.0.0.2", 1234, 80, "TCP", 0,
                            Some("SYN,toString"), None, None, None);
      && "toString" in CountFlagsAsWritten([p]).Keys
      && CountFlagsAsWritten([p]).Keys != FlagNames
  {
    var p := Packet(0, "10.0.0.1", "10.0.0.2", 1234, 80, "TCP", 0,
                    Some("SYN,toString"), None, None, None);
    ExampleTokens();
    assert [p][..0] == [];
    assert AllTokens([p]) == ["SYN", "toString"];
    InheritedTokenAddsKey([p], 1);
  }
}

=== FILE: results.dfy ===
/** The detection result record shared by the engines and the manager. */
module Results {
  import opened Wrappers
  import Traffic

  datatype Severity = Low | Medium | High | Critical

  datatype DetectionMethod = Signature | Anomaly | Hybrid

  /** The structured `metadata` each producer attaches. */
  datatype Metadata =
    | RuleMatch(ruleId: string, ruleName: string)
    | PayloadSizeInfo(payloadSize: nat, expectedSize: string)
    | PortInfo(port: int, reason: string)
    | ProtocolPortInfo(protocol: string, port: int)
    | DosInfo(dos: Traffic.DosResult)
    | PortScanInfo(scan: Traffic.PortScanResult)
    | BruteForceInfo(bruteForce: Traffic.BruteForceResult)

  datatype Detection = Detection(
    threatDetected: bool,
    threatType: string,
    severity: Severity,
    confidence: int,
    description: string,
    detectedBy: DetectionMethod,
    payload: Option<string>,
    metadata: Metadata)

  function ThreatTypeOf(d: Detection): string { d.threatType }
  function SeverityOf(d: Detection): Severity { d.severity }
  function MethodOf(d: Detection): DetectionMethod { d.detectedBy }

  /** The zero-or-one results of a call returning `DetectionResult | null`. */
  function AsSeq(d: Option<Detection>): (s: seq<Detection>)
    ensures |s| <= 1
    ensures d.None? <==> s == []
    ensures d.Some? ==> s == [d.value]
  {
    if d.Some? then [d.value] else []
  }
}

=== FILE: signature.dfy ===
/** `SignatureDetectionEngine`: an insertion-ordered map of pattern rules and
    first-match detection over the packet payload. Regular-expression
    semantics are not modelled: a `Regexes` value supplies whether a string
    source compiles and whether a compiled expression matches a payload. */
module SignatureEngine {
  import opened Wrappers
  import Counting
  import opened Results
  import Packets

  /** A compiled `RegExp`: its source text and flags. */
  datatype Regex = Regex(source: string, flags: string)

  /** A rule's `pattern: string | RegExp`. */
  datatype Pattern = Source(text: string) | Compiled(regex: Regex)

  /** The regular-expression oracle: `new RegExp(source, "i")` succeeds iff
      `compiles(source)`, and `regex.test(payload)` is `test(regex, payload)`. */
  datatype Regexes = Regexes(compiles: string -> bool, test: (Regex, string) -> bool)

  datatype Rule = Rule(
    id: string,
    name: string,
    threatType: string,
    pattern: Pattern,
    severity: Severity,
    confidence: int,
    enabled: bool)

  /** A JavaScript `Map<string, DetectionRule>`: the keys in insertion order
      and the entries. */
  datatype RuleSet = RuleSet(order: seq<string>, rules: map<string, Rule>)

  /** Every key listed once, exactly the keys of the map, each rule stored
      under its own id. */
  predicate Valid(rs: RuleSet) {
    && Counting.Distinct(rs.order)
    && (forall i | 0 <= i < |rs.order| :: rs.order[i] in rs.rules)
    && (forall id | id in rs.rules :: id in rs.order)
    && (forall id | id in rs.rules :: rs.rules[id].id == id)
  }

  function EmptyRules(): (rs: RuleSet)
    ensures Valid(rs)
  {
    RuleSet([], map[])
  }

  /** `addRule`: `rules.set(rule.id, rule)`. A new id goes last; an existing
      id is overwritten in place and keeps its position. */
  function AddRule(rs: RuleSet, rule: Rule): (r: RuleSet)
    requires Valid(rs)
    ensures Valid(r)
    ensures r.rules.Keys == rs.rules.Keys + {rule.id}
    ensures rs.rules.Keys <= r.rules.Keys
    ensures r.rules[rule.id] == rule
    ensures forall id | id in rs.rules && id != rule.id :: r.rules[id] == rs.rules[id]
    ensures rule.id in rs.rules ==> r.order == rs.order
    ensures rule.id !in rs.rules ==> r.order == rs.order + [rule.id]
  {
    if rule.id in rs.rules then RuleSet(rs.order, rs.rules[rule.id := rule])
    else RuleSet(rs.order + [rule.id], rs.rules[rule.id := rule])
  }

  function IndexOf(s: seq<string>, x: string): (i: nat)
    requires x in s
    ensures i < |s| && s[i] == x
    ensures forall j | 0 <= j < i :: s[j] != x
  {
    if s[0] == x then 0 else 1 + IndexOf(s[1..], x)
  }

  /** A repetition-free sequence with position `k` deleted. */
  function DeleteAt(s: seq<string>, k: nat): (o: seq<string>)
    requires Counting.Distinct(s) && k < |s|
    ensures |o| == |s| - 1 && Counting.Distinct(o)
    ensures forall i | 0 <= i < |o| :: o[i] in s && o[i] != s[k]
    ensures forall i | 0 <= i < |s| && i != k :: s[i] in o
    ensures s == o[..k] + [s[k]] + o[k..]
  {
    var o := s[..k] + s[k + 1..];
    DeleteAtFacts(s, k, o);
    o
  }

  lemma DeleteAtFacts(s: seq<string>, k: nat, o: seq<string>)
    requires Counting.Distinct(s) && k < |s| && o == s[..k] + s[k + 1..]
    ensures Counting.Distinct(o)
    ensures forall i | 0 <= i < |o| :: o[i] in s && o[i] != s[k]
    ensures forall i | 0 <= i < |s| && i != k :: s[i] in o
    ensures s == o[..k] + [s[k]] + o[k..]
  {
    forall i | 0 <= i < |o| ensures o[i] == s[if i < k then i else i + 1] {
      if i < k {
        assert o[i] == s[..k][i];
      } else {
        assert o[i] == s[k + 1..][i - k];
      }
    }
    forall i | 0 <= i < |s| && i != k ensures s[i] in o {
      if i < k {
        assert o[i] == s[i];
      } else {
        assert o[i - 1] == s[i];
      }
    }
    assert o[..k] == s[..k] && o[k..] == s[k + 1..];
  }

  /** `removeRule`: `rules.delete(id)`; the other keys keep their order. */
  function RemoveRule(rs: RuleSet, id: string): (r: RuleSet)
    requires Valid(rs)
    ensures Valid(r)
    ensures r.rules.Keys == rs.rules.Keys - {id}
    ensures forall k | k in r.rules :: r.rules[k] == rs.rules[k]
    ensures id !in rs.rules ==> r == rs
    ensures id in rs.rules ==> exists k :: 0 <= k <= |r.order| && rs.order == r.order[..k] + [id] + r.order[k..]
  {
    if id !in rs.rules then rs
    else RuleSet(DeleteAt(rs.order, IndexOf(rs.order, id)), rs.rules - {id})
  }

  /** `toggleRule`: sets `enabled` on an existing rule; an unknown id is a
      no-op. */
  function ToggleRule(rs: RuleSet, id: string, enabled: bool): (r: RuleSet)
    requires Valid(rs)
    ensures Valid(r)
    ensures r.order == rs.order && r.rules.Keys == rs.rules.Keys
    ensures id !in rs.rules ==> r == rs
    ensures id in rs.rules ==> r.rules[id] == rs.rules[id].(enabled := enabled)
    ensures forall k | k in rs.rules && k != id :: r.rules[k] == rs.rules[k]
  {
    if id in rs.rules then RuleSet(rs.order, rs.rules[id := rs.rules[id].(enabled := enabled)])
    else rs
  }

  /** Adding a rule under a fresh id and removing it again restores the set. */
  lemma RemoveUndoesAdd(rs: RuleSet, rule: Rule)
    requires Valid(rs) && rule.id !in rs.rules
    ensures RemoveRule(AddRule(rs, rule), rule.id) == rs
  {
    var a := AddRule(rs, rule);
    var n := |rs.order|;
    assert a.order[n] == rule.id;
    var k := IndexOf(a.order, rule.id);
    assert k == n;
    var o := DeleteAt(a.order, k);
    assert o == rs.order by {
      assert a.order == o[..n] + [rule.id] + o[n..];
      assert a.order[..n] == rs.order;
    }
    assert a.rules - {rule.id} == rs.rules;
  }

  /** Toggling a rule back to its previous flag restores the set. */
  lemma ToggleBack(rs: RuleSet, id: string, enabled: bool)
    requires Valid(rs) && id in rs.rules
    ensures ToggleRule(ToggleRule(rs, id, enabled), id, rs.rules[id].enabled) == rs
  {
    var rule := rs.rules[id];
    var t := ToggleRule(ToggleRule(rs, id, enabled), id, rule.enabled);
    assert rule.(enabled := enabled).(enabled := rule.enabled) == rule;
    assert t.rules == rs.rules[id := rule];
  }

  /** `getRules`: the rules in insertion order. */
  function RulesInOrder(rs: RuleSet): (s: seq<Rule>)
    requires Valid(rs)
    ensures |s| == |rs.order|
    ensures forall i | 0 <= i < |s| :: s[i] == rs.rules[rs.order[i]]
  {
    seq(|rs.order|, i requires 0 <= i < |rs.order| => rs.rules[rs.order[i]])
  }

  /** `getEnabledRules`: the enabled rules, each as often as it occurs. */
  function EnabledRules(rules: seq<Rule>): (s: seq<Rule>)
    ensures forall r | r in s :: r in rules && r.enabled
    ensures forall r | r in rules && r.enabled :: r in s
  {
    if |rules| == 0 then []
    else (if rules[0].enabled then [rules[0]] else []) + EnabledRules(rules[1..])
  }

  /** Each enabled rule is kept as often as it occurs, a disabled one never. */
  lemma {:induction false} EnabledCount(rules: seq<Rule>, r: Rule)
    ensures multiset(EnabledRules(rules))[r] == if r.enabled then multiset(rules)[r] else 0
  {
    if |rules| > 0 {
      assert rules == [rules[0]] + rules[1..];
      EnabledCount(rules[1..], r);
    }
  }

  /** The filter keeps the order of the rules: filtering a concatenation
      concatenates the filtered parts, and a single rule is kept exactly when
      it is enabled. */
  lemma {:induction false} EnabledAppend(a: seq<Rule>, b: seq<Rule>)
    ensures EnabledRules(a + b) == EnabledRules(a) + EnabledRules(b)
    ensures |a| == 1 ==> EnabledRules(a) == if a[0].enabled then a else []
    decreases |a|
  {
    if |a| == 0 {
      assert a + b == b;
    } else {
      var head := if a[0].enabled then [a[0]] else [];
      assert (a + b)[0] == a[0];
      assert (a + b)[1..] == a[1..] + b;
      EnabledAppend(a[1..], b);
      Counting.AppendAssoc(head, EnabledRules(a[1..]), EnabledRules(b));
      if |a| == 1 {
        assert a[1..] == [];
        assert EnabledRules(a) == head + [];
      }
    }
  }

  /** One iteration of `detect`'s loop: a disabled rule is skipped; a string
      pattern is compiled case-insensitively first, which throws when it is
      malformed; the compiled pattern is tested against the payload. */
  function Fires(rule: Rule, payload: string, rx: Regexes): Result<bool> {
    if !rule.enabled then Success(false)
    else
      match rule.pattern
      case Source(text) =>
        if rx.compiles(text) then Success(rx.test(Regex(text, "i"), payload))
        else Failure(MalformedPattern(rule.id))
      case Compiled(regex) => Success(rx.test(regex, payload))
  }

  /** The first rule, in order, that fires; an error stops the scan. */
  function FirstMatch(rules: seq<Rule>, payload: string, rx: Regexes): (r: Result<Option<Rule>>)
    ensures r.Success? && r.value.Some? ==> exists k :: (0 <= k < |rules|
      && rules[k] == r.value.value && rules[k].enabled && Fires(rules[k], payload, rx) == Success(true)
      && forall j | 0 <= j < k :: Fires(rules[j], payload, rx) == Success(false))
    ensures r.Success? && r.value.None? ==>
      forall j | 0 <= j < |rules| :: Fires(rules[j], payload, rx) == Success(false)
    ensures r.Failure? ==> exists k :: (0 <= k < |rules|
      && r == Failure(MalformedPattern(rules[k].id)) && Fires(rules[k], payload, rx).Failure?
      && forall j | 0 <= j < k :: Fires(rules[j], payload, rx) == Success(false))
  {
    if |rules| == 0 then Success(None)
    else
      var fired := Fires(rules[0], payload, rx);
      if fired.Failure? then Failure(fired.error)
      else if fired.value then Success(Some(rules[0]))
      else
        var rest := FirstMatch(rules[1..], payload, rx);
        FirstMatchStep(rules, payload, rx, rest);
        rest
  }

  lemma FirstMatchStep(rules: seq<Rule>, payload: string, rx: Regexes, rest: Result<Option<Rule>>)
    requires |rules| > 0 && Fires(rules[0], payload, rx) == Success(false)
    requires rest.Success? && rest.value.Some? ==> exists k :: (0 <= k < |rules[1..]|
      && rules[1..][k] == rest.value.value && rules[1..][k].enabled
      && Fires(rules[1..][k], payload, rx) == Success(true)
      && forall j | 0 <= j < k :: Fires(rules[1..][j], payload, rx) == Success(false))
    requires rest.Success? && rest.value.None? ==>
      forall j | 0 <= j < |rules[1..]| :: Fires(rules[1..][j], payload, rx) == Success(false)
    requires rest.Failure? ==> exists k :: (0 <= k < |rules[1..]|
      && rest == Failure(MalformedPattern(rules[1..][k].id)) && Fires(rules[1..][k], payload, rx).Failure?
      && forall j | 0 <= j < k :: Fires(rules[1..][j], payload, rx) == Success(false))
    ensures rest.Success? && rest.value.Some? ==> exists k :: (0 <= k < |rules|
      && rules[k] == rest.value.value && rules[k].enabled && Fires(rules[k], payload, rx) == Success(true)
      && forall j | 0 <= j < k :: Fires(rules[j], payload, rx) == Success(false))
    ensures rest.Success? && rest.value.None? ==>
      forall j | 0 <= j < |rules| :: Fires(rules[j], payload, rx) == Success(false)
    ensures rest.Failure? ==> exists k :: (0 <= k < |rules|
      && rest == Failure(MalformedPattern(rules[k].id)) && Fires(rules[k], payload, rx).Failure?
      && forall j | 0 <= j < k :: Fires(rules[j], payload, rx) == Success(false))
  {
    var tail := rules[1..];
    if rest.Success? && rest.value.Some? {
      var k :| 0 <= k < |tail| && tail[k] == rest.value.value && tail[k].enabled
        && Fires(tail[k], payload, rx) == Success(true)
        && forall j | 0 <= j < k :: Fires(tail[j], payload, rx) == Success(false);
      assert rules[k + 1] == tail[k];
      forall j | 0 <= j < k + 1 ensures Fires(rules[j], payload, rx) == Success(false) {
        if j > 0 {
          assert rules[j] == tail[j - 1];
        }
      }
    } else if rest.Success? {
      forall j | 0 <= j < |rules| ensures Fires(rules[j], payload, rx) == Success(false) {
        if j > 0 {
          assert rules[j] == tail[j - 1];
        }
      }
    } else {
      var k :| 0 <= k < |tail| && rest == Failure(MalformedPattern(tail[k].id))
        && Fires(tail[k], payload, rx).Failure?
        && forall j | 0 <= j < k :: Fires(tail[j], payload, rx) == Success(false);
      assert rules[k + 1] == tail[k];
      forall j | 0 <= j < k + 1 ensures Fires(rules[j], payload, rx) == Success(false) {
        if j > 0 {
          assert rules[j] == tail[j - 1];
        }
      }
    }
  }

  const PayloadExcerptLength: nat := 500

  /** The result a matching rule produces. */
  function SignatureResult(rule: Rule, payload: string): (d: Detection)
    ensures d.threatDetected && d.detectedBy == Signature
    ensures d.threatType == rule.threatType && d.severity == rule.severity
    ensures d.confidence == rule.confidence && d.description == rule.name
    ensures d.metadata == RuleMatch(rule.id, rule.name)
    ensures d.payload.Some?
    ensures |d.payload.value| == if |payload| < 500 then |payload| else 500
    ensures d.payload.value == payload[..|d.payload.value|]
  {
    var excerpt := if |payload| <= PayloadExcerptLength then payload else payload[..PayloadExcerptLength];
    Detection(true, rule.threatType, rule.severity, rule.confidence, rule.name,
              Signature, Some(excerpt), RuleMatch(rule.id, rule.name))
  }

  /** `payload || ""`. */
  function PayloadText(p: Packets.Packet): string {
    p.payload.GetOr("")
  }

  /** `SignatureDetectionEngine.detect`: the result of the first enabled rule
      in insertion order whose pattern matches the payload, or no result;
      `DetectFirstMatch` states which rule that is. */
  function Detect(rs: RuleSet, p: Packets.Packet, rx: Regexes): (r: Result<Option<Detection>>)
    requires Valid(rs)
    ensures r.Success? && r.value.Some? ==> r.value.value.threatDetected && r.value.value.detectedBy == Signature
    ensures r.Failure? ==> r.error.MalformedPattern?
  {
    var rules := RulesInOrder(rs);
    var payload := PayloadText(p);
    var m := FirstMatch(rules, payload, rx);
    if m.Failure? then Failure(m.error)
    else if m.value.None? then Success(None)
    else Success(Some(SignatureResult(m.value.value, payload)))
  }

  /** The result of `detect` comes from the first rule, in insertion order,
      that fires; no rule before it fires, and a malformed pattern met before
      any match aborts the scan. */
  lemma DetectFirstMatch(rs: RuleSet, p: Packets.Packet, rx: Regexes)
    requires Valid(rs)
    ensures var r := Detect(rs, p, rx); var payload := PayloadText(p);
      && (r.Success? && r.value.Some? ==> exists k :: (0 <= k < |rs.order|
            && rs.rules[rs.order[k]].enabled
            && Fires(rs.rules[rs.order[k]], payload, rx) == Success(true)
            && r.value.value == SignatureResult(rs.rules[rs.order[k]], payload)
            && forall j | 0 <= j < k :: Fires(rs.rules[rs.order[j]], payload, rx) == Success(false)))
      && (r.Success? && r.value.None? ==>
            forall j | 0 <= j < |rs.order| :: Fires(rs.rules[rs.order[j]], payload, rx) == Success(false))
      && (r.Failure? ==> exists k :: (0 <= k < |rs.order|
            && Fires(rs.rules[rs.order[k]], payload, rx).Failure?
            && r == Failure(MalformedPattern(rs.order[k]))
            && forall j | 0 <= j < k :: Fires(rs.rules[rs.order[j]], payload, rx) == Success(false)))
  {
    var m := FirstMatch(RulesInOrder(rs), PayloadText(p), rx);
    if m.Success? && m.value.Some? {
      FirstMatchFound(rs, PayloadText(p), rx);
    } else if m.Success? {
      FirstMatchNone(rs, PayloadText(p), rx);
    } else {
      FirstMatchFailed(rs, PayloadText(p), rx);
    }
  }

  lemma FirstMatchFound(rs: RuleSet, payload: string, rx: Regexes)
    requires Valid(rs)
    requires var m := FirstMatch(RulesInOrder(rs), payload, rx); m.Success? && m.value.Some?
    ensures var m := FirstMatch(RulesInOrder(rs), payload, rx);
      exists k :: (0 <= k < |rs.order|
        && rs.rules[rs.order[k]].enabled
        && Fires(rs.rules[rs.order[k]], payload, rx) == Success(true)
        && m.value.value == rs.rules[rs.order[k]]
        && forall j | 0 <= j < k :: Fires(rs.rules[rs.order[j]], payload, rx) == Success(false))
  {
    var rules := RulesInOrder(rs);
    var m := FirstMatch(rules, payload, rx);
    var k :| 0 <= k < |rules| && rules[k] == m.value.value && rules[k].enabled
      && Fires(rules[k], payload, rx) == Success(true)
      && forall j | 0 <= j < k :: Fires(rules[j], payload, rx) == Success(false);
    assert rules[k] == rs.rules[rs.order[k]];
    forall j | 0 <= j < k ensures Fires(rs.rules[rs.order[j]], payload, rx) == Success(false) {
      assert rules[j] == rs.rules[rs.order[j]];
    }
  }

  lemma FirstMatchNone(rs: RuleSet, payload: string, rx: Regexes)
    requires Valid(rs)
    requires var m := FirstMatch(RulesInOrder(rs), payload, rx); m.Success? && m.value.None?
    ensures forall j | 0 <= j < |rs.order| :: Fires(rs.rules[rs.order[j]], payload, rx) == Success(false)
  {
    var rules := RulesInOrder(rs);
    forall j | 0 <= j < |rs.order| ensures Fires(rs.rules[rs.order[j]], payload, rx) == Success(false) {
      assert rules[j] == rs.rules[rs.order[j]];
    }
  }

  lemma FirstMatchFailed(rs: RuleSet, payload: string, rx: Regexes)
    requires Valid(rs)
    requires FirstMatch(RulesInOrder(rs), payload, rx).Failure?
    ensures var m := FirstMatch(RulesInOrder(rs), payload, rx);
      exists k :: (0 <= k < |rs.order|
        && Fires(rs.rules[rs.order[k]], payload, rx).Failure?
        && m.error == MalformedPattern(rs.order[k])
        && forall j | 0 <= j < k :: Fires(rs.rules[rs.order[j]], payload, rx) == Success(false))
  {
    var rules := RulesInOrder(rs);
    var m := FirstMatch(rules, payload, rx);
    var k :| 0 <= k < |rules| && m == Failure(MalformedPattern(rules[k].id))
      && Fires(rules[k], payload, rx).Failure?
      && forall j | 0 <= j < k :: Fires(rules[j], payload, rx) == Success(false);
    var rule := rs.rules[rs.order[k]];
    assert rules[k] == rule && rule.id == rs.order[k];
    forall j | 0 <= j < k ensures Fires(rs.rules[rs.order[j]], payload, rx) == Success(false) {
      assert rules[j] == rs.rules[rs.order[j]];
    }
    assert Fires(rule, payload, rx).Failure? && m.error == MalformedPattern(rs.order[k]);
  }

  // ---------------------------------------------------------------------------
  // The rules the engine is constructed with

  /** A pattern literal with the `i` flag, as every default rule is written. */
  function CaseInsensitive(source: string): Pattern {
    Compiled(Regex(source, "i"))
  }

  function DefaultRuleList(): seq<Rule> {
    [ Rule("sql_injection_1", "SQL Injection - Union Select", "sql_injection",
           CaseInsensitive(@"union\s+select"), High, 85, true),
      Rule("sql_injection_2", "SQL Injection - OR Condition", "sql_injection",
           CaseInsensitive(@"('|"")\s*(or|and)\s*('|"")?[^'""]*(=|!=|<>)"), High, 80, true),
      Rule("sql_injection_3", "SQL Injection - DROP TABLE", "sql_injection",
           CaseInsensitive(@"drop\s+table"), Critical, 95, true),
      Rule("sql_injection_4", "SQL Injection - DELETE FROM", "sql_injection",
           CaseInsensitive(@"delete\s+from"), Critical, 90, true),
      Rule("xss_1", "XSS - Script Tag", "xss", CaseInsensitive(@"<script[^>]*>"), High, 90, true),
      Rule("xss_2", "XSS - JavaScript Protocol", "xss", CaseInsensitive(@"javascript:"), High, 85, true),
      Rule("xss_3", "XSS - Event Handler", "xss", CaseInsensitive(@"on\w+\s*="), High, 80, true),
      Rule("xss_4", "XSS - IFrame", "xss", CaseInsensitive(@"<iframe[^>]*>"), Medium, 75, true),
      Rule("path_traversal_1", "Path Traversal - Directory Escape", "path_traversal",
           CaseInsensitive(@"\.\.\/|\.\.\\|\.\.%2f|\.\.%5c"), High, 85, true),
      Rule("command_injection_1", "Command Injection - RM", "command_injection",
           CaseInsensitive(@";rm\s+-rf|;\s*rm\s+-rf"), Critical, 95, true),
      Rule("command_injection_2", "Command Injection - CAT", "command_injection",
           CaseInsensitive(@";cat\s+\/etc|;\s*cat\s+\/etc"), Critical, 90, true),
      Rule("command_injection_3", "Command Injection - WGET", "command_injection",
           CaseInsensitive(@";wget\s+|;\s*wget\s+"), High, 85, true),
      Rule("xxe_1", "XXE - DOCTYPE Declaration", "xxe",
           CaseInsensitive(@"<!DOCTYPE[^>]*\[<!ENTITY"), High, 85, true),
      Rule("ldap_injection_1", "LDAP Injection - Wildcard", "ldap_injection",
           CaseInsensitive(@"\*\)\(\|"), Medium, 75, true) ]
  }

  /** The ids of a list of rules, in order. */
  function Ids(rules: seq<Rule>): (ids: seq<string>)
    ensures |ids| == |rules| && forall i | 0 <= i < |rules| :: ids[i] == rules[i].id
  {
    seq(|rules|, i requires 0 <= i < |rules| => rules[i].id)
  }

  /** `rules.forEach((rule) => this.rules.set(rule.id, rule))`. */
  function AddAll(rs: RuleSet, rules: seq<Rule>): (r: RuleSet)
    requires Valid(rs)
    ensures Valid(r)
    ensures forall id :: id in r.rules <==> id in rs.rules || id in Ids(rules)
    decreases |rules|
  {
    if |rules| == 0 then rs
    else
      assert forall id :: id in Ids(rules) <==> id == rules[0].id || id in Ids(rules[1..]) by {
        assert Ids(rules) == [rules[0].id] + Ids(rules[1..]);
      }
      AddAll(AddRule(rs, rules[0]), rules[1..])
  }

  /** Rules with distinct ids, none of them present in `rs`. */
  predicate Fresh(rs: RuleSet, rules: seq<Rule>) {
    Counting.Distinct(Ids(rules)) && forall i | 0 <= i < |rules| :: rules[i].id !in rs.rules
  }

  /** Adding the first of some fresh rules appends its id and leaves the
      rest fresh; `AddAll` goes on from there. */
  lemma FreshStep(rs: RuleSet, rules: seq<Rule>)
    requires Valid(rs) && |rules| > 0 && Fresh(rs, rules)
    ensures var next := AddRule(rs, rules[0]);
      && Fresh(next, rules[1..])
      && next.order == rs.order + [rules[0].id]
      && AddAll(rs, rules) == AddAll(next, rules[1..])
  {
    var tail := rules[1..];
    var next := AddRule(rs, rules[0]);
    forall i, j | 0 <= i < j < |tail| ensures Ids(tail)[i] != Ids(tail)[j] {
      assert Ids(rules)[i + 1] != Ids(rules)[j + 1];
    }
    forall i | 0 <= i < |tail| ensures tail[i].id !in next.rules {
      assert Ids(rules)[0] != Ids(rules)[i + 1];
    }
  }

  lemma IdsCons(rules: seq<Rule>)
    requires |rules| > 0
    ensures Ids(rules) == [rules[0].id] + Ids(rules[1..])
  {
  }

  /** Adding fresh rules appends their ids in order. */
  lemma {:induction false} AddAllFreshOrder(rs: RuleSet, rules: seq<Rule>)
    requires Valid(rs) && Fresh(rs, rules)
    ensures AddAll(rs, rules).order == rs.order + Ids(rules)
    decreases |rules|
  {
    if |rules| == 0 {
      assert rs.order + Ids(rules) == rs.order;
    } else {
      var next := AddRule(rs, rules[0]);
      FreshStep(rs, rules);
      AddAllFreshOrder(next, rules[1..]);
      IdsCons(rules);
      Counting.AppendAssoc(rs.order, [rules[0].id], Ids(rules[1..]));
    }
  }

  /** Adding fresh rules stores each under its id and leaves the rules already
      present as they were. */
  lemma {:induction false} AddAllFreshRules(rs: RuleSet, rules: seq<Rule>)
    requires Valid(rs) && Fresh(rs, rules)
    ensures forall i | 0 <= i < |rules| :: AddAll(rs, rules).rules[rules[i].id] == rules[i]
    ensures forall id | id in rs.rules :: AddAll(rs, rules).rules[id] == rs.rules[id]
    decreases |rules|
  {
    if |rules| > 0 {
      var next := AddRule(rs, rules[0]);
      var tail := rules[1..];
      FreshStep(rs, rules);
      AddAllFreshRules(next, tail);
      var r := AddAll(next, tail);
      forall i | 0 <= i < |rules| ensures r.rules[rules[i].id] == rules[i] {
        if i > 0 {
          assert tail[i - 1] == rules[i];
        }
      }
    }
  }

  /** Adding a rule under a new id lists it after the rules already there. */
  lemma AddRuleListsLast(rs: RuleSet, rule: Rule)
    requires Valid(rs) && rule.id !in rs.rules
    ensures RulesInOrder(AddRule(rs, rule)) == RulesInOrder(rs) + [rule]
  {
    var r := AddRule(rs, rule);
    var before := RulesInOrder(rs);
    var after := RulesInOrder(r);
    forall i | 0 <= i < |before| ensures after[i] == before[i] {
      assert rs.order[i] in rs.rules;
    }
  }

  /** Adding fresh rules lists them, in order, after the rules already there. */
  lemma {:induction false} AddAllFreshListed(rs: RuleSet, rules: seq<Rule>)
    requires Valid(rs) && Fresh(rs, rules)
    ensures RulesInOrder(AddAll(rs, rules)) == RulesInOrder(rs) + rules
    decreases |rules|
  {
    if |rules| == 0 {
      assert RulesInOrder(rs) + rules == RulesInOrder(rs);
    } else {
      var next := AddRule(rs, rules[0]);
      FreshStep(rs, rules);
      AddRuleListsLast(rs, rules[0]);
      AddAllFreshListed(next, rules[1..]);
      Counting.AppendCons(RulesInOrder(rs), rules);
    }
  }

  /** The ids of the fourteen default rules, in order. */
  function DefaultIds(): seq<string> {
    ["sql_injection_1", "sql_injection_2", "sql_injection_3", "sql_injection_4",
     "xss_1", "xss_2", "xss_3", "xss_4", "path_traversal_1",
     "command_injection_1", "command_injection_2", "command_injection_3",
     "xxe_1", "ldap_injection_1"]
  }

  /** The fourteen default ids are distinct. */
  lemma DefaultIdsDistinct()
    ensures Counting.Distinct(DefaultIds())
  {
  }

  /** The default rules carry the default ids, in order. */
  lemma DefaultRuleIds()
    ensures Ids(DefaultRuleList()) == DefaultIds()
  {
    var rules := DefaultRuleList();
    assert Ids(rules) == [rules[0].id, rules[1].id, rules[2].id, rules[3].id, rules[4].id,
                          rules[5].id, rules[6].id, rules[7].id, rules[8].id, rules[9].id,
                          rules[10].id, rules[11].id, rules[12].id, rules[13].id];
  }

  /** Adding rules with distinct ids to an empty engine lists exactly those
      rules, in the order they were added. */
  lemma AddAllToEmpty(rules: seq<Rule>)
    requires Counting.Distinct(Ids(rules))
    ensures AddAll(EmptyRules(), rules).order == Ids(rules)
    ensures RulesInOrder(AddAll(EmptyRules(), rules)) == rules
  {
    var e := EmptyRules();
    assert Fresh(e, rules);
    AddAllFreshOrder(e, rules);
    Counting.PrependEmpty(e.order, Ids(rules));
    AddAllFreshListed(e, rules);
    Counting.PrependEmpty(RulesInOrder(e), rules);
  }

  /** The constructor's `initializeDefaultRules`: `getRules` lists the
      fourteen default rules in their listed order, under their own ids, and
      nothing else. */
  function DefaultRules(): (rs: RuleSet)
    ensures Valid(rs)
    ensures rs.order == DefaultIds()
    ensures RulesInOrder(rs) == DefaultRuleList()
  {
    DefaultIdsDistinct();
    DefaultRuleIds();
    AddAllToEmpty(DefaultRuleList());
    AddAll(EmptyRules(), DefaultRuleList())
  }
}

=== FILE: text.dfy ===
/** String and number helpers with JavaScript's semantics: `split(",")`,
    `String.prototype.trim`, decimal rendering of integers and of the
    two-decimal values `Math.round(x * 100) / 100` produces. */
module Text {

  /** The separator-free pieces of `s` between commas (`s.split(",")`). */
  function SplitComma(s: string): (parts: seq<string>)
    ensures |parts| >= 1
    ensures forall i | 0 <= i < |parts| :: ',' !in parts[i]
  {
    if ',' !in s then [s]
    else
      var i := IndexOf(s, ',');
      [s[..i]] + SplitComma(s[i + 1..])
  }

  function IndexOf(s: string, c: char): (i: nat)
    requires c in s
    ensures i < |s| && s[i] == c && c !in s[..i]
  {
    if s[0] == c then 0 else 1 + IndexOf(s[1..], c)
  }

  /** Two comma-free pieces joined by a comma split back into the pieces. */
  lemma SplitPair(a: string, b: string)
    requires ',' !in a && ',' !in b
    ensures SplitComma(a + "," + b) == [a, b]
  {
    var s := a + "," + b;
    assert s[|a|] == ',';
    assert s[..|a|] == a;
    assert IndexOf(s, ',') == |a|;
    assert s[|a| + 1..] == b;
  }

  /** The inverse of `SplitComma`: the pieces glued back with commas. */
  function JoinComma(parts: seq<string>): string {
    if |parts| == 0 then ""
    else if |parts| == 1 then parts[0]
    else parts[0] + "," + JoinComma(parts[1..])
  }

  /** Splitting loses nothing: gluing the pieces back gives the input. */
  lemma {:induction false} SplitJoin(s: string)
    ensures JoinComma(SplitComma(s)) == s
    decreases |s|
  {
    if ',' in s {
      var i := IndexOf(s, ',');
      SplitJoin(s[i + 1..]);
      var rest := SplitComma(s[i + 1..]);
      assert SplitComma(s) == [s[..i]] + rest;
      assert ([s[..i]] + rest)[1..] == rest;
      assert s == s[..i] + "," + s[i + 1..];
    }
  }

  /** The characters `String.prototype.trim` removes: ECMAScript WhiteSpace
      (tab, vertical tab, form feed, space, no-break space, byte order mark and
      the other space separators) and LineTerminator. */
  predicate IsJsSpace(c: char) {
    || c == '\t' || c == '\U{000B}' || c == '\U{000C}' || c == ' ' || c == '\U{00A0}'
    || c == '\U{FEFF}' || c == '\U{1680}' || ('\U{2000}' <= c <= '\U{200A}')
    || c == '\U{202F}' || c == '\U{205F}' || c == '\U{3000}'
    || c == '\n' || c == '\r' || c == '\U{2028}' || c == '\U{2029}'
  }

  function TrimStart(s: string): (r: string)
    ensures |r| <= |s| && r == s[|s| - |r|..]
    ensures forall i | 0 <= i < |s| - |r| :: IsJsSpace(s[i])
    ensures |r| > 0 ==> !IsJsSpace(r[0])
  {
    if |s| > 0 && IsJsSpace(s[0]) then
      var r := TrimStart(s[1..]);
      assert s[1..][|s| - 1 - |r|..] == s[|s| - |r|..];
      forall i | 1 <= i < |s| - |r| ensures IsJsSpace(s[i]) {
        assert s[i] == s[1..][i - 1];
      }
      r
    else s
  }

  function TrimEnd(s: string): (r: string)
    ensures |r| <= |s| && r == s[..|r|]
    ensures forall i | |r| <= i < |s| :: IsJsSpace(s[i])
    ensures |r| > 0 ==> !IsJsSpace(r[|r| - 1])
  {
    if |s| > 0 && IsJsSpace(s[|s| - 1]) then
      var r := TrimEnd(s[..|s| - 1]);
      assert s[..|s| - 1][..|r|] == s[..|r|];
      forall i | |r| <= i < |s| - 1 ensures IsJsSpace(s[i]) {
        assert s[i] == s[..|s| - 1][i];
      }
      r
    else s
  }

  /** `s.trim()`: the longest infix of `s` that neither starts nor ends with
      a space character, everything around it being space. */
  function Trim(s: string): (r: string)
    ensures exists a, b :: (0 <= a <= b <= |s| && r == s[a..b]
                            && (forall i | 0 <= i < a :: IsJsSpace(s[i]))
                            && (forall i | b <= i < |s| :: IsJsSpace(s[i])))
    ensures |r| > 0 ==> !IsJsSpace(r[0]) && !IsJsSpace(r[|r| - 1])
  {
    var t := TrimStart(s);
    var r := TrimEnd(t);
    TrimBounds(s, t, r);
    r
  }

  /** Trimming adds no character. */
  lemma TrimKeeps(s: string, c: char)
    requires c !in s
    ensures c !in Trim(s)
  {
    var a, b :| 0 <= a <= b <= |s| && Trim(s) == s[a..b];
    forall i | 0 <= i < b - a ensures s[a..b][i] != c {
      assert s[a..b][i] == s[a + i];
    }
  }

  lemma TrimBounds(s: string, t: string, r: string)
    requires |t| <= |s| && t == s[|s| - |t|..] && forall i | 0 <= i < |s| - |t| :: IsJsSpace(s[i])
    requires |r| <= |t| && r == t[..|r|] && forall i | |r| <= i < |t| :: IsJsSpace(t[i])
    ensures var a, b := |s| - |t|, |s| - |t| + |r|;
      && 0 <= a <= b <= |s| && r == s[a..b]
      && (forall i | 0 <= i < a :: IsJsSpace(s[i]))
      && (forall i | b <= i < |s| :: IsJsSpace(s[i]))
  {
    var a := |s| - |t|;
    var b := a + |r|;
    assert t == s[a..];
    assert r == t[..|r|];
    forall k | 0 <= k < |r| ensures r[k] == s[a..b][k] {
      assert r[k] == t[k];
    }
    assert r == s[a..b];
    forall i | b <= i < |s| ensures IsJsSpace(s[i]) {
      assert s[i] == t[i - a];
    }
  }

  function DigitChar(d: nat): char
    requires d < 10
  {
    "0123456789"[d]
  }

  /** The decimal rendering `${n}` of a natural number. */
  function NatText(n: nat): (s: string)
    ensures |s| >= 1
    ensures forall i | 0 <= i < |s| :: '0' <= s[i] <= '9'
    ensures n >= 10 ==> |s| >= 2
  {
    if n < 10 then [DigitChar(n)] else NatText(n / 10) + [DigitChar(n % 10)]
  }

  /** Distinct numbers render differently. */
  lemma {:induction false} NatTextInjective(a: nat, b: nat)
    requires NatText(a) == NatText(b)
    ensures a == b
  {
    if a >= 10 && b >= 10 {
      var sa := NatText(a);
      assert sa[..|sa| - 1] == NatText(a / 10);
      assert NatText(b)[..|sa| - 1] == NatText(b / 10);
      NatTextInjective(a / 10, b / 10);
      assert DigitChar(a % 10) == DigitChar(b % 10);
    }
  }

  /** `Math.round(x)`: the nearest integer, halves rounded toward +infinity. */
  function JsRound(x: real): (r: int)
    ensures x - 0.5 < r as real <= x + 0.5
  {
    (x + 0.5).Floor
  }

  /** `Math.round(x * 100)`. */
  function Hundredths(x: real): int {
    JsRound(x * 100.0)
  }

  /** `Math.round(x * 100) / 100`, computed exactly over the rationals. */
  function Round2(x: real): (r: real)
    ensures x - 0.005 < r <= x + 0.005
    ensures (r * 100.0).Floor as real == r * 100.0
  {
    var h := Hundredths(x);
    assert (h as real / 100.0) * 100.0 == h as real;
    h as real / 100.0
  }

  /** The JavaScript rendering of a non-negative number with at most two
      decimals, given as its count of hundredths: no trailing zeros and no
      decimal point for whole numbers. */
  function HundredthsText(c: nat): string {
    var whole := NatText(c / 100);
    var frac := c % 100;
    if frac == 0 then whole
    else if frac % 10 == 0 then whole + "." + [DigitChar(frac / 10)]
    else whole + "." + [DigitChar(frac / 10), DigitChar(frac % 10)]
  }
}

=== FILE: traffic.dfy ===
/** The window-level heuristics of `TrafficAnalyzer`: packet rate,
    single-source port fan-out, and repeated connections. All three are pure
    functions of the batch; absence of signal is a normal result. */
module Traffic {
  import opened Wrappers
  import Counting
  import Text
  import opened Packets

  // ---------------------------------------------------------------------------
  // Denial of service

  datatype DosResult = DosResult(isDosAttack: bool, packetsPerSecond: real, uniqueSourceIps: nat)

  const DosRateThreshold: real := 100.0

  /** The unrounded rate: packets over the span in seconds, 0 when the span is
      not positive. */
  function PacketRate(packets: seq<Packet>): (rate: real)
    requires |packets| > 0
    ensures rate >= 0.0
    ensures Span(packets) <= 0 ==> rate == 0.0
    ensures Span(packets) > 0 ==> rate * (Span(packets) as real) == (|packets| * 1000) as real
  {
    var timeRange := Span(packets) as real / 1000.0;
    if timeRange > 0.0 then |packets| as real / timeRange else 0.0
  }

  /** `detectDosAttack`: flagged iff strictly more than 100 packets per
      second, i.e. `n * 1000 > 100 * span` for a positive span in ms; a
      non-positive span is never flagged. The reported rate is rounded to two
      decimals. */
  function DetectDos(packets: seq<Packet>): (r: DosResult)
    ensures |packets| == 0 ==> r == DosResult(false, 0.0, 0)
    ensures |packets| > 0 ==>
      && r.uniqueSourceIps == |Counting.Image(packets, SourceIpOf)|
      && 1 <= r.uniqueSourceIps <= |packets|
    ensures |packets| > 0 && Span(packets) <= 0 ==> !r.isDosAttack && r.packetsPerSecond == 0.0
    ensures |packets| > 0 && Span(packets) > 0 ==>
      (r.isDosAttack <==> |packets| * 1000 > 100 * Span(packets))
    ensures |packets| > 0 ==> r.packetsPerSecond == Text.Round2(PacketRate(packets))
    ensures r.packetsPerSecond >= 0.0
  {
    if |packets| == 0 then DosResult(false, 0.0, 0)
    else
      var rate := PacketRate(packets);
      Counting.ImageCard(packets, SourceIpOf);
      RateThreshold(|packets|, Span(packets), rate);
      DosResult(rate > DosRateThreshold, Text.Round2(rate), |Counting.Image(packets, SourceIpOf)|)
  }

  lemma RateThreshold(n: nat, span: int, rate: real)
    requires span > 0 ==> rate * (span as real) == (n * 1000) as real
    ensures span > 0 ==> (rate > 100.0 <==> n * 1000 > 100 * span)
  {
    if span > 0 {
      var s := span as real;
      var d := rate - 100.0;
      assert d * s == rate * s - 100.0 * s;
      assert (n * 1000) as real - (100 * span) as real == d * s;
      if d > 0.0 {
        PositiveProduct(d, s);
      } else {
        PositiveProduct(-d, s);
      }
    }
  }

  lemma PositiveProduct(a: real, b: real)
    requires a >= 0.0 && b > 0.0
    ensures a * b >= 0.0 && (a > 0.0 ==> a * b > 0.0)
  {
  }

  // ---------------------------------------------------------------------------
  // Port scan

  datatype PortScanResult = PortScanResult(isPortScan: bool, uniquePorts: nat, targetIp: Option<string>)

  const PortScanThreshold: nat := 10

  /** Every packet goes from the first packet's source to its destination. */
  predicate SinglePair(packets: seq<Packet>)
    requires |packets| > 0
  {
    forall i | 0 <= i < |packets| ::
      packets[i].sourceIp == packets[0].sourceIp && packets[i].destinationIp == packets[0].destinationIp
  }

  /** `detectPortScan`: only a batch from one source to one target is
      considered, and it is a scan when it touches more than 10 distinct
      destination ports. Any other batch reports no ports and no target. */
  function DetectPortScan(packets: seq<Packet>): (r: PortScanResult)
    ensures r.isPortScan <==>
      |packets| > 0 && SinglePair(packets) && |Counting.Image(packets, DestinationPortOf)| > 10
    ensures r.targetIp.Some? <==> |packets| > 0 && SinglePair(packets)
    ensures |packets| > 0 && SinglePair(packets) ==>
      && r.targetIp == Some(packets[0].destinationIp)
      && r.uniquePorts == |Counting.Image(packets, DestinationPortOf)|
      && 1 <= r.uniquePorts <= |packets|
    ensures !(|packets| > 0 && SinglePair(packets)) ==> r.uniquePorts == 0 && !r.isPortScan
  {
    if |packets| == 0 then PortScanResult(false, 0, None)
    else
      var sourceIps := Counting.Image(packets, SourceIpOf);
      var destIps := Counting.Image(packets, DestinationIpOf);
      Counting.ImageSingleton(packets, SourceIpOf);
      Counting.ImageSingleton(packets, DestinationIpOf);
      if |sourceIps| == 1 && |destIps| == 1 then
        var uniquePorts := |Counting.Image(packets, DestinationPortOf)|;
        Counting.ImageCard(packets, DestinationPortOf);
        PortScanResult(uniquePorts > PortScanThreshold, uniquePorts, Some(packets[0].destinationIp))
      else
        PortScanResult(false, 0, None)
  }

  // ---------------------------------------------------------------------------
  // Brute force

  /** The grouping key (source IP, destination IP, destination port). */
  datatype ConnKey = ConnKey(sourceIp: string, destinationIp: string, destinationPort: int)

  datatype BruteForceResult = BruteForceResult(isBruteForce: bool, failedAttempts: nat, targetPort: int)

  const BruteForceThreshold: nat := 10

  function KeyOf(p: Packet): ConnKey {
    ConnKey(p.sourceIp, p.destinationIp, p.destinationPort)
  }

  function Keys(packets: seq<Packet>): (keys: seq<ConnKey>)
    ensures |keys| == |packets|
    ensures forall i | 0 <= i < |packets| :: keys[i] == KeyOf(packets[i])
  {
    seq(|packets|, i requires 0 <= i < |packets| => KeyOf(packets[i]))
  }

  /** The first group of `order` reaching `v` on port `p`. */
  predicate FirstMaxAt(order: seq<ConnKey>, counts: map<ConnKey, nat>, v: nat, p: int, j: int) {
    && 0 <= j < |order|
    && Counting.Get(counts, order[j]) == v && order[j].destinationPort == p
    && forall i | 0 <= i < j :: Counting.Get(counts, order[i]) < v
  }

  /** The `connectionMap.forEach` scan: a group replaces the current best
      only with a strictly larger count, so the first group in order to reach
      the maximum supplies the port. */
  function ScanGroups(order: seq<ConnKey>, counts: map<ConnKey, nat>, best: nat, port: int): (r: (nat, int))
    ensures r.0 >= best
    ensures forall k | k in order :: Counting.Get(counts, k) <= r.0
    ensures r.0 == best ==> r.1 == port
    ensures r.0 > best ==> exists j :: FirstMaxAt(order, counts, r.0, r.1, j)
  {
    if |order| == 0 then (best, port)
    else
      var c := Counting.Get(counts, order[0]);
      var r := if c > best then ScanGroups(order[1..], counts, c, order[0].destinationPort)
               else ScanGroups(order[1..], counts, best, port);
      ScanStep(order, counts, best, port, r);
      r
  }

  lemma ScanStep(order: seq<ConnKey>, counts: map<ConnKey, nat>, best: nat, port: int, r: (nat, int))
    requires |order| > 0
    requires var c := Counting.Get(counts, order[0]);
      r == if c > best then ScanGroups(order[1..], counts, c, order[0].destinationPort)
           else ScanGroups(order[1..], counts, best, port)
    ensures r.0 >= best
    ensures forall k | k in order :: Counting.Get(counts, k) <= r.0
    ensures r.0 == best ==> r.1 == port
    ensures r.0 > best ==> exists j :: FirstMaxAt(order, counts, r.0, r.1, j)
  {
    var c := Counting.Get(counts, order[0]);
    assert forall k | k in order :: k == order[0] || k in order[1..];
    if r.0 > best && !(c > best && r.0 == c && r.1 == order[0].destinationPort) {
      ShiftFirstMax(order, counts, r.0, r.1);
    } else if r.0 > best {
      assert FirstMaxAt(order, counts, r.0, r.1, 0);
    }
  }

  /** A first maximal group of the tail is one of the whole when the head
      falls short of it. */
  lemma ShiftFirstMax(order: seq<ConnKey>, counts: map<ConnKey, nat>, v: nat, p: int)
    requires |order| > 0 && Counting.Get(counts, order[0]) < v
    requires exists j :: FirstMaxAt(order[1..], counts, v, p, j)
    ensures exists j :: FirstMaxAt(order, counts, v, p, j)
  {
    var rest := order[1..];
    var j :| FirstMaxAt(rest, counts, v, p, j);
    assert order[j + 1] == rest[j];
    forall i | 0 <= i < j + 1 ensures Counting.Get(counts, order[i]) < v {
      if i > 0 {
        assert order[i] == rest[i - 1];
      }
    }
    assert FirstMaxAt(order, counts, v, p, j + 1);
  }

  /** `detectBruteForce`: `failedAttempts` is the size of the largest
      (source, destination, port) group, the port is that of the first such
      group in insertion order, and the batch is flagged iff more than 10. */
  function DetectBruteForce(packets: seq<Packet>): (r: BruteForceResult)
    ensures |packets| == 0 ==> r == BruteForceResult(false, 0, 0)
    ensures r.isBruteForce <==> r.failedAttempts > BruteForceThreshold
    ensures |packets| > 0 ==>
      var keys := Keys(packets);
      var order := Counting.Dedup(keys);
      && 1 <= r.failedAttempts <= |packets|
      && (forall i | 0 <= i < |packets| :: multiset(keys)[keys[i]] <= r.failedAttempts)
      && (exists j :: (0 <= j < |order|
            && multiset(keys)[order[j]] == r.failedAttempts
            && order[j].destinationPort == r.targetPort
            && forall i | 0 <= i < j :: multiset(keys)[order[i]] < r.failedAttempts))
  {
    if |packets| == 0 then BruteForceResult(false, 0, 0)
    else
      var keys := Keys(packets);
      var counts := Counting.Tally(keys);
      var order := Counting.Dedup(keys);
      var best := ScanGroups(order, counts, 0, 0);
      BruteForceFacts(keys, counts, order, best);
      BruteForceResult(best.0 > BruteForceThreshold, best.0, best.1)
  }

  lemma BruteForceFacts(keys: seq<ConnKey>, counts: map<ConnKey, nat>, order: seq<ConnKey>, best: (nat, int))
    requires |keys| > 0
    requires counts == Counting.Tally(keys) && order == Counting.Dedup(keys)
    requires best == ScanGroups(order, counts, 0, 0)
    ensures 1 <= best.0 <= |keys|
    ensures forall i | 0 <= i < |keys| :: multiset(keys)[keys[i]] <= best.0
    ensures exists j :: (0 <= j < |order|
            && multiset(keys)[order[j]] == best.0
            && order[j].destinationPort == best.1
            && forall i | 0 <= i < j :: multiset(keys)[order[i]] < best.0)
  {
    assert keys[0] in order;
    Counting.TallyGet(keys, keys[0]);
    forall k ensures Counting.Get(counts, k) == multiset(keys)[k] {
      Counting.TallyGet(keys, k);
    }
    forall i | 0 <= i < |keys| ensures multiset(keys)[keys[i]] <= best.0 {
      assert keys[i] in order;
    }
    var j :| FirstMaxAt(order, counts, best.0, best.1, j);
    assert multiset(keys)[order[j]] <= |multiset(keys)| == |keys|;
  }
}

=== FILE: tree.dfy ===
/** `DecisionTree` and `TreeNode`: recursive induction of a classification
    tree over real-valued feature rows, prediction, and the object form of
    save/load. Entropy is not modelled: the information gain of a candidate
    split is an oracle `gain(labels, leftIndices, rightIndices)`. */
module DecisionTree {
  import opened Wrappers
  import Counting

  // ---------------------------------------------------------------------------
  // Nodes and prediction

  /** A `TreeNode`: the majority class of the node's sample and, for an
      internal node, the split feature, threshold and children. As in the
      class, each of the last four may be absent. */
  datatype Node = Node(
    value: nat,
    featureIndex: Option<nat>,
    threshold: Option<real>,
    left: Option<Node>,
    right: Option<Node>)

  function Leaf(value: nat): Node {
    Node(value, None, None, None, None)
  }

  function Split(value: nat, feature: nat, threshold: real, left: Node, right: Node): Node {
    Node(value, Some(feature), Some(threshold), Some(left), Some(right))
  }

  /** Every node is either a leaf with no split fields or carries all four,
      the two shapes `buildTree` constructs. */
  predicate WellFormed(n: Node) {
    if n.featureIndex.None? then n.threshold.None? && n.left.None? && n.right.None?
    else
      && n.threshold.Some? && n.left.Some? && n.right.Some?
      && WellFormed(n.left.value) && WellFormed(n.right.value)
  }

  /** `features[featureIndex] <= (threshold || 0)`: an index past the end of
      the vector reads `undefined`, which compares false, so the vector goes
      right. */
  predicate GoesLeft(x: seq<real>, i: nat, threshold: Option<real>) {
    i < |x| && x[i] <= threshold.GetOr(0.0)
  }

  /** The child a feature vector descends into at an internal node. */
  function Branch(n: Node, x: seq<real>): Option<Node>
    requires n.featureIndex.Some?
  {
    if GoesLeft(x, n.featureIndex.value, n.threshold) then n.left else n.right
  }

  /** `TreeNode.predict` as written: a child's result goes through
      `|| this.value`, so a child predicting class 0 is overridden by the
      node's own majority class. */
  function PredictAsWritten(n: Node, x: seq<real>): nat {
    if n.featureIndex.None? then n.value
    else
      var child := Branch(n, x);
      var c := if child.Some? then PredictAsWritten(child.value, x) else 0;
      if c == 0 then n.value else c
  }

  /** Prediction as intended: the value of the node where the descent stops,
      a leaf or an internal node missing the chosen child. */
  function Descend(n: Node, x: seq<real>): nat {
    if n.featureIndex.None? then n.value
    else
      var child := Branch(n, x);
      if child.Some? then Descend(child.value, x) else n.value
  }

  /** The class of every node of the tree. */
  function Values(n: Node): set<nat> {
    {n.value}
      + (if n.left.Some? then Values(n.left.value) else {})
      + (if n.right.Some? then Values(n.right.value) else {})
  }

  function Height(n: Node): nat {
    if n.featureIndex.None? then 0
    else
      var l := if n.left.Some? then Height(n.left.value) else 0;
      var r := if n.right.Some? then Height(n.right.value) else 0;
      1 + (if l < r then r else l)
  }

  function LeafCount(n: Node): nat {
    if n.featureIndex.None? then 1
    else
      (if n.left.Some? then LeafCount(n.left.value) else 0)
        + (if n.right.Some? then LeafCount(n.right.value) else 0)
  }

  /** The prediction is the class of one of the tree's nodes. */
  lemma {:induction false} DescendInValues(n: Node, x: seq<real>)
    ensures Descend(n, x) in Values(n)
  {
    if n.featureIndex.Some? {
      var child := Branch(n, x);
      if child.Some? {
        DescendInValues(child.value, x);
      }
    }
  }

  /** Where the intended prediction is a non-zero class the written code
      returns it too; the two differ only by replacing a 0 with an ancestor's
      class. */
  lemma {:induction false} AsWrittenAgrees(n: Node, x: seq<real>)
    ensures Descend(n, x) != 0 ==> PredictAsWritten(n, x) == Descend(n, x)
    ensures PredictAsWritten(n, x) == 0 ==> Descend(n, x) == 0 && n.value == 0
    ensures PredictAsWritten(n, x) in Values(n)
  {
    if n.featureIndex.Some? {
      var child := Branch(n, x);
      if child.Some? {
        AsWrittenAgrees(child.value, x);
      }
    }
  }

  /** A split node of class 1 whose left leaf has class 0: the written code
      answers 1 for a vector that reaches the class-0 leaf. */
  lemma ZeroLeafOverridden()
    ensures var t := Split(1, 0, 0.0, Leaf(0), Leaf(1));
      Descend(t, [0.0]) == 0 && PredictAsWritten(t, [0.0]) == 1
  {
  }

  // ---------------------------------------------------------------------------
  // Candidate splits

  /** Row `row` lies on the given side of `threshold` in feature `k`: the
      `<=` side for the left, `>` for the right. A missing value reads
      `undefined` and lies on neither side. */
  predicate OnSide(row: seq<real>, k: nat, threshold: real, goLeft: bool) {
    k < |row| && (if goLeft then row[k] <= threshold else row[k] > threshold)
  }

  /** `features.map((f, i) => f[k] <= t ? i : -1).filter((i) => i !== -1)`
      and its `>` twin: the indices, in order, of the rows on that side. */
  function Side(rows: seq<seq<real>>, k: nat, threshold: real, goLeft: bool): (r: seq<nat>)
    ensures |r| <= |rows| && Counting.Ascending(r)
    ensures forall j | 0 <= j < |r| :: r[j] < |rows| && OnSide(rows[r[j]], k, threshold, goLeft)
    ensures forall i: nat | i < |rows| && OnSide(rows[i], k, threshold, goLeft) :: i in r
  {
    if |rows| == 0 then []
    else
      var n := |rows| - 1;
      var prefix := Side(rows[..n], k, threshold, goLeft);
      assert forall i | 0 <= i < n :: rows[..n][i] == rows[i];
      prefix + (if OnSide(rows[n], k, threshold, goLeft) then [n] else [])
  }

  /** The two sides of a threshold share no row, so together they hold at
      most all the rows, and exactly all of them when every row has feature
      `k`. */
  lemma {:induction false} SidesFit(rows: seq<seq<real>>, k: nat, threshold: real)
    ensures |Side(rows, k, threshold, true)| + |Side(rows, k, threshold, false)| <= |rows|
    ensures (forall i | 0 <= i < |rows| :: k < |rows[i]|) ==>
      |Side(rows, k, threshold, true)| + |Side(rows, k, threshold, false)| == |rows|
  {
    if |rows| > 0 {
      SidesFit(rows[..|rows| - 1], k, threshold);
    }
  }

  /** `indices.map((i) => s[i])`. */
  function Pick<T>(s: seq<T>, indices: seq<nat>): (r: seq<T>)
    requires forall j | 0 <= j < |indices| :: indices[j] < |s|
    ensures |r| == |indices|
    ensures forall j | 0 <= j < |r| :: r[j] == s[indices[j]]
    ensures forall y | y in r :: y in s
  {
    seq(|indices|, j requires 0 <= j < |indices| => s[indices[j]])
  }

  /** The values present in column `k`, in row order. */
  function Column(rows: seq<seq<real>>, k: nat): (r: seq<real>)
    ensures forall v :: v in r <==> exists i :: 0 <= i < |rows| && k < |rows[i]| && rows[i][k] == v
  {
    if |rows| == 0 then []
    else
      var n := |rows| - 1;
      var prefix := Column(rows[..n], k);
      assert forall i | 0 <= i < n :: rows[..n][i] == rows[i];
      prefix + (if k < |rows[n]| then [rows[n][k]] else [])
  }

  /** Strictly increasing thresholds: the `real` counterpart of
      `Counting.Ascending`, which orders indices and labels. */
  predicate Increasing(s: seq<real>) {
    forall i, j | 0 <= i < j < |s| :: s[i] < s[j]
  }

  function InsertIncreasing(s: seq<real>, x: real): (r: seq<real>)
    requires Increasing(s)
    ensures Increasing(r)
    ensures forall y :: y in r <==> y in s || y == x
  {
    if |s| == 0 then [x]
    else if x < s[0] then
      assert forall i | 0 <= i < |s| :: x < s[i] by {
        forall i | 0 <= i < |s| ensures x < s[i] {
          if i > 0 {
            assert s[0] < s[i];
          }
        }
      }
      [x] + s
    else if x == s[0] then s
    else
      var rest := InsertIncreasing(s[1..], x);
      assert s == [s[0]] + s[1..];
      forall y | y in rest ensures s[0] < y {
        if y != x {
          var k :| 0 <= k < |s[1..]| && s[1..][k] == y;
          assert s[k + 1] == y;
        }
      }
      var r := [s[0]] + rest;
      forall i, j | 0 <= i < j < |r| ensures r[i] < r[j] {
        assert r[j] == rest[j - 1];
        if i == 0 {
          assert rest[j - 1] in rest;
        } else {
          assert r[i] == rest[i - 1];
        }
      }
      r
  }

  /** `Array.from(new Set(values)).sort((a, b) => a - b)`. */
  function SortedDistinct(s: seq<real>): (r: seq<real>)
    ensures Increasing(r)
    ensures forall y :: y in r <==> y in s
  {
    if |s| == 0 then [] else InsertIncreasing(SortedDistinct(s[..|s| - 1]), s[|s| - 1])
  }

  /** The thresholds tried for feature `k`: its distinct present values in
      ascending order. A row's missing value is collected as `undefined`,
      sorted last and skipped because both of its sides are empty. */
  function Thresholds(rows: seq<seq<real>>, k: nat): (r: seq<real>)
    ensures Increasing(r)
    ensures forall v :: v in r <==> exists i :: 0 <= i < |rows| && k < |rows[i]| && rows[i][k] == v
  {
    SortedDistinct(Column(rows, k))
  }

  /** The split search state: `bestGain`, `bestFeature`, `bestThreshold`,
      `bestLeftIndices`, `bestRightIndices`. */
  datatype Best = Best(gain: real, feature: nat, threshold: real, left: seq<nat>, right: seq<nat>)

  /** The initial search state. */
  function NoSplit(): Best {
    Best(0.0, 0, 0.0, [], [])
  }

  type Gain = (seq<nat>, seq<nat>, seq<nat>) -> real

  /** A positive-gain state records the two non-empty sides of its threshold. */
  predicate Sound(rows: seq<seq<real>>, b: Best) {
    b.gain > 0.0 ==>
      && b.left == Side(rows, b.feature, b.threshold, true)
      && b.right == Side(rows, b.feature, b.threshold, false)
      && |b.left| > 0 && |b.right| > 0
  }

  /** One iteration of the inner loop: a threshold with an empty side is
      skipped, and a strictly larger gain replaces the best so far. */
  function Consider(rows: seq<seq<real>>, labels: seq<nat>, gain: Gain, k: nat, t: real, best: Best): (r: Best)
    requires Sound(rows, best)
    ensures Sound(rows, r) && best.gain <= r.gain
  {
    var l := Side(rows, k, t, true);
    var rt := Side(rows, k, t, false);
    if |l| == 0 || |rt| == 0 then best
    else
      var g := gain(labels, l, rt);
      if g > best.gain then Best(g, k, t, l, rt) else best
  }

  /** The inner loop over the thresholds of feature `k`. */
  function SearchThresholds(rows: seq<seq<real>>, labels: seq<nat>, gain: Gain, k: nat, ts: seq<real>, best: Best): (r: Best)
    requires Sound(rows, best)
    ensures Sound(rows, r) && best.gain <= r.gain
    decreases |ts|
  {
    if |ts| == 0 then best
    else SearchThresholds(rows, labels, gain, k, ts[1..], Consider(rows, labels, gain, k, ts[0], best))
  }

  /** The outer loop over features `k .. numFeatures - 1`. */
  function SearchFeatures(rows: seq<seq<real>>, labels: seq<nat>, gain: Gain, k: nat, numFeatures: nat, best: Best): (r: Best)
    requires Sound(rows, best)
    ensures Sound(rows, r) && best.gain <= r.gain
    decreases numFeatures - k
  {
    if k >= numFeatures then best
    else
      var next := SearchThresholds(rows, labels, gain, k, Thresholds(rows, k), best);
      SearchFeatures(rows, labels, gain, k + 1, numFeatures, next)
  }

  /** A split the search tries: a present value of one of the first
      `numFeatures` features, with neither side empty. */
  predicate Candidate(rows: seq<seq<real>>, numFeatures: nat, k: nat, t: real) {
    && k < numFeatures && t in Thresholds(rows, k)
    && |Side(rows, k, t, true)| > 0 && |Side(rows, k, t, false)| > 0
  }

  /** `calculateGain` of the split of feature `k` at threshold `t`. */
  function GainOf(rows: seq<seq<real>>, labels: seq<nat>, gain: Gain, k: nat, t: real): real {
    gain(labels, Side(rows, k, t, true), Side(rows, k, t, false))
  }

  /** A state that records the split of feature `k` at threshold `t`. */
  predicate Records(rows: seq<seq<real>>, labels: seq<nat>, gain: Gain, b: Best) {
    && b.left == Side(rows, b.feature, b.threshold, true)
    && b.right == Side(rows, b.feature, b.threshold, false)
    && |b.left| > 0 && |b.right| > 0
    && b.gain == GainOf(rows, labels, gain, b.feature, b.threshold)
  }

  /** The inner loop ends with a gain at least that of every threshold with
      two non-empty sides, and either keeps its starting state or records
      one of those thresholds. */
  lemma {:induction false} ThresholdsOptimal(rows: seq<seq<real>>, labels: seq<nat>, gain: Gain, k: nat, ts: seq<real>, best: Best)
    requires Sound(rows, best)
    ensures var r := SearchThresholds(rows, labels, gain, k, ts, best);
      && (forall t | t in ts && |Side(rows, k, t, true)| > 0 && |Side(rows, k, t, false)| > 0 ::
            GainOf(rows, labels, gain, k, t) <= r.gain)
      && (r == best || (r.feature == k && r.threshold in ts && Records(rows, labels, gain, r)))
    decreases |ts|
  {
    if |ts| > 0 {
      var next := Consider(rows, labels, gain, k, ts[0], best);
      ThresholdsOptimal(rows, labels, gain, k, ts[1..], next);
      forall t | t in ts ensures t == ts[0] || t in ts[1..] {
        var j :| 0 <= j < |ts| && ts[j] == t;
        if j > 0 {
          assert ts[1..][j - 1] == t;
        }
      }
      var r := SearchThresholds(rows, labels, gain, k, ts, best);
      assert r == SearchThresholds(rows, labels, gain, k, ts[1..], next);
      if r != best && r == next {
        assert ts[0] in ts;
      }
      if r != next {
        assert r.threshold in ts[1..];
      }
    }
  }

  /** The outer loop from feature `k` on: the same two facts over all the
      features it visits. */
  lemma {:induction false} FeaturesOptimal(rows: seq<seq<real>>, labels: seq<nat>, gain: Gain, k: nat, numFeatures: nat, best: Best)
    requires Sound(rows, best)
    ensures var r := SearchFeatures(rows, labels, gain, k, numFeatures, best);
      && (forall f, t | k <= f && Candidate(rows, numFeatures, f, t) :: GainOf(rows, labels, gain, f, t) <= r.gain)
      && (r == best || (k <= r.feature && Candidate(rows, numFeatures, r.feature, r.threshold) && Records(rows, labels, gain, r)))
    decreases numFeatures - k
  {
    if k < numFeatures {
      var next := SearchThresholds(rows, labels, gain, k, Thresholds(rows, k), best);
      ThresholdsOptimal(rows, labels, gain, k, Thresholds(rows, k), best);
      FeaturesOptimal(rows, labels, gain, k + 1, numFeatures, next);
      var r := SearchFeatures(rows, labels, gain, k + 1, numFeatures, next);
      assert r == SearchFeatures(rows, labels, gain, k, numFeatures, best);
      assert next.gain <= r.gain;
      forall f, t | k <= f && Candidate(rows, numFeatures, f, t)
        ensures GainOf(rows, labels, gain, f, t) <= r.gain
      {
        if f == k {
          assert t in Thresholds(rows, k);
        }
      }
      if r == next && next != best {
        assert Candidate(rows, numFeatures, r.feature, r.threshold);
      }
    }
  }

  // ---------------------------------------------------------------------------
  // Induction

  /** `Object.keys(classCount).length === 1`: the sample holds one class. */
  predicate SingleClass(labels: seq<nat>) {
    |Counting.Dedup(labels)| == 1
  }

  /** The stopping rules checked before any split is searched. */
  predicate Stops(n: nat, labels: seq<nat>, depth: nat, maxDepth: int, minSamplesSplit: int) {
    depth >= maxDepth || n < minSamplesSplit || SingleClass(labels)
  }

  /** A split node over two well-formed children is well-formed, and its
      classes come from the sample when its children's come from sub-samples. */
  lemma SplitFacts(m: nat, f: nat, t: real, left: Node, right: Node, labels: seq<nat>, leftLabels: seq<nat>, rightLabels: seq<nat>)
    requires WellFormed(left) && WellFormed(right) && m in labels
    requires forall v | v in Values(left) :: v in leftLabels
    requires forall v | v in Values(right) :: v in rightLabels
    requires forall y | y in leftLabels :: y in labels
    requires forall y | y in rightLabels :: y in labels
    ensures WellFormed(Split(m, f, t, left, right))
    ensures forall v | v in Values(Split(m, f, t, left, right)) :: v in labels
    ensures Height(Split(m, f, t, left, right)) == 1 + (if Height(left) < Height(right) then Height(right) else Height(left))
    ensures LeafCount(Split(m, f, t, left, right)) == LeafCount(left) + LeafCount(right)
  {
  }

  /** `buildTree`: a leaf of the majority class when a stopping rule holds or
      no split has positive gain, otherwise a split on the best feature and
      threshold over the two sides' sub-samples. The first feature, and
      within it the smallest threshold, wins a tie in gain. Every call
      receives a non-empty sample, as `features[0].length` requires. */
  function BuildTree(rows: seq<seq<real>>, labels: seq<nat>, depth: nat, maxDepth: int, minSamplesSplit: int, gain: Gain): (r: Node)
    requires |rows| > 0 && |labels| == |rows|
    ensures WellFormed(r)
    ensures r.value == Counting.Majority(labels)
    ensures Stops(|rows|, labels, depth, maxDepth, minSamplesSplit) ==> r == Leaf(r.value)
    ensures forall v | v in Values(r) :: v in labels
    ensures depth + Height(r) <= if depth < maxDepth then maxDepth else depth
    ensures LeafCount(r) <= |rows|
    decreases |rows|
  {
    var majority := Counting.Majority(labels);
    if Stops(|rows|, labels, depth, maxDepth, minSamplesSplit) then Leaf(majority)
    else
      var best := SearchFeatures(rows, labels, gain, 0, |rows[0]|, NoSplit());
      if best.gain == 0.0 then Leaf(majority)
      else
        SidesFit(rows, best.feature, best.threshold);
        var leftLabels := Pick(labels, best.left);
        var rightLabels := Pick(labels, best.right);
        var left := BuildTree(Pick(rows, best.left), leftLabels, depth + 1, maxDepth, minSamplesSplit, gain);
        var right := BuildTree(Pick(rows, best.right), rightLabels, depth + 1, maxDepth, minSamplesSplit, gain);
        SplitFacts(majority, best.feature, best.threshold, left, right, labels, leftLabels, rightLabels);
        Split(majority, best.feature, best.threshold, left, right)
  }

  /** `buildTree` returns a leaf exactly when a stopping rule holds or no
      candidate split has positive gain; otherwise it splits on a candidate of
      maximal gain and builds each child from the sub-sample on its side. */
  lemma BuildTreeSplits(rows: seq<seq<real>>, labels: seq<nat>, depth: nat, maxDepth: int, minSamplesSplit: int, gain: Gain)
    requires |rows| > 0 && |labels| == |rows|
    ensures var r := BuildTree(rows, labels, depth, maxDepth, minSamplesSplit, gain);
      r.featureIndex.None? <==>
        || Stops(|rows|, labels, depth, maxDepth, minSamplesSplit)
        || forall f, t | Candidate(rows, |rows[0]|, f, t) :: GainOf(rows, labels, gain, f, t) <= 0.0
    ensures var r := BuildTree(rows, labels, depth, maxDepth, minSamplesSplit, gain);
      r.featureIndex.Some? ==>
        var f := r.featureIndex.value;
        var t := r.threshold.value;
        var l := Side(rows, f, t, true);
        var rt := Side(rows, f, t, false);
        && Candidate(rows, |rows[0]|, f, t)
        && GainOf(rows, labels, gain, f, t) > 0.0
        && (forall f', t' | Candidate(rows, |rows[0]|, f', t') :: GainOf(rows, labels, gain, f', t') <= GainOf(rows, labels, gain, f, t))
        && r.left == Some(BuildTree(Pick(rows, l), Pick(labels, l), depth + 1, maxDepth, minSamplesSplit, gain))
        && r.right == Some(BuildTree(Pick(rows, rt), Pick(labels, rt), depth + 1, maxDepth, minSamplesSplit, gain))
  {
    var best := SearchFeatures(rows, labels, gain, 0, |rows[0]|, NoSplit());
    FeaturesOptimal(rows, labels, gain, 0, |rows[0]|, NoSplit());
    BuildTreeUnfold(rows, labels, depth, maxDepth, minSamplesSplit, gain, best);
    if !Stops(|rows|, labels, depth, maxDepth, minSamplesSplit) && best.gain != 0.0 {
      assert best != NoSplit();
      assert Candidate(rows, |rows[0]|, best.feature, best.threshold);
    }
  }

  /** One step of `buildTree`'s recursion, with the search result named. */
  lemma BuildTreeUnfold(rows: seq<seq<real>>, labels: seq<nat>, depth: nat, maxDepth: int, minSamplesSplit: int, gain: Gain, best: Best)
    requires |rows| > 0 && |labels| == |rows|
    requires best == SearchFeatures(rows, labels, gain, 0, |rows[0]|, NoSplit())
    ensures var r := BuildTree(rows, labels, depth, maxDepth, minSamplesSplit, gain);
      && (Stops(|rows|, labels, depth, maxDepth, minSamplesSplit) || best.gain == 0.0 ==> r.featureIndex.None?)
      && (!Stops(|rows|, labels, depth, maxDepth, minSamplesSplit) && best.gain != 0.0 ==>
            && r.featureIndex == Some(best.feature) && r.threshold == Some(best.threshold)
            && r.left == Some(BuildTree(Pick(rows, best.left), Pick(labels, best.left), depth + 1, maxDepth, minSamplesSplit, gain))
            && r.right == Some(BuildTree(Pick(rows, best.right), Pick(labels, best.right), depth + 1, maxDepth, minSamplesSplit, gain)))
  {
  }

  // ---------------------------------------------------------------------------
  // Trees, save and load

  /** A trained `DecisionTree`: its root and the two settings it was built
      with. */
  datatype Tree = Tree(root: Node, maxDepth: int, minSamplesSplit: int)

  /** `DecisionTree.train` on a non-empty sample. */
  function Train(maxDepth: int, minSamplesSplit: int, rows: seq<seq<real>>, labels: seq<nat>, gain: Gain): (t: Tree)
    requires |rows| > 0 && |labels| == |rows|
    ensures WellFormed(t.root) && Height(t.root) <= if maxDepth < 0 then 0 else maxDepth
    ensures forall v | v in Values(t.root) :: v in labels
    ensures t.maxDepth == maxDepth && t.minSamplesSplit == minSamplesSplit
  {
    Tree(BuildTree(rows, labels, 0, maxDepth, minSamplesSplit, gain), maxDepth, minSamplesSplit)
  }

  /** The object `TreeNode.save` produces, before JSON encoding: an absent
      field is `undefined`. */
  datatype SavedNode = SavedNode(
    value: nat,
    featureIndex: Option<nat>,
    threshold: Option<real>,
    left: Option<SavedNode>,
    right: Option<SavedNode>)

  datatype SavedTree = SavedTree(root: Option<SavedNode>, maxDepth: int, minSamplesSplit: int)

  function SaveNode(n: Node): SavedNode {
    SavedNode(n.value, n.featureIndex, n.threshold,
      if n.left.Some? then Some(SaveNode(n.left.value)) else None,
      if n.right.Some? then Some(SaveNode(n.right.value)) else None)
  }

  /** `TreeNode.load`: a child is rebuilt only when present. */
  function LoadNode(d: SavedNode): Node {
    Node(d.value, d.featureIndex, d.threshold,
      if d.left.Some? then Some(LoadNode(d.left.value)) else None,
      if d.right.Some? then Some(LoadNode(d.right.value)) else None)
  }

  /** Loading a saved node gives back the same node: same class, feature,
      threshold and children at every level. */
  lemma {:induction false} LoadSaveNode(n: Node)
    ensures LoadNode(SaveNode(n)) == n
  {
    if n.left.Some? {
      LoadSaveNode(n.left.value);
    }
    if n.right.Some? {
      LoadSaveNode(n.right.value);
    }
  }

  /** Saving a loaded object gives back the same object. */
  lemma {:induction false} SaveLoadNode(d: SavedNode)
    ensures SaveNode(LoadNode(d)) == d
  {
    if d.left.Some? {
      SaveLoadNode(d.left.value);
    }
    if d.right.Some? {
      SaveLoadNode(d.right.value);
    }
  }

  function SaveTree(t: Tree): SavedTree {
    SavedTree(Some(SaveNode(t.root)), t.maxDepth, t.minSamplesSplit)
  }

  /** `DecisionTree.load`: `TreeNode.load(data.root)` reads `data.root.value`,
      which throws when the saved root is absent. */
  function LoadTree(d: SavedTree): (r: Result<Tree>)
    ensures r.Failure? <==> d.root.None?
    ensures r.Failure? ==> r.error == MissingRoot
  {
    if d.root.None? then Failure(MissingRoot)
    else Success(Tree(LoadNode(d.root.value), d.maxDepth, d.minSamplesSplit))
  }

  /** Saving a loaded tree gives back the object it was loaded from. */
  lemma SaveLoadTree(d: SavedTree)
    requires d.root.Some?
    ensures SaveTree(LoadTree(d).value) == d
  {
    SaveLoadNode(d.root.value);
  }

  /** Loading a saved tree restores it exactly. */
  lemma LoadSaveTree(t: Tree)
    ensures LoadTree(SaveTree(t)) == Success(t)
  {
    LoadSaveNode(t.root);
  }
}

=== FILE: wrappers.dfy ===
/** Option and Result types shared by every module of the model.
    `Result` carries the error conditions the source signals by throwing. */
module Wrappers {

  datatype Option<+T> = None | Some(value: T) {
    function GetOr(default: T): T {
      match this
      case Some(v) => v
      case None => default
    }
  }

  /** The exceptional outcomes of the core. */
  datatype Error =
    | NotTrained                   // "Model is not trained"
    | EmptyTrainingData            // "Training data is empty"
    | EmptyVote                    // reduce of an empty key list in a zero-tree forest vote
    | NaNVote                      // 0 / 0 vote fractions of a forest configured with zero trees
    | MalformedPattern(ruleId: string)  // a string rule pattern that does not compile as a RegExp
    | MissingRoot                  // loading a saved tree whose root is absent reads `undefined.value`

  datatype Result<+T> = Success(value: T) | Failure(error: Error) {
    predicate IsFailure() {
      Failure?
    }

    function PropagateFailure<U>(): Result<U>
      requires Failure?
    {
      Failure(error)
    }

    function Extract(): T
      requires Success?
    {
      value
    }
  }
}
